=== FILE: README.md ===
# nexdf PDF engines, modelled in Dafny

nexdf turns HTML into PDF with one of two engines:

- **Native engine** (`packages/nexdf/src/native.ts`). It works in three steps:
  - It reads the class rules of the document's `<style>` blocks into a class table.
  - It walks the parsed HTML tree. For each element it works out a style by the cascade: inherited, then tag default, then classes, then the inline `style` attribute.
  - It lays the text out on A4 pages. Text is wrapped greedily to the width between the margins, and a new page starts whenever a line or gap no longer fits above the bottom margin.
- **Chromium engine** (`packages/nexdf/src/pdf.ts`). It prints with a headless browser that is shared by all callers. The browser's pages are kept in a small pool, with three parts:
  - a stack of idle pages;
  - the set of all pages;
  - a first-in first-out queue of callers waiting for a page.

  `generatePdfBuffer` dispatches between the two engines.

The model is a set of pure functions over immutable data:

| module | file | what it holds |
|---|---|---|
| `Options` | `options.dfy` | `null`/`undefined` as `None`, and `??` |
| `Text` | `text.dfy` | `trim` with the ECMAScript whitespace set, ASCII `toLowerCase`, `indexOf`, `split` and `join`, the word split `split(/\s+/).filter(Boolean)`, and collapseWhitespace |
| `Numbers` | `numbers.dfy` | `parseFloat` and `parseInt(_, 10)` as prefix readers, and decimal printing |
| `Colors` | `colors.dfy` | parseHexColor, parseRgbColor and parseColor, plus hex and `rgb()` printing for round trips |
| `Styles` | `style.dfy` | `RenderStyle` and `Partial<RenderStyle>`, object spread, toPoints, parseStyleDeclarations |
| `Cascade` | `cascade.dfy` | extractClassStyles over the rules, getTagStyle, mergeStyles, getElementStyle |
| `Layout` | `layout.dfy` | the render state, ensureRoom, addVerticalGap, wrapText (as a function and as the source's loop), drawTextBlock |
| `Render` | `render.dfy` | the node tree, renderNode, generateNativePdfBuffer |
| `Pool` | `pool.dfy` | the pool state, getExecutablePath, prewarmPdfEngine, one pass of acquirePage, releasePage, closeSharedBrowser, generatePdfBuffer |

How each part is represented:

- **The PDF document** is a page count plus the ordered list of drawing operations: a text line or a rule, each with its page, position, size and colour.
- **Font metrics** are a parameter `measure`: a weight, a size and a text give a width.
- **The page pool** is one state record. Each pool operation is an atomic transition on it.
- **Browser pages** are numbered in creation order. Which pages are closed is a parameter.
- **A caller woken from the wait queue** runs `AcquireStep` again, as the source's `while (true)` does.

Where the code and the usual description of the pool differ, the model follows the code. acquirePage pops only ONE idle page per pass of its loop. A closed page popped there is dropped from the idle stack, but it stays in `allPages` and keeps its place against the capacity. It leaves only when that page object is released again, which the pool itself never does. So a closed idle page is not "discarded and the search continued": with a full pool, the caller waits even when live pages sit under it on the stack (`Pool.ClosedPageBlocksAcquire`). The model keeps `Pool.AcquireStep` as written and gives the corrected pass next to it (see Findings).

## Model

| member | source | states |
|---|---|---|
| Text.TrimOfPadded | packages/nexdf/src/native.ts:90 | `trim` removes exactly the whitespace around an already-trimmed text, and nothing else |
| Text.TrimSkipsPadding | packages/nexdf/src/native.ts:90 | whitespace added at either end of any text does not change its `trim` |
| Text.TrimOfLower | packages/nexdf/src/native.ts:90 | `trim` and ASCII lower-casing commute, so the order in which toPoints and parseHexColor normalise does not matter |
| Text.LowerIdempotent | packages/nexdf/src/native.ts:110 | lower-casing twice is lower-casing once |
| Text.IndexOf | packages/nexdf/src/native.ts:158-161 | `-1` exactly when the character is absent; otherwise a position holding it with no earlier occurrence |
| Text.JoinSplit | packages/nexdf/src/native.ts:155 | joining the pieces of `split(sep)` with `sep` gives the text back |
| Text.SplitJoin | packages/nexdf/src/native.ts:247 | splitting a join of separator-free pieces gives the pieces back |
| Text.SplitConcat | packages/nexdf/src/native.ts:155 | splitting `a + sep + b` gives the pieces of `a` followed by the pieces of `b` |
| Text.WordsOfJoin | packages/nexdf/src/native.ts:326 | the word split of words joined by single spaces is those words |
| Text.CollapseIsJoinedWords | packages/nexdf/src/native.ts:321-323 | collapseWhitespace gives the words of its input joined by single spaces |
| Text.WordsOfCollapse | packages/nexdf/src/native.ts:321-323 | collapsing whitespace keeps every word, in order |
| Text.CollapseEmpty | packages/nexdf/src/native.ts:349-352 | the collapsed text is empty exactly when the input has no word, so drawTextBlock draws nothing for whitespace-only text |
| Numbers.ParseFloat | packages/nexdf/src/native.ts:96 | `parseFloat` yields a number only for text that holds a digit |
| Numbers.ParseFloatOfLiteral | packages/nexdf/src/native.ts:105 | every decimal literal, such as `-1.25e-3` or `0.5`, reads back as its value, whatever non-numeric text (such as a unit) follows it |
| Numbers.ParseIntOfNatStr | packages/nexdf/src/native.ts:178 | `parseInt(_, 10)` reads a printed natural number back, whatever non-digit text follows |
| Colors.HexPair | packages/nexdf/src/native.ts:117-126 | two hex digits read as `16*hi + lo`; other pairs read as `parseInt(_, 16)` does; `0x` alone is NaN; a result is negative only after a `-` |
| Colors.ParseHexColorAsWritten | packages/nexdf/src/native.ts:109-131 | parseHexColor as written: it reaches the colour constructor exactly for `#` plus 3 or 6 characters after trim, and a channel outside 0 to 255 or NaN makes that constructor throw |
| Colors.MalformedHexThrows | packages/nexdf/src/native.ts:116-127 | as written, `#ggg` (NaN channels) and `#-1-1-1` (channels of -1) both throw |
| Colors.ParseHexColor | packages/nexdf/src/native.ts:109-131 | the corrected reader: a colour exactly when the as-written reading builds one, and then the same colour, with every channel between 0 and 255 |
| Colors.RefusedHexLeavesColorUnset | packages/nexdf/src/native.ts:109-151 | a hex text that would throw as written is no colour for the corrected reader, for parseColor too |
| Colors.HexRoundTrip | packages/nexdf/src/native.ts:123-127 | printing any valid colour as `#rrggbb` and parsing it gives the colour back |
| Colors.ParseHexShortIsDoubled | packages/nexdf/src/native.ts:116-121 | `#abc` means the same colour as `#aabbcc` |
| Colors.ParseHexIgnoresCase | packages/nexdf/src/native.ts:110 | parseHexColor gives the same result on the lower-cased input |
| Colors.NotHexColor | packages/nexdf/src/native.ts:111-113 | trimmed text that does not start with `#` is not a hex colour |
| Colors.ParseRgbColor | packages/nexdf/src/native.ts:133-147 | a colour only when every channel is between 0 and 255 |
| Colors.RgbRoundTrip | packages/nexdf/src/native.ts:134-146 | `rgb(r,g,b)` with channels of up to three digits parses to those channels exactly when all are at most 255, and is rejected otherwise |
| Colors.ParseColor | packages/nexdf/src/native.ts:149-151 | every colour it yields has channels between 0 and 255 |
| Colors.SpellingsAgree | packages/nexdf/src/native.ts:109-151 | every valid colour is read back from both its `#rrggbb` and its `rgb(r,g,b)` spelling |
| Colors.WhiteSpellingsAgree | packages/nexdf/src/native.ts:109-151 | `#fff`, `#ffffff` and `rgb(255,255,255)` all mean white; `rgb(256,0,0)` is rejected |
| Styles.ApplyOverlay | packages/nexdf/src/native.ts:273-281 | spreading two partial styles one after the other equals spreading their combined overlay |
| Styles.OverlayAssociative | packages/nexdf/src/native.ts:262-265 | spreading partial styles is associative |
| Styles.ToPoints | packages/nexdf/src/native.ts:89-107 | toPoints gives a length only for text that holds a digit |
| Styles.ToPointsOfBlank | packages/nexdf/src/native.ts:91-93 | blank text has no length |
| Styles.ToPointsIgnoresCase | packages/nexdf/src/native.ts:90 | the unit is recognised in any letter case |
| Styles.ToPointsIgnoresPadding | packages/nexdf/src/native.ts:90 | whitespace around the value does not matter |
| Styles.ToPointsOfPx | packages/nexdf/src/native.ts:95-98 | `Npx`, for every decimal literal `N` (signed, fractional or with an exponent), is `PxToPt(N)`, that is `N * 0.75` points |
| Styles.ToPointsOfPt | packages/nexdf/src/native.ts:100-103 | `Npt` is `N` points, for every decimal literal `N` |
| Styles.ToPointsOfBare | packages/nexdf/src/native.ts:105-106 | a bare decimal literal `N` is `N` points |
| Styles.LineHeightValue | packages/nexdf/src/native.ts:194-205 | a line height is set only from text that holds a digit |
| Styles.LineHeightOfPositive | packages/nexdf/src/native.ts:194-197 | a value whose leading literal is positive is stored as that literal, whatever unit follows |
| Styles.LineHeightOfNonPositive | packages/nexdf/src/native.ts:194-205 | a literal of zero or less, bare or in `px` or `pt`, falls back to toPoints, so a `px` value is converted |
| Styles.LineHeightOneAndAHalf | packages/nexdf/src/native.ts:194-197 | `line-height: 1.5` is stored as 1.5 |
| Styles.LineHeightPxIsNotConverted | packages/nexdf/src/native.ts:194-197 | `line-height: Npx` stores `N`, unconverted, while toPoints would give the smaller `PxToPt(N)` |
| Styles.LineHeightZero | packages/nexdf/src/native.ts:198-202 | `line-height: 0` falls through to toPoints and is stored as 0 |
| Styles.AlignOf | packages/nexdf/src/native.ts:223-227 | an alignment exactly for the keywords `left`, `center` and `right` |
| Styles.WeightOfNumber | packages/nexdf/src/native.ts:177-184 | a weight that starts with a number is bold exactly from 600 up, whatever non-digit text follows (`700px`, `650 !important`) |
| Styles.WeightOfSigned | packages/nexdf/src/native.ts:177-184 | `+N` weighs like `N`, and a negative number is always normal |
| Styles.WeightOfWord | packages/nexdf/src/native.ts:177-184 | text without a digit is bold exactly when it is `bold` |
| Styles.WeightWordsAreExact | packages/nexdf/src/native.ts:178 | the `bold` test is exact: `Bold`, `BOLD` and `bolder` are normal |
| Styles.Property | packages/nexdf/src/native.ts:169-227 | one declaration sets at most the property it names; an unknown property sets nothing; `font-weight` is always set; `text-align` is set exactly for its three keywords; length properties need a digit |
| Styles.Declaration | packages/nexdf/src/native.ts:157-161 | a piece without `:` sets nothing |
| Styles.DeclarationOfPair | packages/nexdf/src/native.ts:158-167 | `name:value` with a clean name and value is that property set to that value |
| Styles.ParseDeclarationsConcat | packages/nexdf/src/native.ts:155-228 | `a;b` is the declarations of `b` spread over those of `a`, so the later declaration of a property wins |
| Styles.DeclarationWithoutValue | packages/nexdf/src/native.ts:163-167 | `name:` followed only by blanks sets nothing |
| Styles.DeclarationWithoutName | packages/nexdf/src/native.ts:163-167 | a declaration whose name is blank sets nothing, whatever its value |
| Styles.ParseDeclarationsWithoutColon | packages/nexdf/src/native.ts:157-161 | a declaration list without any `:` sets nothing |
| Cascade.SelectorClass | packages/nexdf/src/native.ts:249-260 | a class only for a selector starting with `.`; the class is a non-empty name without whitespace, `:` or `>`, and it is the text right after the dot |
| Cascade.SelectorClassOfName | packages/nexdf/src/native.ts:253-260 | `.name` styles exactly the class `name` |
| Cascade.SelectorClassIgnoresTail | packages/nexdf/src/native.ts:253-256 | a pseudo-class or child part after the name does not change the class |
| Cascade.AddSelector | packages/nexdf/src/native.ts:248-265 | a class selector adds exactly its class to the table's keys; any other selector changes nothing |
| Cascade.ClassStylesKeysAreNames | packages/nexdf/src/native.ts:233-271 | every key of the class table is a non-empty name without whitespace, `:` or `>` |
| Cascade.ClassStylesAppend | packages/nexdf/src/native.ts:238-267 | rules are applied in document order, each to the table built by the earlier ones |
| Cascade.LaterRuleOverrides | packages/nexdf/src/native.ts:262-265 | a later rule `.name { … }` spreads its declarations over what the class had and leaves every other class alone |
| Cascade.NonClassRuleIgnored | packages/nexdf/src/native.ts:247-251 | a rule whose selector text has no `.` leaves the table unchanged |
| Cascade.TagStyle | packages/nexdf/src/native.ts:68-87 | which tags set a size, weight or margin: headings are bold with a size, only `footer` sets a top margin, and tag defaults never set colour, line height or alignment |
| Cascade.HeadingsShrink | packages/nexdf/src/native.ts:68-75 | heading sizes strictly shrink from `h1` to `h6` and their bottom margins do not grow; `h6` has the default size |
| Cascade.MergeStylesIsOverlay | packages/nexdf/src/native.ts:273-282 | mergeStyles equals applying the overlay of all its styles to DEFAULT_STYLE once |
| Cascade.LaterClassWins | packages/nexdf/src/native.ts:301-306 | a class listed later in the attribute is spread over the ones before it |
| Cascade.UnknownClassesIgnored | packages/nexdf/src/native.ts:301-306 | classes missing from the table contribute nothing |
| Cascade.ElementStylePrecedence | packages/nexdf/src/native.ts:292-310 | every property: inline beats class, class beats tag default, tag default beats inherited; an unset property is inherited |
| Cascade.PlainElementInherits | packages/nexdf/src/native.ts:292-310 | a `span` without class and style looks exactly like its parent |
| Cascade.EmptyInlineStyle | packages/nexdf/src/native.ts:308 | an empty `style` attribute parses to nothing, the same as a missing one |
| Layout.EnsureRoom | packages/nexdf/src/native.ts:312-319 | adds at most one page and changes nothing exactly when the room is there; a new page puts the cursor at the top margin, `pageHeight - marginTop`; afterwards the height asked for fits above the bottom margin whenever it fits on a page at all |
| Layout.EnsureRoomIdempotent | packages/nexdf/src/native.ts:312-319 | asking twice for room that fits a page adds no second page |
| Layout.AddGap | packages/nexdf/src/native.ts:383-390 | a gap of at most zero changes nothing; otherwise the cursor drops by the gap, on a new page if needed, never below the bottom margin, and nothing is drawn |
| Layout.ResolvedLineHeight | packages/nexdf/src/native.ts:356 | a value above 3 is absolute; a smaller one scales the font size and is positive exactly when the value is |
| Layout.LineHeightCliff | packages/nexdf/src/native.ts:356 | a line height of 3 gives 33pt at 11pt text, while 3.5 gives 3.5pt; the default gives 15.4pt |
| Layout.WrapText | packages/nexdf/src/native.ts:325-346 | the lines joined by spaces are the words in order; only a single word can be wider than the limit; no line could have taken the next line's first word; there are no lines exactly when there are no words |
| Layout.WrapLines | packages/nexdf/src/native.ts:325-346 | the source's loop computes the greedy wrapping |
| Layout.WrapWords | packages/nexdf/src/native.ts:331-345 | the for-loop over the words after the first yields the greedy wrapping from the first word |
| Layout.AlignX | packages/nexdf/src/native.ts:364-369 | left-aligned lines start at the left margin and right-aligned ones end at the right margin; centred lines have equal room on both sides; a line that fits stays between the margins |
| Layout.DrawLine | packages/nexdf/src/native.ts:361-379 | one pass of the loop appends exactly one text operation, for that line, with its baseline one line height below the cursor left by ensureRoom, and leaves the cursor on that baseline |
| Layout.DrawLines | packages/nexdf/src/native.ts:360-380 | one text operation per line, in order; at most one new page per line; the first baseline is one line height below the cursor left by ensureRoom; when no page was added the cursor ends `Stacked(n, h)` lower; with a line height that fits a page, no text lies below the bottom margin |
| Layout.StackedIsProduct | packages/nexdf/src/native.ts:379 | `n` lines of height `h` take `n * h`, so each drawn line lowers the cursor by exactly the line height |
| Layout.DrawTextBlock | packages/nexdf/src/native.ts:348-381 | the drawn lines joined by spaces are the collapsed text; blank text draws nothing; with a line height that fits a page, nothing lies below the bottom margin |
| Layout.DrawTextBlockSkipsPadding | packages/nexdf/src/native.ts:349 | leading whitespace never changes what is drawn |
| Render.ListIndent | packages/nexdf/src/native.ts:442-443 | the indent at depth `d` is `2 + 2d` spaces, `repeat` dropping the fraction of `(10 + 8d) / 4` |
| Render.ListIndentVanishes | packages/nexdf/src/native.ts:441-443 | a list item is drawn the same at every depth, as if it had no indent: collapseWhitespace erases the indent |
| Render.HorizontalRule | packages/nexdf/src/native.ts:423-434 | `<hr>` draws one light grey 0.8pt line from margin to margin, at least 8pt above the bottom margin |
| Render.RenderNode | packages/nexdf/src/native.ts:392-459 | rendering only adds pages and appends operations, each on an existing page; when every line height and rule of the subtree fits on a page, no appended operation lies below the bottom margin |
| Render.RenderChildren | packages/nexdf/src/native.ts:445-451 | the same two facts for a run of siblings |
| Render.EmptyBlockIsItsMargins | packages/nexdf/src/native.ts:436-458 | an empty block element other than `li` draws nothing and, with room on the page, lowers the cursor by exactly its top and bottom margins, a negative margin counting as none |
| Render.InlineElementHasNoMargins | packages/nexdf/src/native.ts:436-458 | an element outside BLOCK_TAGS is its content alone, and an empty one other than `li` leaves the state unchanged |
| Render.SkippedElementsDrawNothing | packages/nexdf/src/native.ts:409-413 | `style`, `script` and `head` in any letter case leave the state unchanged |
| Render.LineBreakDrawsNothing | packages/nexdf/src/native.ts:417-421 | `<br>` is exactly a vertical gap of its resolved line height, by the same rule text uses, and draws nothing, whatever its class, style or children |
| Render.RenderChildrenAppend | packages/nexdf/src/native.ts:445-451 | siblings render one after another from the state the previous ones left |
| Render.FindBody | packages/nexdf/src/native.ts:483-484 | a body is found exactly when the tree holds a `body` element |
| Render.GenerateNative | packages/nexdf/src/native.ts:461-492 | the document has at least one A4 page and every operation is on a page that exists; when the rendered tree fits (`DocumentFits`), no operation lies below the 36pt bottom margin |
| Render.EmptyDocumentIsBlankPage | packages/nexdf/src/native.ts:467-488 | an empty document is one blank page |
| Render.OnlyBodyIsRendered | packages/nexdf/src/native.ts:483-488 | with a `body`, only its children are rendered, whatever lies around it |
| Pool.StartIsValid | packages/nexdf/src/pdf.ts:26-30 | the initial state satisfies the pool invariant |
| Pool.DefaultPaths | packages/nexdf/src/pdf.ts:18-24 | the default list has at least the four fixed paths, and none is empty |
| Pool.ExecutablePath | packages/nexdf/src/pdf.ts:44-54 | the result is never empty, so the "not found" error cannot be raised; a non-empty input wins; without an input or an environment value it is the macOS Chrome path |
| Pool.Prewarm | packages/nexdf/src/pdf.ts:92-105 | capacity becomes `max(1, poolSize ?? old)` and the browser is up; a pool with any page is left as it is; an empty pool gets one fresh idle page; the invariant is kept |
| Pool.AcquireStep | packages/nexdf/src/pdf.ts:56-73 | the top idle page is reused if open; otherwise a fresh page is created while below capacity, never exceeding it; otherwise the caller joins the queue tail; a closed popped page stays in `all`; the invariant is kept and a handed-out page is pooled and not idle |
| Pool.Release | packages/nexdf/src/pdf.ts:75-90 | a closed page leaves `all`; an open one goes on top of the idle stack; exactly the queue head, if any, is woken; the invariant is kept for a checked-out page |
| Pool.Close | packages/nexdf/src/pdf.ts:107-118 | without a browser nothing changes; with one, browser, idle pages, all pages and queue are cleared; capacity stays |
| Pool.LastReleasedFirstReused | packages/nexdf/src/pdf.ts:58-60 | the page released last is the next one acquired |
| Pool.WaitersWokenInOrder | packages/nexdf/src/pdf.ts:78-89 | a sequence of releases wakes the longest waiting callers, in queue order |
| Pool.QueueIsFifo | packages/nexdf/src/pdf.ts:69-71 | a parked caller is woken right after everyone queued before it |
| Pool.ClosedPageBlocksAcquire | packages/nexdf/src/pdf.ts:57-72 | with a full pool, a closed page on top of a live idle page makes the caller wait, and the closed page still counts |
| Pool.AcquireStepCorrected | packages/nexdf/src/pdf.ts:57-72 | the corrected pass: a caller waits only when every idle page was closed and the live pages fill the pool; only closed pages leave the pool; the invariant is kept |
| Pool.CorrectedAcquireSkipsClosed | packages/nexdf/src/pdf.ts:57-72 | on the pool that blocks the as-written pass, the corrected one discards the closed page and hands out the live one |
| Pool.CloseStrandsWaiters | packages/nexdf/src/pdf.ts:107-118 | closing drops parked callers without waking them, and no later release wakes them |
| Pool.GeneratePdf | packages/nexdf/src/pdf.ts:132-165 | the native engine leaves the pool untouched; Chromium brings the browser up, takes its page by the corrected acquire pass and keeps the invariant; a page that was handed out is released once, so afterwards `all` grows by at most that page |
| Pool.FailureReleasesLikeSuccess | packages/nexdf/src/pdf.ts:142-164 | a failing capture leaves the pool exactly as a successful one |
| Pool.ReusedPageComesBack | packages/nexdf/src/pdf.ts:140-164 | a reused page that stays open is back on the idle stack afterwards, leaving the pool as before |
| Pool.CreatedPageJoinsPool | packages/nexdf/src/pdf.ts:63-66 | a page created for a call is pooled and idle afterwards |

## Left out

- HTML parsing (node-html-parser) is outside the model. The input is the parsed tree, with raw text nodes, tag names as written, and `class`/`style` attribute text. Comment handling is the parser's business.
- The regular expressions that find `<style>` blocks and `selector { declarations }` rules (native.ts lines 235-242) are outside the model. The class table is built from the list of rules they yield, in document order.
- Render.TextContent: the model's `textContent` is the raw text of the text nodes below, the same text that text nodes are drawn from. node-html-parser's `textContent`, which the `li` branch and the childless-element branch draw (native.ts lines 443 and 453), decodes entities and reads a `<br>` child as a line break. So `<li>Tom &amp; Jerry</li>` draws `Tom & Jerry` in the source and `Tom &amp; Jerry` in the model, and `<li>a<br>b</li>` draws `a b` in the source and `ab` in the model. Text nodes themselves are drawn from the undecoded `rawText` (line 401) in both.
- Layout.Measure: measuring and drawing are total in the model. pdf-lib encodes the standard Helvetica fonts in WinAnsi and throws on any character outside it, such as CJK text or emoji, in `widthOfTextAtSize` and `drawText` (native.ts lines 336, 362 and 371). That aborts the render, and this error path is not modelled.
- Layout.Measure: a Dafny `char` is one code point, while JavaScript string lengths count UTF-16 units. So `hex.length` (native.ts lines 116 and 123) counts an astral character twice: `#a😀` is no hex colour in the model, but in the source it has three units and reaches the throwing colour constructor.
- pdf-lib is reduced to a page count and a list of drawing operations. Out of scope:
  - embedding the standard fonts and their metrics (the metrics are the `measure` parameter);
  - `pdfDoc.save` and the produced bytes;
  - `Buffer`.
- Numbers are exact reals, so there is no floating-point rounding and no overflow to Infinity. `parseFloat` and `parseInt` return `None` for NaN. Infinity is also `None`; every caller rejects non-finite values, so the results agree.
- `toLowerCase` is modelled for the ASCII letters only. Other letters are left as they are.
- Colors.ParseHexColor: the rest of the model uses the corrected reader (see Findings). The throw that the as-written reader signals is not carried into `Render.GenerateNative`, which would then have to fail.
- Numbers.ParseFloat: the readings proved are those of decimal literals. Forms such as `.5`, `+2`, leading zeros, `1.` and `Infinity` are modelled but have no lemma of their own.
- Styles.ToPoints: its values are stated for a decimal literal followed by nothing, `px` or `pt`. Other text only has the digit requirement.
- Styles.LineHeightValue: its values are stated for decimal literals, as for ToPoints.
- Render.GenerateNative: the bottom-margin bound holds under `DocumentFits`, which asks every line height and rule to fit on a page. A line taller than a page is drawn below the margin, as in the source.
- Pool.Prewarm: capacity is an integer. A fractional `poolSize` (the source compares the page count against, say, 2.5) and a NaN `poolSize` (every acquire then waits) are not modelled.
- Asynchrony in pdf.ts is not modelled:
  - every pool operation is one atomic step;
  - a woken caller re-runs `AcquireStep`;
  - interleavings inside an `await` (two prewarms racing, a release during `browser.newPage()`) are outside the model.
- Browser launching, `newPage`, `setContent`, `emulateMediaType`, `page.pdf` and their options are abstracted as follows:
  - only whether a browser handle exists is kept;
  - whether a page is closed is a parameter;
  - whether the capture throws is a parameter.
- Pool.GeneratePdf: takes its page by `Pool.AcquireStepCorrected`, not by acquirePage as written (see Findings). On a full pool whose top idle page is closed, the source parks the caller for good, where the model discards that page and hands out the live page beneath.
- Pool.GeneratePdf: the executable path is computed but not tracked further, since it only feeds the browser launch.
- The `exit`, `SIGINT` and `SIGTERM` handlers (pdf.ts lines 120-130) only call closeSharedBrowser, which is modelled as `Pool.Close`. Process exit is not modelled.
- The template loader, the Next.js helper, the CLI and the web application are not part of this model.

## Findings

| source | as written | input that shows it | evidently intended | confidence | as-written member | corrected member |
|---|---|---|---|---|---|---|
| packages/nexdf/src/native.ts:109-131 | a malformed or negative hex channel is passed on to pdf-lib's `rgb()`, which throws and aborts the render | `color: #ggg` or `color: #-1-1-1` | an invalid colour is ignored, as parseColor's `null` is everywhere else | medium, not executed | Colors.ParseHexColorAsWritten, Colors.MalformedHexThrows | Colors.ParseHexColor, Colors.RefusedHexLeavesColorUnset |
| packages/nexdf/src/pdf.ts:57-72 | one pass pops a single idle page; a closed one is dropped from the stack but stays in `allPages`, so it keeps its place against the capacity, and with a full pool the caller waits though live pages lie below it | a pool of capacity 2 whose idle stack is a live page under a closed one | a closed page is discarded and the search goes on down the stack | medium, not executed | Pool.AcquireStep, Pool.ClosedPageBlocksAcquire | Pool.AcquireStepCorrected, Pool.CorrectedAcquireSkipsClosed |

=== FILE: cascade.dfy ===
/**
 * How the native engine decides the style of an element (extractClassStyles,
 * mergeStyles, getTagStyle and getElementStyle in packages/nexdf/src/native.ts):
 * class rules from the document's style blocks, per-tag defaults, and the
 * cascade inherited < tag < classes < inline `style` attribute.
 */
module Cascade {
  import opened Options
  import opened Text
  import opened Styles
  import opened Colors

  /** A rule `selector { declarations }` found in a `<style>` block. */
  datatype Rule = Rule(selector: string, declarations: string)

  /** The class name → partial style table built from the rules. */
  type ClassMap = map<string, Partial>

  /* ---------------------------------------------------------------- class rules */

  /** The characters that end a class name in a selector: whitespace, `:` and `>`. */
  predicate IsNameStop(c: char) {
    IsSpace(c) || c == ':' || c == '>'
  }

  /** What can be a key of the class table: a non-empty name with no whitespace, `:` or `>`. */
  predicate IsClassName(k: string) {
    |k| > 0 && forall i :: 0 <= i < |k| ==> !IsNameStop(k[i])
  }

  /** Length of the leading run of characters that are not name stops. */
  function NameLen(s: string): (n: nat)
    ensures n <= |s|
    ensures forall i :: 0 <= i < n ==> !IsNameStop(s[i])
    ensures n == |s| || IsNameStop(s[n])
  {
    if |s| == 0 || IsNameStop(s[0]) then 0 else 1 + NameLen(s[1..])
  }

  /** The class a single (already trimmed) selector styles: the text after a leading `.` up to
      the first whitespace, `:` or `>`, trimmed; nothing for a selector that does not start
      with `.` or whose name is empty. */
  function SelectorClass(selector: string): (r: Option<string>)
    ensures r.Some? ==> IsClassName(r.value)
    ensures r.Some? ==> |selector| > 0 && selector[0] == '.'
    ensures r.Some? ==> 1 + |r.value| <= |selector| && selector[1..1 + |r.value|] == r.value
  {
    if |selector| == 0 || selector[0] != '.' then None
    else
      var rest := selector[1..];
      var name := rest[..NameLen(rest)];
      if |name| == 0 then None
      else
        TrimOfTrimmed(name);
        var trimmed := Trim(name);
        Some(trimmed)
  }

  /** Records `parsed` for the selector's class, spread over what the class already had. */
  function AddSelector(m: ClassMap, selector: string, parsed: Partial): (r: ClassMap)
    ensures SelectorClass(selector).None? ==> r == m
    ensures SelectorClass(selector).Some? ==> r.Keys == m.Keys + {SelectorClass(selector).value}
  {
    var name := SelectorClass(selector);
    if name.None? then m
    else m[name.value := Overlay(if name.value in m then m[name.value] else NoStyle, parsed)]
  }

  /** Records `parsed` for each comma-separated selector in turn, each trimmed. */
  function AddSelectors(m: ClassMap, selectors: seq<string>, parsed: Partial): ClassMap
    decreases |selectors|
  {
    if |selectors| == 0 then m
    else AddSelectors(AddSelector(m, Trim(selectors[0]), parsed), selectors[1..], parsed)
  }

  /** One rule: its declarations are parsed once and recorded for every class its selector
      list names. */
  function AddRule(m: ClassMap, rule: Rule): ClassMap {
    AddSelectors(m, Split(Trim(rule.selector), ','), ParseDeclarations(rule.declarations))
  }

  /** extractClassStyles, from the rules in document order. */
  function ClassStyles(rules: seq<Rule>): ClassMap
    decreases |rules|
  {
    if |rules| == 0 then map[] else AddRule(ClassStyles(rules[..|rules| - 1]), rules[|rules| - 1])
  }

  predicate AllClassNames(m: ClassMap) {
    forall k :: k in m ==> IsClassName(k)
  }

  lemma {:induction false} AddSelectorsKeepsNames(m: ClassMap, selectors: seq<string>, parsed: Partial)
    requires AllClassNames(m)
    ensures AllClassNames(AddSelectors(m, selectors, parsed))
    decreases |selectors|
  {
    if |selectors| > 0 {
      AddSelectorsKeepsNames(AddSelector(m, Trim(selectors[0]), parsed), selectors[1..], parsed);
    }
  }

  /** Every key of the class table is a class name: no whitespace, `:` or `>`, not empty. */
  lemma {:induction false} ClassStylesKeysAreNames(rules: seq<Rule>)
    ensures AllClassNames(ClassStyles(rules))
    decreases |rules|
  {
    if |rules| > 0 {
      var prefix := rules[..|rules| - 1];
      ClassStylesKeysAreNames(prefix);
      var rule := rules[|rules| - 1];
      AddSelectorsKeepsNames(ClassStyles(prefix), Split(Trim(rule.selector), ','), ParseDeclarations(rule.declarations));
    }
  }

  /** Selectors that do not begin with `.` (tags, ids, `*`) are ignored. */
  lemma {:induction false} AddSelectorsSkipsNonClass(m: ClassMap, selectors: seq<string>, parsed: Partial)
    requires forall i :: 0 <= i < |selectors| ==> SelectorClass(Trim(selectors[i])).None?
    ensures AddSelectors(m, selectors, parsed) == m
    decreases |selectors|
  {
    if |selectors| > 0 {
      AddSelectorsSkipsNonClass(m, selectors[1..], parsed);
    }
  }

  /** A selector `.name` with a plain class name styles exactly that class. */
  lemma {:induction false} SelectorClassOfName(name: string)
    requires IsClassName(name)
    ensures SelectorClass("." + name) == Some(name)
  {
    var s := "." + name;
    assert s[1..] == name;
    TrimOfTrimmed(name);
  }

  /** A pseudo-class or a descendant part after the name does not change the class styled. */
  lemma {:induction false} SelectorClassIgnoresTail(name: string, tail: string)
    requires IsClassName(name)
    requires |tail| > 0 && IsNameStop(tail[0])
    ensures SelectorClass("." + name + tail) == Some(name)
  {
    var s := "." + name + tail;
    var rest := s[1..];
    assert rest == name + tail;
    assert NameLen(rest) == |name| by {
      NameLenOfName(name, tail);
    }
    assert rest[..|name|] == name;
    TrimOfTrimmed(name);
  }

  lemma {:induction false} NameLenOfName(name: string, tail: string)
    requires forall i :: 0 <= i < |name| ==> !IsNameStop(name[i])
    requires |tail| == 0 || IsNameStop(tail[0])
    ensures NameLen(name + tail) == |name|
    decreases |name|
  {
    if |name| > 0 {
      assert (name + tail)[1..] == name[1..] + tail;
      NameLenOfName(name[1..], tail);
    } else {
      assert name + tail == tail;
    }
  }

  /** A later rule for a class spreads its declarations over the class's earlier ones and
      leaves every other class as it was. */
  lemma {:induction false} LaterRuleOverrides(rules: seq<Rule>, name: string, declarations: string)
    requires IsClassName(name) && ',' !in name
    ensures var before := ClassStyles(rules);
            var after := ClassStyles(rules + [Rule("." + name, declarations)]);
            after == before[name := Overlay(if name in before then before[name] else NoStyle, ParseDeclarations(declarations))]
  {
    var s := "." + name;
    ClassStylesAppend(rules, Rule(s, declarations));
    SingleClassSelector(name);
    var before := ClassStyles(rules);
    var parsed := ParseDeclarations(declarations);
    AddRuleOfSingle(before, s, declarations);
    assert ClassStyles(rules + [Rule(s, declarations)]) == AddSelector(before, s, parsed);
    SelectorClassOfName(name);
    assert AddSelector(before, s, parsed) == before[name := Overlay(if name in before then before[name] else NoStyle, parsed)];
  }

  /** A rule whose selector list is a single selector is recorded for that selector alone. */
  lemma {:induction false} AddRuleOfSingle(m: ClassMap, selector: string, declarations: string)
    requires Trim(selector) == selector && Split(selector, ',') == [selector]
    ensures AddRule(m, Rule(selector, declarations)) == AddSelector(m, selector, ParseDeclarations(declarations))
  {
    var parsed := ParseDeclarations(declarations);
    assert AddSelectors(m, [selector], parsed) == AddSelectors(AddSelector(m, selector, parsed), [], parsed);
  }

  /** `.name` is a selector list of one selector, with nothing to trim. */
  lemma {:induction false} SingleClassSelector(name: string)
    requires IsClassName(name) && ',' !in name
    ensures Trim("." + name) == "." + name
    ensures Split("." + name, ',') == ["." + name]
  {
    var s := "." + name;
    assert IsTrimmed(s) by {
      PrintableIsNotSpace('.');
      assert s[|s| - 1] == name[|name| - 1];
    }
    TrimOfTrimmed(s);
    assert ',' !in s by {
      assert forall i :: 1 <= i < |s| ==> s[i] == name[i - 1];
    }
    SplitNoSeparator(s, ',');
  }

  /** A rule whose selectors are all non-class selectors leaves the table unchanged. */
  lemma {:induction false} NonClassRuleIgnored(rules: seq<Rule>, rule: Rule)
    requires forall i :: 0 <= i < |rule.selector| ==> rule.selector[i] != '.'
    ensures ClassStyles(rules + [rule]) == ClassStyles(rules)
  {
    var all := rules + [rule];
    assert all[..|all| - 1] == rules;
    var selectors := Split(Trim(rule.selector), ',');
    forall i | 0 <= i < |selectors|
      ensures SelectorClass(Trim(selectors[i])).None?
    {
      var t := Trim(selectors[i]);
      if SelectorClass(t).Some? {
        DotInPiece(rule.selector, i);
      }
    }
    AddSelectorsSkipsNonClass(ClassStyles(rules), selectors, ParseDeclarations(rule.declarations));
  }

  /** A `.` at the start of a trimmed piece of the trimmed selector list is a `.` of the list. */
  lemma {:induction false} DotInPiece(selector: string, i: nat)
    requires i < |Split(Trim(selector), ',')|
    requires var t := Trim(Split(Trim(selector), ',')[i]); |t| > 0 && t[0] == '.'
    ensures '.' in selector
  {
    var k := DotIndex(selector, i);
  }

  /** Where that `.` sits in the selector text. */
  lemma {:induction false} DotIndex(selector: string, i: nat) returns (k: nat)
    requires i < |Split(Trim(selector), ',')|
    requires var t := Trim(Split(Trim(selector), ',')[i]); |t| > 0 && t[0] == '.'
    ensures k < |selector| && selector[k] == '.'
  {
    var j := DotInList(Trim(selector), i);
    k := CharThroughTrim(selector, j);
  }

  /** The dot opening a trimmed piece of the comma list `list` is a character of `list`. */
  lemma {:induction false} DotInList(list: string, i: nat) returns (k: nat)
    requires i < |Split(list, ',')|
    requires var t := Trim(Split(list, ',')[i]); |t| > 0 && t[0] == '.'
    ensures k < |list| && list[k] == '.'
  {
    var parts := Split(list, ',');
    var j := CharThroughTrim(parts[i], 0);
    k := CharThroughJoin(parts, [','], i, j);
    JoinSplit(list, ',');
  }

  /** A character of `Trim(s)` is a character of `s`. */
  lemma {:induction false} CharThroughTrim(s: string, j: nat) returns (k: nat)
    requires j < |Trim(s)|
    ensures k < |s| && s[k] == Trim(s)[j]
  {
    var a := TrimAt(s);
    CharOfSlice(s, a, Trim(s), j);
    k := a + j;
  }

  /** A character of one of the parts is a character of their join. */
  lemma {:induction false} CharThroughJoin(parts: seq<string>, glue: string, i: nat, j: nat) returns (k: nat)
    requires i < |parts| && j < |parts[i]|
    ensures k < |Join(parts, glue)| && Join(parts, glue)[k] == parts[i][j]
  {
    var b := JoinAt(parts, glue, i);
    CharOfSlice(Join(parts, glue), b, parts[i], j);
    k := b + j;
  }

  lemma {:induction false} CharOfSlice(s: string, start: nat, t: string, k: nat)
    requires start + |t| <= |s| && s[start..start + |t|] == t && k < |t|
    ensures s[start + k] == t[k]
  {
    assert s[start..start + |t|][k] == s[start + k];
  }

  /** Later rules are applied on top of the table built by the earlier ones. */
  lemma {:induction false} ClassStylesAppend(rules: seq<Rule>, rule: Rule)
    ensures ClassStyles(rules + [rule]) == AddRule(ClassStyles(rules), rule)
  {
    var all := rules + [rule];
    assert ClassStyles(all) == AddRule(ClassStyles(all[..|all| - 1]), all[|all| - 1]);
    assert all[..|all| - 1] == rules && all[|all| - 1] == rule;
  }

  /* ---------------------------------------------------------------- tag defaults */

  /** HEADING_STYLES: the heading tags with their size and bottom margin; all are bold. */
  function HeadingStyle(tag: string): (r: Option<Partial>)
    ensures r.Some? <==> tag in {"h1", "h2", "h3", "h4", "h5", "h6"}
  {
    if tag == "h1" then Some(Heading(28.0, 8.0))
    else if tag == "h2" then Some(Heading(22.0, 6.0))
    else if tag == "h3" then Some(Heading(18.0, 5.0))
    else if tag == "h4" then Some(Heading(15.0, 4.0))
    else if tag == "h5" then Some(Heading(13.0, 4.0))
    else if tag == "h6" then Some(Heading(11.0, 3.0))
    else None
  }

  function Heading(size: real, below: real): Partial {
    NoStyle.(fontSize := Some(size), fontWeight := Some(Bold), marginBottom := Some(below))
  }

  /** BLOCK_DEFAULTS: the spacing defaults of the other block tags. */
  function BlockDefault(tag: string): Partial {
    if tag == "p" || tag == "section" || tag == "article" then NoStyle.(marginBottom := Some(6.0))
    else if tag == "div" || tag == "ul" || tag == "ol" then NoStyle.(marginBottom := Some(4.0))
    else if tag == "header" then NoStyle.(marginBottom := Some(8.0))
    else if tag == "footer" then NoStyle.(marginTop := Some(8.0))
    else if tag == "li" then NoStyle.(marginBottom := Some(2.0))
    else NoStyle
  }

  /** getTagStyle: a heading's style, else the tag's block default, else nothing. Tag
      defaults never set a colour, a line height or an alignment, and only headings are bold. */
  function TagStyle(tag: string): (r: Partial)
    ensures r.color.None? && r.lineHeight.None? && r.textAlign.None?
    ensures r.fontWeight.Some? <==> tag in {"h1", "h2", "h3", "h4", "h5", "h6"}
    ensures r.fontWeight.Some? ==> r.fontWeight.value == Bold
    ensures r.fontSize.Some? <==> tag in {"h1", "h2", "h3", "h4", "h5", "h6"}
    ensures r.marginTop.Some? <==> tag == "footer"
    ensures r.marginBottom.Some? <==> tag in {"h1", "h2", "h3", "h4", "h5", "h6", "p", "section", "article", "div", "ul", "ol", "header", "li"}
  {
    var heading := HeadingStyle(tag);
    if heading.Some? then heading.value else BlockDefault(tag)
  }

  /** Heading sizes shrink from `h1` to `h6`, and so do their bottom margins. */
  lemma {:induction false} HeadingsShrink()
    ensures TagStyle("h1").fontSize.value > TagStyle("h2").fontSize.value > TagStyle("h3").fontSize.value
            > TagStyle("h4").fontSize.value > TagStyle("h5").fontSize.value > TagStyle("h6").fontSize.value
    ensures TagStyle("h1").marginBottom.value >= TagStyle("h2").marginBottom.value >= TagStyle("h3").marginBottom.value
            >= TagStyle("h4").marginBottom.value >= TagStyle("h5").marginBottom.value >= TagStyle("h6").marginBottom.value
    ensures TagStyle("h6").fontSize.value == DefaultStyle.fontSize
  {
  }

  /* ---------------------------------------------------------------- merging */

  /** The partial styles spread one after the other. */
  function OverlayAll(styles: seq<Partial>): (r: Partial)
    decreases |styles|
  {
    if |styles| == 0 then NoStyle else Overlay(OverlayAll(styles[..|styles| - 1]), styles[|styles| - 1])
  }

  /** mergeStyles: the styles spread in order over DEFAULT_STYLE (`color` falls back to the
      earlier colour, as the spread does). */
  function MergeStyles(styles: seq<Partial>): Style
    decreases |styles|
  {
    if |styles| == 0 then DefaultStyle else Apply(MergeStyles(styles[..|styles| - 1]), styles[|styles| - 1])
  }

  /** Merging is applying the overlay of all the styles to the defaults, once. */
  lemma {:induction false} MergeStylesIsOverlay(styles: seq<Partial>)
    ensures MergeStyles(styles) == Apply(DefaultStyle, OverlayAll(styles))
    decreases |styles|
  {
    if |styles| > 0 {
      var init := styles[..|styles| - 1];
      MergeStylesIsOverlay(init);
      ApplyOverlay(DefaultStyle, OverlayAll(init), styles[|styles| - 1]);
    } else {
      assert Apply(DefaultStyle, NoStyle) == DefaultStyle;
    }
  }

  /** The class styles of the classes listed, spread in the order the attribute lists them;
      an unknown class contributes nothing. */
  function ClassMerged(classes: seq<string>, table: ClassMap): Partial
    decreases |classes|
  {
    if |classes| == 0 then NoStyle
    else
      var last := classes[|classes| - 1];
      Overlay(ClassMerged(classes[..|classes| - 1], table), if last in table then table[last] else NoStyle)
  }

  /** A class listed later in the attribute wins over one listed earlier. */
  lemma {:induction false} LaterClassWins(classes: seq<string>, c: string, table: ClassMap)
    requires c in table
    ensures ClassMerged(classes + [c], table) == Overlay(ClassMerged(classes, table), table[c])
  {
    var all := classes + [c];
    assert all[..|all| - 1] == classes;
  }

  /** Classes that the table does not know change nothing. */
  lemma {:induction false} UnknownClassesIgnored(classes: seq<string>, table: ClassMap)
    requires forall i :: 0 <= i < |classes| ==> classes[i] !in table
    ensures ClassMerged(classes, table) == NoStyle
    decreases |classes|
  {
    if |classes| > 0 {
      UnknownClassesIgnored(classes[..|classes| - 1], table);
      OverlayIdentity(NoStyle);
    }
  }

  /** The inline `style` attribute's declarations; an empty attribute gives nothing. */
  function InlineStyle(styleAttr: string): Partial {
    if |styleAttr| == 0 then NoStyle else ParseDeclarations(styleAttr)
  }

  /** getElementStyle: the element's tag (lower-cased), class and style attributes merged as
      inherited < tag < classes < inline. */
  function ElementStyle(tag: string, classAttr: string, styleAttr: string, table: ClassMap, inherited: Style): Style {
    MergeStyles([Full(inherited), TagStyle(Lower(tag)), ClassMerged(Words(classAttr), table), InlineStyle(styleAttr)])
  }

  /** The cascade order: an inline declaration beats any class, a class beats the tag default,
      the tag default beats the inherited value, and a property nobody sets is inherited. */
  lemma {:induction false} ElementStylePrecedence(tag: string, classAttr: string, styleAttr: string, table: ClassMap, inherited: Style)
    ensures var r := ElementStyle(tag, classAttr, styleAttr, table, inherited);
            var t := TagStyle(Lower(tag));
            var c := ClassMerged(Words(classAttr), table);
            var i := InlineStyle(styleAttr);
            && r.fontSize == i.fontSize.OrElse(c.fontSize.OrElse(t.fontSize.OrElse(inherited.fontSize)))
            && r.fontWeight == i.fontWeight.OrElse(c.fontWeight.OrElse(t.fontWeight.OrElse(inherited.fontWeight)))
            && r.color == i.color.OrElse(c.color.OrElse(inherited.color))
            && r.lineHeight == i.lineHeight.OrElse(c.lineHeight.OrElse(inherited.lineHeight))
            && r.marginTop == i.marginTop.OrElse(c.marginTop.OrElse(t.marginTop.OrElse(inherited.marginTop)))
            && r.marginBottom == i.marginBottom.OrElse(c.marginBottom.OrElse(t.marginBottom.OrElse(inherited.marginBottom)))
            && r.textAlign == i.textAlign.OrElse(c.textAlign.OrElse(inherited.textAlign))
  {
    var t := TagStyle(Lower(tag));
    var c := ClassMerged(Words(classAttr), table);
    var i := InlineStyle(styleAttr);
    var styles := [Full(inherited), t, c, i];
    assert styles[..3][..2][..1][..0] == [];
    assert styles[..3][..2][..1] == styles[..1];
    assert styles[..3][..2] == styles[..2];
    assert MergeStyles(styles[..1]) == inherited by {
      ApplyFull(DefaultStyle, inherited);
    }
    assert MergeStyles(styles[..2]) == Apply(inherited, t);
    assert MergeStyles(styles[..3]) == Apply(Apply(inherited, t), c);
    assert MergeStyles(styles) == Apply(Apply(Apply(inherited, t), c), i);
  }

  /** A `span` with no class and no style attribute looks exactly like its parent. */
  lemma {:induction false} PlainElementInherits(table: ClassMap, inherited: Style)
    ensures ElementStyle("span", "", "", table, inherited) == inherited
  {
    ElementStylePrecedence("span", "", "", table, inherited);
    assert Lower("span") == "span";
    assert Words("") == [];
  }

  /** An empty `style` attribute and a missing one are the same. */
  lemma {:induction false} EmptyInlineStyle()
    ensures ParseDeclarations("") == NoStyle
  {
    ParseDeclarationsWithoutColon("");
  }
}

=== FILE: colors.dfy ===
/**
 * Colour parsing of the native engine (parseHexColor, parseRgbColor and
 * parseColor in packages/nexdf/src/native.ts): the `#rgb` and `#rrggbb` forms
 * of section 4.2.1 of CSS Color Level 3 and a strict `rgb(r,g,b)` form with
 * integer channels.
 */
module Colors {
  import opened Options
  import opened Text
  import opened Numbers

  /** A colour as three channels on the 0..255 scale; the PDF writer receives each divided
      by 255. */
  datatype Rgb = Rgb(r: int, g: int, b: int)

  /** What parseHexColor does with a text as the source is written: the text is not a hex
      colour (`null`), or it gives a colour, or its channels reach the colour constructor,
      which throws on a channel that is NaN or outside 0..255. */
  datatype HexOutcome = NotHex | HexColor(c: Rgb) | HexThrows

  predicate IsChannel(v: int) {
    0 <= v <= 255
  }

  predicate ValidRgb(c: Rgb) {
    IsChannel(c.r) && IsChannel(c.g) && IsChannel(c.b)
  }

  /** What `parseInt(_, 16)` can return for two characters: a channel, or a single
      digit with a minus sign in front. */
  predicate IsHexReading(v: int) {
    -15 <= v <= 255
  }

  /** A hexadecimal digit of an already lower-cased text. */
  predicate IsHexDigit(c: char) {
    IsDigit(c) || 'a' <= c <= 'f'
  }

  function HexValue(c: char): (v: nat)
    requires IsHexDigit(c)
    ensures v < 16
  {
    if IsDigit(c) then DigitValue(c) else c as int - 'a' as int + 10
  }

  function HexChar(v: nat): (c: char)
    requires v < 16
    ensures IsHexDigit(c) && HexValue(c) == v
  {
    if v < 10 then DigitChar(v) else ('a' as int + v - 10) as char
  }

  /** `parseInt(a + b, 16)` on a two-character lower-cased text: leading whitespace is
      skipped, one `+` or `-` sign is read, and then the longest run of hex digits. `None`
      is NaN, which is also what the `0x` prefix with nothing after it gives. */
  function HexPair(a: char, b: char): (r: Option<int>)
    ensures r.Some? ==> IsHexReading(r.value)
    ensures r.Some? && r.value < 0 ==> a == '-'
    ensures IsHexDigit(a) && IsHexDigit(b) && !(a == '0' && b == 'x') ==> r == Some(16 * HexValue(a) + HexValue(b))
  {
    if IsHexDigit(a) then
      if a == '0' && b == 'x' then None
      else if IsHexDigit(b) then Some(16 * HexValue(a) + HexValue(b))
      else Some(HexValue(a))
    else if (IsSpace(a) || a == '+') && IsHexDigit(b) then Some(HexValue(b))
    else if a == '-' && IsHexDigit(b) then Some(-(HexValue(b) as int))
    else None
  }

  /** The colour constructor on three `parseInt` readings (`None` is NaN): it accepts only
      channels in 0..255 and throws otherwise. */
  function Channels(r: Option<int>, g: Option<int>, b: Option<int>): (o: HexOutcome)
    ensures o != NotHex
    ensures o.HexColor? ==> ValidRgb(o.c)
  {
    if r.Some? && g.Some? && b.Some? && IsChannel(r.value) && IsChannel(g.value) && IsChannel(b.value)
    then HexColor(Rgb(r.value, g.value, b.value))
    else HexThrows
  }

  /** The part of parseHexColor after trimming and lower-casing: `#` followed by exactly three
      characters, each read doubled, or six, read in pairs. */
  function HexBody(v: string): (o: HexOutcome)
    ensures o != NotHex <==> |v| in {4, 7} && v[0] == '#'
  {
    if |v| == 0 || v[0] != '#' then NotHex
    else
      var hex := v[1..];
      if |hex| == 3 then Channels(HexPair(hex[0], hex[0]), HexPair(hex[1], hex[1]), HexPair(hex[2], hex[2]))
      else if |hex| == 6 then Channels(HexPair(hex[0], hex[1]), HexPair(hex[2], hex[3]), HexPair(hex[4], hex[5]))
      else NotHex
  }

  /** parseHexColor as the source is written, where a malformed channel throws. */
  function ParseHexColorAsWritten(input: string): (o: HexOutcome)
    ensures o != NotHex <==> |Trim(input)| in {4, 7} && Trim(input)[0] == '#'
  {
    LowerKeepsHash(Trim(input));
    HexBody(Lower(Trim(input)))
  }

  /** parseHexColor with a malformed channel read as "not a colour", as an invalid colour is
      everywhere else: the colour of the as-written reading, and nothing otherwise. */
  function ParseHexColor(input: string): (r: Option<Rgb>)
    ensures r.Some? <==> ParseHexColorAsWritten(input).HexColor?
    ensures r.Some? ==> r.value == ParseHexColorAsWritten(input).c && ValidRgb(r.value)
    ensures r.Some? ==> |Trim(input)| in {4, 7} && Trim(input)[0] == '#'
  {
    match ParseHexColorAsWritten(input)
    case HexColor(c) => Some(c)
    case _ => None
  }

  /** Lower-casing keeps the length and a leading `#`, and no other character becomes one. */
  lemma {:induction false} LowerKeepsHash(s: string)
    ensures |Lower(s)| == |s|
    ensures |s| > 0 ==> (Lower(s)[0] == '#' <==> s[0] == '#')
  {
  }

  /** `\d{1,3}` at the start of `s`: its value and the text after it. */
  function ReadChannel(s: string): (r: Option<(nat, string)>)
    ensures r.Some? ==> r.value.0 <= 999 && |r.value.1| < |s|
  {
    var k := DigitRun(s);
    if 1 <= k <= 3 then
      DigitsValueBound(s[..k]);
      Some((DigitsValue(s[..k]), s[k..]))
    else None
  }

  lemma {:induction false} DigitsValueBound(s: string)
    requires AllDigits(s)
    ensures DigitsValue(s) < Pow10(|s|)
  {
    if |s| > 0 {
      DigitsValueBound(s[..|s| - 1]);
    }
  }

  /** `\s*,\s*` at the start of `s`: the text after it. */
  function ReadComma(s: string): Option<string> {
    var t := TrimStart(s);
    if |t| > 0 && t[0] == ',' then Some(TrimStart(t[1..])) else None
  }

  /** The three channels of `d,d,d)` with the separators of ReadComma, or `None`
      when the text does not match. */
  function ReadTriple(s: string): Option<(nat, nat, nat)> {
    match ReadChannel(s)
    case None => None
    case Some((r, s1)) =>
      match ReadComma(s1)
      case None => None
      case Some(s2) =>
        match ReadChannel(s2)
        case None => None
        case Some((g, s3)) =>
          match ReadComma(s3)
          case None => None
          case Some(s4) =>
            match ReadChannel(s4)
            case None => None
            case Some((b, s5)) => if s5 == ")" then Some((r, g, b)) else None
  }

  /** parseRgbColor: the trimmed text must match `rgb(d,d,d)` (the `rgb` case-insensitively,
      each channel one to three digits, whitespace allowed around the commas only), and every
      channel must be at most 255. */
  function ParseRgbColor(input: string): (r: Option<Rgb>)
    ensures r.Some? ==> ValidRgb(r.value)
  {
    var t := Trim(input);
    if |t| < 4 || Lower(t[..4]) != "rgb(" then None else InRange(ReadTriple(t[4..]))
  }

  /** A triple read from the text is a colour when every channel is at most 255. */
  function InRange(triple: Option<(nat, nat, nat)>): (r: Option<Rgb>)
    ensures r.Some? ==> ValidRgb(r.value)
  {
    match triple
    case None => None
    case Some((r, g, b)) => if r > 255 || g > 255 || b > 255 then None else Some(Rgb(r, g, b))
  }

  /** Trimmed text that starts with `rgb(` is read from the channel list on. */
  lemma {:induction false} ParseRgbOfPrefixed(s0: string)
    requires IsTrimmed("rgb(" + s0)
    ensures ParseRgbColor("rgb(" + s0) == InRange(ReadTriple(s0))
  {
    var t := "rgb(" + s0;
    TrimOfTrimmed(t);
    assert t[..4] == "rgb(" && t[4..] == s0;
    LowerOfNoUpper("rgb(");
  }

  /** parseColor: the hex form is tried first, then the `rgb()` form. */
  function ParseColor(value: string): (r: Option<Rgb>)
    ensures r.Some? ==> ValidRgb(r.value)
    ensures ParseHexColor(value).Some? ==> r == ParseHexColor(value)
    ensures ParseHexColor(value).None? ==> r == ParseRgbColor(value)
  {
    match ParseHexColor(value)
    case Some(c) => Some(c)
    case None => ParseRgbColor(value)
  }

  /* ---------------------------------------------------------------- printing and round trips */

  /** Two lower-case hex digits. */
  function Hex2(v: nat): string
    requires v < 256
  {
    [HexChar(v / 16), HexChar(v % 16)]
  }

  function HexText(c: Rgb): string
    requires ValidRgb(c)
  {
    "#" + Hex2(c.r) + Hex2(c.g) + Hex2(c.b)
  }

  function RgbText(r: nat, g: nat, b: nat): string {
    "rgb(" + (NatStr(r) + ("," + (NatStr(g) + ("," + (NatStr(b) + ")")))))
  }

  /** On text that is already trimmed and has no capitals, parseHexColor is the body alone. */
  lemma {:induction false} ParseHexOfNormal(v: string)
    requires IsTrimmed(v) && NoUpper(v)
    ensures ParseHexColorAsWritten(v) == HexBody(v)
  {
    TrimOfTrimmed(v);
    LowerOfNoUpper(v);
  }

  /** parseHexColor does not see the case of its input. */
  lemma {:induction false} ParseHexIgnoresCase(s: string)
    ensures ParseHexColorAsWritten(Lower(s)) == ParseHexColorAsWritten(s)
    ensures ParseHexColor(Lower(s)) == ParseHexColor(s)
  {
    TrimOfLower(s);
    LowerIdempotent(Trim(s));
  }

  /** The short hex form means the long form with every digit doubled. */
  lemma {:induction false} HexShortIsDoubled(short: string, long: string)
    requires |short| == 4 && short[0] == '#'
    requires |long| == 7 && long[0] == '#' && long[1] == long[2] == short[1] && long[3] == long[4] == short[2] && long[5] == long[6] == short[3]
    ensures HexBody(short) == HexBody(long)
  {
    var s, l := short[1..], long[1..];
    assert s[0] == l[0] == l[1] && s[1] == l[2] == l[3] && s[2] == l[4] == l[5];
  }

  /** The same on parseHexColor, for a `#` and three characters without capitals, the last
      not a blank, against the text with each of the three doubled. */
  lemma {:induction false} ParseHexShortIsDoubled(short: string, long: string)
    requires |short| == 4 && short[0] == '#' && !IsSpace(short[3]) && NoUpper(short)
    requires |long| == 7 && long[0] == '#' && long[1] == long[2] == short[1] && long[3] == long[4] == short[2] && long[5] == long[6] == short[3]
    ensures ParseHexColorAsWritten(short) == ParseHexColorAsWritten(long)
    ensures ParseHexColor(short) == ParseHexColor(long)
  {
    assert IsTrimmed(short) && NoUpper(short) && IsTrimmed(long) && NoUpper(long) by {
      HashFormIsNormal(short);
      forall i | 1 <= i < 7
        ensures !IsUpper(long[i])
      {
        var j := if i <= 2 then 1 else if i <= 4 then 2 else 3;
        assert long[i] == short[j];
      }
      HashFormIsNormal(long);
    }
    HexShortIsDoubled(short, long);
    SameBodySameColor(short, long);
  }

  /** `#` followed by text without capitals that ends in a non-blank is already normalised. */
  lemma {:induction false} HashFormIsNormal(v: string)
    requires |v| > 0 && v[0] == '#' && !IsSpace(v[|v| - 1])
    requires forall i :: 1 <= i < |v| ==> !IsUpper(v[i])
    ensures IsTrimmed(v) && NoUpper(v)
  {
    PrintableIsNotSpace('#');
  }

  lemma {:induction false} SameBodySameColor(u: string, v: string)
    requires IsTrimmed(u) && NoUpper(u) && IsTrimmed(v) && NoUpper(v)
    requires HexBody(u) == HexBody(v)
    ensures ParseHexColorAsWritten(u) == ParseHexColorAsWritten(v)
    ensures ParseHexColor(u) == ParseHexColor(v)
  {
    ParseHexOfNormal(u);
    ParseHexOfNormal(v);
  }

  lemma {:induction false} HexTextIsNormal(c: Rgb)
    requires ValidRgb(c)
    ensures IsTrimmed(HexText(c)) && NoUpper(HexText(c))
  {
    var t := HexText(c);
    assert t == ['#'] + Hex2(c.r) + Hex2(c.g) + Hex2(c.b);
    assert |t| == 7 && t[0] == '#' && IsHexDigit(t[6]);
    TrimmedByEnds(t);
    forall i | 0 <= i < |t|
      ensures !IsUpper(t[i])
    {
    }
  }

  lemma {:induction false} HexBodyOfHexText(c: Rgb)
    requires ValidRgb(c)
    ensures HexBody(HexText(c)) == HexColor(c)
  {
    var t := HexText(c);
    assert t == ['#'] + Hex2(c.r) + Hex2(c.g) + Hex2(c.b);
    assert t[1..] == Hex2(c.r) + Hex2(c.g) + Hex2(c.b);
  }

  /** Printing a colour as `#rrggbb` and parsing it back gives the colour. */
  lemma {:induction false} HexRoundTrip(c: Rgb)
    requires ValidRgb(c)
    ensures ParseHexColor(HexText(c)) == Some(c)
  {
    HexTextIsNormal(c);
    ParseHexOfNormal(HexText(c));
    HexBodyOfHexText(c);
  }

  lemma {:induction false} ReadChannelOfNatStr(n: nat, rest: string)
    requires n < 1000
    requires |rest| == 0 || !IsDigit(rest[0])
    ensures ReadChannel(NatStr(n) + rest) == Some((n, rest))
  {
    DigitRunOfDigits(NatStr(n), rest);
    DigitsValueOfNatStr(n);
  }

  lemma {:induction false} ReadCommaTight(rest: string)
    requires |rest| == 0 || !IsSpace(rest[0])
    ensures ReadComma("," + rest) == Some(rest)
  {
    PrintableIsNotSpace(',');
    assert TrimStart("," + rest) == "," + rest;
    assert ("," + rest)[1..] == rest;
  }

  /** The channel list of a printed `rgb(...)` reads back as the three numbers. */
  lemma {:induction false} ReadTripleOfText(r: nat, g: nat, b: nat)
    requires r < 1000 && g < 1000 && b < 1000
    ensures ReadTriple(NatStr(r) + ("," + (NatStr(g) + ("," + (NatStr(b) + ")"))))) == Some((r, g, b))
  {
    var s4 := NatStr(b) + ")";
    var s2 := NatStr(g) + ("," + s4);
    ReadChannelOfNatStr(b, ")");
    PrintableIsNotSpace(NatStr(b)[0]);
    ReadCommaTight(s4);
    ReadChannelOfNatStr(g, "," + s4);
    PrintableIsNotSpace(NatStr(g)[0]);
    ReadCommaTight(s2);
    ReadChannelOfNatStr(r, "," + s2);
  }

  /** Printing three channels as `rgb(r,g,b)` and parsing gives them back exactly when every
      channel is at most 255; a larger channel of up to three digits is rejected. */
  lemma {:induction false} RgbRoundTrip(r: nat, g: nat, b: nat)
    requires r < 1000 && g < 1000 && b < 1000
    ensures ParseRgbColor(RgbText(r, g, b)) == if r <= 255 && g <= 255 && b <= 255 then Some(Rgb(r, g, b)) else None
  {
    var s0 := NatStr(r) + ("," + (NatStr(g) + ("," + (NatStr(b) + ")"))));
    var t := "rgb(" + s0;
    assert t[0] == 'r' && t[|t| - 1] == ')';
    PrintableIsNotSpace('r');
    PrintableIsNotSpace(')');
    TrimmedByEnds(t);
    ParseRgbOfPrefixed(s0);
    ReadTripleOfText(r, g, b);
  }

  /** Trimmed text that does not begin with `#` is not a hex colour. */
  lemma {:induction false} NotHexColor(s: string)
    requires IsTrimmed(s) && |s| > 0 && s[0] != '#'
    ensures ParseHexColorAsWritten(s) == NotHex && ParseHexColor(s) == None
  {
    TrimOfTrimmed(s);
  }

  lemma {:induction false} ParseHexWhiteLong()
    ensures ParseHexColor("#ffffff") == Some(Rgb(255, 255, 255))
  {
    var white := Rgb(255, 255, 255);
    assert HexText(white) == "#ffffff" by {
      assert Hex2(255) == "ff";
    }
    HexRoundTrip(white);
  }

  lemma {:induction false} ParseHexWhite()
    ensures ParseHexColor("#fff") == Some(Rgb(255, 255, 255))
  {
    assert ParseHexColor("#fff") == ParseHexColor("#ffffff") by {
      PrintableIsNotSpace('f');
      ParseHexShortIsDoubled("#fff", "#ffffff");
    }
    ParseHexWhiteLong();
  }

  lemma {:induction false} RgbTextWhite()
    ensures RgbText(255, 255, 255) == "rgb(255,255,255)"
  {
    assert NatStr(255) == "255";
  }

  lemma {:induction false} RgbTextOverflow()
    ensures RgbText(256, 0, 0) == "rgb(256,0,0)"
  {
    assert NatStr(256) == "256" && NatStr(0) == "0";
  }

  lemma {:induction false} RgbOverflowRejected()
    ensures ParseRgbColor("rgb(256,0,0)") == None
  {
    RgbTextOverflow();
    RgbRoundTrip(256, 0, 0);
  }

  lemma {:induction false} ParseRgbOverflow()
    ensures ParseColor("rgb(256,0,0)") == None
  {
    RgbOverflowRejected();
    TrimmedByEnds("rgb(256,0,0)");
    NotHexColor("rgb(256,0,0)");
  }

  /** Every valid colour means the same whether it is spelled `#rrggbb` or `rgb(r,g,b)`. */
  lemma {:induction false} SpellingsAgree(c: Rgb)
    requires ValidRgb(c)
    ensures ParseColor(HexText(c)) == Some(c)
    ensures ParseColor(RgbText(c.r, c.g, c.b)) == Some(c)
  {
    HexRoundTrip(c);
    var t := RgbText(c.r, c.g, c.b);
    RgbRoundTrip(c.r, c.g, c.b);
    assert t[0] == 'r' && t[|t| - 1] == ')';
    PrintableIsNotSpace('r');
    PrintableIsNotSpace(')');
    TrimmedByEnds(t);
    NotHexColor(t);
  }

  /** `#fff`, `#ffffff` and `rgb(255,255,255)` all mean white, and `rgb(256,0,0)` is rejected. */
  lemma {:induction false} WhiteSpellingsAgree()
    ensures ParseColor("#fff") == ParseColor("#ffffff") == ParseColor("rgb(255,255,255)") == Some(Rgb(255, 255, 255))
    ensures ParseColor("rgb(256,0,0)") == None
  {
    var white := Rgb(255, 255, 255);
    SpellingsAgree(white);
    ParseHexWhiteLong();
    RgbTextWhite();
    ParseHexWhite();
    ParseRgbOverflow();
  }

  /* ---------------------------------------------------------------- malformed hex channels */

  /** A `#` text whose channels the colour constructor refuses is no colour at all: neither
      form reads it, so the property stays unset. */
  lemma {:induction false} RefusedHexLeavesColorUnset(v: string)
    requires ParseHexColorAsWritten(v) == HexThrows
    ensures ParseHexColor(v) == None && ParseColor(v) == None
  {
    var t := Trim(v);
    assert t[0] == '#';
    assert Lower(t[..4])[0] == '#';
  }

  /** `#ggg` reads NaN for every channel, so the colour constructor throws. */
  lemma {:induction false} NotHexDigitsThrow()
    ensures ParseHexColorAsWritten("#ggg") == HexThrows && ParseColor("#ggg") == None
  {
    TrimmedByEnds("#ggg");
    ParseHexOfNormal("#ggg");
    assert HexPair('g', 'g') == None;
    assert HexBody("#ggg") == HexThrows;
    RefusedHexLeavesColorUnset("#ggg");
  }

  /** `#-1-1-1` reads -1 for every channel, which the colour constructor refuses. */
  lemma {:induction false} NegativeHexThrows()
    ensures ParseHexColorAsWritten("#-1-1-1") == HexThrows && ParseColor("#-1-1-1") == None
  {
    TrimmedByEnds("#-1-1-1");
    ParseHexOfNormal("#-1-1-1");
    var hex := "#-1-1-1"[1..];
    assert hex[0] == '-' && hex[1] == '1';
    assert HexPair('-', '1') == Some(-1);
    assert HexBody("#-1-1-1") == HexThrows;
    RefusedHexLeavesColorUnset("#-1-1-1");
  }

  /** As written, `#ggg` reaches the colour constructor with NaN channels and `#-1-1-1` with
      channels of -1, and both throw; the corrected reader ignores them. */
  lemma {:induction false} MalformedHexThrows()
    ensures ParseHexColorAsWritten("#ggg") == HexThrows
    ensures ParseHexColorAsWritten("#-1-1-1") == HexThrows
    ensures ParseColor("#ggg") == None && ParseColor("#-1-1-1") == None
  {
    NotHexDigitsThrow();
    NegativeHexThrows();
  }
}

=== FILE: layout.dfy ===
/**
 * The page model of the native engine (NativeRenderState, ensureRoom,
 * addVerticalGap, wrapText and drawTextBlock in packages/nexdf/src/native.ts).
 * The PDF document is reduced to a page count and the list of drawing
 * operations issued, in order; the cursor runs down the page in PDF
 * coordinates (y grows upwards). Text widths come from the font's metrics,
 * which are a parameter here.
 */
module Layout {
  import opened Options
  import opened Text
  import opened Colors
  import opened Styles

  /** `font.widthOfTextAtSize(text, size)` for the regular or the bold font. It is total here:
      the font's refusal of characters outside its encoding is not modelled. */
  type Measure = (Weight, real, string) -> real

  /** A font at a size: the regular font for normal weight, the bold one for bold. */
  datatype Font = Font(measure: Measure, weight: Weight, size: real) {
    function Width(text: string): real {
      measure(weight, size, text)
    }
  }

  /** The page size and margins, which never change during a render. */
  datatype Frame = Frame(pageWidth: real, pageHeight: real, marginLeft: real, marginRight: real, marginTop: real, marginBottom: real) {
    /** The width between the side margins. */
    function MaxWidth(): real {
      pageWidth - marginLeft - marginRight
    }

    /** The height between the top and bottom margins. */
    function UsableHeight(): real {
      pageHeight - marginTop - marginBottom
    }

    /** Where the cursor sits on a fresh page. */
    function Top(): real {
      pageHeight - marginTop
    }
  }

  /** A drawing call on a page; pages are numbered from 0 in the order they were added. */
  datatype Op =
    | DrawText(page: nat, text: string, x: real, y: real, size: real, weight: Weight, color: Rgb)
    | DrawLine(page: nat, x1: real, x2: real, y: real, thickness: real, grey: real)

  /** The mutable part of NativeRenderState: how many pages exist (the last is the current
      page), the cursor, and the operations drawn so far. */
  datatype RenderState = RenderState(frame: Frame, pages: nat, cursorY: real, ops: seq<Op>)

  /** There is a current page and every operation is on a page that exists. */
  predicate Valid(st: RenderState) {
    st.pages >= 1 && forall i :: 0 <= i < |st.ops| ==> st.ops[i].page < st.pages
  }

  /** `r` continues `st`: same frame, no page removed, and only operations appended. */
  predicate Extends(st: RenderState, r: RenderState) {
    r.frame == st.frame && st.pages <= r.pages && |st.ops| <= |r.ops| && r.ops[..|st.ops|] == st.ops
  }

  lemma {:induction false} ExtendsTransitive(a: RenderState, b: RenderState, c: RenderState)
    requires Extends(a, b) && Extends(b, c)
    ensures Extends(a, c)
  {
    assert c.ops[..|a.ops|] == c.ops[..|b.ops|][..|a.ops|];
  }

  /** The texts of the text operations, in order. */
  function Drawn(ops: seq<Op>): seq<string>
    decreases |ops|
  {
    if |ops| == 0 then []
    else (if ops[0].DrawText? then [ops[0].text] else []) + Drawn(ops[1..])
  }

  lemma {:induction false} DrawnAppend(a: seq<Op>, b: seq<Op>)
    ensures Drawn(a + b) == Drawn(a) + Drawn(b)
    decreases |a|
  {
    if |a| == 0 {
      assert a + b == b;
    } else {
      assert (a + b)[1..] == a[1..] + b;
      DrawnAppend(a[1..], b);
    }
  }

  /* ---------------------------------------------------------------- vertical space */

  /** ensureRoom: when less than `h` is left above the bottom margin, a new page is added and
      the cursor goes back to the top margin; nothing else changes. */
  function EnsureRoom(st: RenderState, h: real): (r: RenderState)
    ensures Extends(st, r) && r.ops == st.ops
    ensures r.pages <= st.pages + 1
    ensures r.pages == st.pages <==> r == st
    ensures r.pages == st.pages <==> st.cursorY - h >= st.frame.marginBottom
    ensures r.pages > st.pages ==> r.pages == st.pages + 1 && r.cursorY == st.frame.Top()
    ensures h <= st.frame.UsableHeight() ==> r.cursorY - h >= st.frame.marginBottom
    ensures Valid(st) ==> Valid(r)
  {
    if st.cursorY - h >= st.frame.marginBottom then st
    else st.(pages := st.pages + 1, cursorY := st.frame.Top())
  }

  /** Asking for the same room twice adds at most one page. */
  lemma {:induction false} EnsureRoomIdempotent(st: RenderState, h: real)
    requires h <= st.frame.UsableHeight()
    ensures EnsureRoom(EnsureRoom(st, h), h) == EnsureRoom(st, h)
  {
  }

  /** A gap as addVerticalGap applies it: a gap of zero or less, such as a negative margin,
      counts as none. */
  function GapOf(points: real): (g: real)
    ensures g >= 0.0 && g >= points
  {
    if points > 0.0 then points else 0.0
  }

  /** addVerticalGap: a positive gap makes room for itself and moves the cursor down by it; a
      gap of zero or less does nothing. */
  function AddGap(st: RenderState, points: real): (r: RenderState)
    ensures Extends(st, r) && r.ops == st.ops
    ensures points <= 0.0 ==> r == st
    ensures r.pages <= st.pages + 1
    ensures r.pages == st.pages ==> r.cursorY == st.cursorY - GapOf(points)
    ensures r.pages > st.pages ==> r.cursorY == st.frame.Top() - points
    ensures 0.0 < points <= st.frame.UsableHeight() ==> r.cursorY >= st.frame.marginBottom
    ensures Valid(st) ==> Valid(r)
  {
    if points <= 0.0 then st
    else
      var roomy := EnsureRoom(st, points);
      roomy.(cursorY := roomy.cursorY - points)
  }

  /** The line height in points: values above 3 are absolute, smaller ones a multiple of the
      font size. */
  function ResolvedLineHeight(style: Style): (r: real)
    ensures style.lineHeight > 3.0 ==> r == style.lineHeight
    ensures style.lineHeight <= 3.0 && style.fontSize > 0.0 ==> (r > 0.0 <==> style.lineHeight > 0.0)
  {
    if style.lineHeight > 3.0 then style.lineHeight else style.lineHeight * style.fontSize
  }

  /** The threshold is a cliff: a line height of 3 is three lines' worth, one of 3.5 is 3.5pt. */
  lemma {:induction false} LineHeightCliff()
    ensures ResolvedLineHeight(DefaultStyle.(lineHeight := 3.0)) == 33.0
    ensures ResolvedLineHeight(DefaultStyle.(lineHeight := 3.5)) == 3.5
    ensures ResolvedLineHeight(DefaultStyle) == 15.4
  {
  }

  /* ---------------------------------------------------------------- wrapping */

  /** The first word of a line: its leading run of non-whitespace. */
  function FirstWord(line: string): string {
    line[..WordLen(line)]
  }

  /** `line` begins with the whole of `head`: `head` is followed by nothing or by a space. */
  predicate BeginsWith(line: string, head: string) {
    |head| <= |line| && line[..|head|] == head && (|line| == |head| || line[|head|] == ' ')
  }

  lemma {:induction false} FirstWordOfBeginning(line: string, w: string)
    requires IsWord(w) && BeginsWith(line, w)
    ensures FirstWord(line) == w
  {
    var tail := line[|w|..];
    assert line == w + tail;
    SpaceIsSpace();
    WordLenOfWord(w, tail);
  }

  lemma {:induction false} JoinCons(a: string, ys: seq<string>, glue: string)
    requires |ys| > 0
    ensures Join([a] + ys, glue) == a + glue + Join(ys, glue)
  {
    assert ([a] + ys)[1..] == ys;
  }

  /** No line is wider than `maxWidth` unless it is a single word. */
  predicate FitOrSingle(lines: seq<string>, font: Font, maxWidth: real) {
    forall i :: 0 <= i < |lines| ==> IsWord(lines[i]) || font.Width(lines[i]) <= maxWidth
  }

  /** No line could have taken the first word of the line after it. */
  predicate Greedy(lines: seq<string>, font: Font, maxWidth: real) {
    forall i :: 0 <= i < |lines| - 1 ==> font.Width(lines[i] + " " + FirstWord(lines[i + 1])) > maxWidth
  }

  lemma {:induction false} EmitLine(current: string, tail: seq<string>, w: string, font: Font, maxWidth: real)
    requires |tail| > 0 && IsWord(w) && BeginsWith(tail[0], w)
    requires IsWord(current) || font.Width(current) <= maxWidth
    requires font.Width(current + " " + w) > maxWidth
    requires FitOrSingle(tail, font, maxWidth) && Greedy(tail, font, maxWidth)
    ensures FitOrSingle([current] + tail, font, maxWidth) && Greedy([current] + tail, font, maxWidth)
  {
    FirstWordOfBeginning(tail[0], w);
    var lines := [current] + tail;
    forall i | 0 <= i < |lines| - 1
      ensures font.Width(lines[i] + " " + FirstWord(lines[i + 1])) > maxWidth
    {
      if i > 0 {
        assert lines[i] == tail[i - 1] && lines[i + 1] == tail[i];
      }
    }
  }

  lemma {:induction false} BeginsWithMerged(line: string, current: string, w: string)
    requires BeginsWith(line, current + " " + w)
    ensures BeginsWith(line, current)
  {
    var merged := current + " " + w;
    assert line[..|current|] == merged[..|current|] == current;
    assert line[|current|] == merged[|current|] == ' ';
  }

  /** The loop of wrapText from its `current` line on: each next word joins the current line
      when the longer line fits, otherwise the current line is emitted and the word starts the
      next one. */
  function WrapFrom(current: string, rest: seq<string>, font: Font, maxWidth: real): (lines: seq<string>)
    requires IsWord(current) || font.Width(current) <= maxWidth
    requires forall i :: 0 <= i < |rest| ==> IsWord(rest[i])
    ensures 1 <= |lines| <= 1 + |rest|
    ensures Join(lines, " ") == Join([current] + rest, " ")
    ensures BeginsWith(lines[0], current)
    ensures FitOrSingle(lines, font, maxWidth)
    ensures Greedy(lines, font, maxWidth)
    decreases |rest|
  {
    if |rest| == 0 then [current]
    else
      var candidate := current + " " + rest[0];
      if font.Width(candidate) <= maxWidth then
        var lines := WrapFrom(candidate, rest[1..], font, maxWidth);
        WrapFromJoinMerged(current, rest, lines);
        BeginsWithMerged(lines[0], current, rest[0]);
        lines
      else
        var tail := WrapFrom(rest[0], rest[1..], font, maxWidth);
        JoinCons(current, tail, " ");
        JoinCons(current, rest, " ");
        assert [rest[0]] + rest[1..] == rest;
        EmitLine(current, tail, rest[0], font, maxWidth);
        [current] + tail
  }

  /** The joins agree after merging `current` with the next word. */
  lemma {:induction false} WrapFromJoinMerged(current: string, rest: seq<string>, lines: seq<string>)
    requires |rest| > 0
    requires Join(lines, " ") == Join([current + " " + rest[0]] + rest[1..], " ")
    ensures Join(lines, " ") == Join([current] + rest, " ")
  {
    var merged := current + " " + rest[0];
    JoinCons(current, rest, " ");
    if |rest| == 1 {
      assert [merged] + rest[1..] == [merged];
      assert Join(rest, " ") == rest[0];
    } else {
      JoinCons(merged, rest[1..], " ");
      JoinCons(rest[0], rest[1..], " ");
      assert rest == [rest[0]] + rest[1..];
    }
  }

  /** wrapText: the words of `text` laid out greedily into lines no wider than `maxWidth`.
      Joined with single spaces the lines give back the words in order; a line is wider than
      `maxWidth` only when it is a single word; and no line could have taken the first word of
      the next one. */
  function WrapText(text: string, font: Font, maxWidth: real): (lines: seq<string>)
    ensures Join(lines, " ") == Join(Words(text), " ")
    ensures |lines| <= |Words(text)|
    ensures |lines| == 0 <==> Words(text) == []
    ensures FitOrSingle(lines, font, maxWidth)
    ensures Greedy(lines, font, maxWidth)
  {
    var words := Words(text);
    if |words| == 0 then []
    else
      assert words == [words[0]] + words[1..];
      WrapFrom(words[0], words[1..], font, maxWidth)
  }

  /** One turn of the wrapping loop. */
  lemma {:induction false} WrapFromStep(current: string, rest: seq<string>, font: Font, maxWidth: real)
    requires IsWord(current) || font.Width(current) <= maxWidth
    requires forall i :: 0 <= i < |rest| ==> IsWord(rest[i])
    requires |rest| > 0
    ensures var candidate := current + " " + rest[0];
            WrapFrom(current, rest, font, maxWidth)
            == if font.Width(candidate) <= maxWidth then WrapFrom(candidate, rest[1..], font, maxWidth)
               else [current] + WrapFrom(rest[0], rest[1..], font, maxWidth)
  {
  }

  lemma {:induction false} AppendAssociative<T>(a: seq<T>, b: seq<T>, c: seq<T>)
    ensures a + (b + c) == (a + b) + c
  {
  }

  /** One turn of the loop of wrapText, on the word at `index`. */
  lemma {:induction false} WrapAdvance(words: seq<string>, index: nat, current: string, font: Font, maxWidth: real)
    requires 1 <= index < |words|
    requires forall i :: 0 <= i < |words| ==> IsWord(words[i])
    requires IsWord(current) || font.Width(current) <= maxWidth
    ensures var candidate := current + " " + words[index];
            && (font.Width(candidate) <= maxWidth ==>
                  WrapFrom(current, words[index..], font, maxWidth) == WrapFrom(candidate, words[index + 1..], font, maxWidth))
            && (font.Width(candidate) > maxWidth ==>
                  WrapFrom(current, words[index..], font, maxWidth)
                  == [current] + WrapFrom(words[index], words[index + 1..], font, maxWidth))
  {
    var rest := words[index..];
    assert rest[1..] == words[index + 1..];
    assert rest[0] == words[index];
    WrapFromStep(current, rest, font, maxWidth);
  }

  /** The loop of wrapText as the source writes it, which computes WrapText. */
  method WrapLines(text: string, font: Font, maxWidth: real) returns (lines: seq<string>)
    ensures lines == WrapText(text, font, maxWidth)
  {
    var words := Words(text);
    if |words| == 0 {
      return [];
    }
    lines := WrapWords(words, font, maxWidth);
  }

  /** The body of the for-loop: the word at `index` joins the current line when the longer
      line fits, otherwise the current line is emitted and the word starts the next one. */
  method WrapTurn(lines: seq<string>, current: string, words: seq<string>, index: nat, font: Font, maxWidth: real)
    returns (lines': seq<string>, current': string)
    requires 1 <= index < |words|
    requires forall i :: 0 <= i < |words| ==> IsWord(words[i])
    requires IsWord(current) || font.Width(current) <= maxWidth
    ensures IsWord(current') || font.Width(current') <= maxWidth
    ensures lines' + WrapFrom(current', words[index + 1..], font, maxWidth) == lines + WrapFrom(current, words[index..], font, maxWidth)
  {
    WrapAdvance(words, index, current, font, maxWidth);
    var candidate := current + " " + words[index];
    if font.Width(candidate) <= maxWidth {
      lines', current' := lines, candidate;
    } else {
      AppendAssociative(lines, [current], WrapFrom(words[index], words[index + 1..], font, maxWidth));
      lines', current' := lines + [current], words[index];
    }
  }

  /** The for-loop over the words after the first. */
  method WrapWords(words: seq<string>, font: Font, maxWidth: real) returns (lines: seq<string>)
    requires |words| > 0
    requires forall i :: 0 <= i < |words| ==> IsWord(words[i])
    ensures lines == WrapFrom(words[0], words[1..], font, maxWidth)
  {
    lines := [];
    var current := words[0];
    var index := 1;
    while index < |words|
      invariant 1 <= index <= |words|
      invariant IsWord(current) || font.Width(current) <= maxWidth
      invariant lines + WrapFrom(current, words[index..], font, maxWidth) == WrapFrom(words[0], words[1..], font, maxWidth)
      decreases |words| - index
    {
      lines, current := WrapTurn(lines, current, words, index, font, maxWidth);
      index := index + 1;
    }
    assert words[index..] == [];
    lines := lines + [current];
  }

  /* ---------------------------------------------------------------- drawing */

  /** The x of a line of width `lineWidth`: at the left margin, centred between the margins,
      or flush with the right margin. */
  function AlignX(frame: Frame, align: Align, lineWidth: real): (x: real)
    ensures align == Left ==> x == frame.marginLeft
    ensures align == Right ==> x + lineWidth == frame.pageWidth - frame.marginRight
    ensures align == Center ==> x - frame.marginLeft == (frame.pageWidth - frame.marginRight) - (x + lineWidth)
    ensures 0.0 <= lineWidth <= frame.MaxWidth() ==> frame.marginLeft <= x && x + lineWidth <= frame.pageWidth - frame.marginRight
  {
    match align
    case Left => frame.marginLeft
    case Center => frame.marginLeft + (frame.MaxWidth() - lineWidth) / 2.0
    case Right => frame.pageWidth - frame.marginRight - lineWidth
  }

  /** One pass of drawTextBlock's loop: make room for the line, draw it with its baseline one
      line height below the cursor, and move the cursor down to that baseline. */
  function DrawLine(st: RenderState, line: string, font: Font, color: Rgb, align: Align, lineHeight: real): (r: RenderState)
    requires Valid(st)
    ensures Valid(r) && Extends(st, r)
    ensures r.pages == EnsureRoom(st, lineHeight).pages
    ensures r.cursorY == EnsureRoom(st, lineHeight).cursorY - lineHeight
    ensures |r.ops| == |st.ops| + 1 && r.ops == st.ops + [r.ops[|st.ops|]] && r.ops[|st.ops|].DrawText?
    ensures r.ops[|st.ops|].text == line && r.ops[|st.ops|].y == r.cursorY
  {
    var roomy := EnsureRoom(st, lineHeight);
    var x := AlignX(st.frame, align, font.Width(line));
    var op := DrawText(roomy.pages - 1, line, x, roomy.cursorY - lineHeight, font.size, font.weight, color);
    var r := roomy.(cursorY := roomy.cursorY - lineHeight, ops := roomy.ops + [op]);
    assert Valid(r);
    r
  }

  /** The height taken by `n` lines of height `h` stacked one below the other; it is `n * h`. */
  function Stacked(n: nat, h: real): real
  {
    if n == 0 then 0.0 else h + Stacked(n - 1, h)
  }

  lemma {:induction false} StackedIsProduct(n: nat, h: real)
    ensures Stacked(n, h) == n as real * h
  {
    if n > 0 {
      StackedIsProduct(n - 1, h);
    }
  }

  /** The body of drawTextBlock's loop: each line gets room, is drawn with its baseline one
      line height below the cursor, and the cursor moves down by the line height. */
  function DrawLines(st: RenderState, lines: seq<string>, font: Font, color: Rgb, align: Align, lineHeight: real): (r: RenderState)
    requires Valid(st)
    ensures Valid(r) && Extends(st, r)
    ensures Drawn(r.ops[|st.ops|..]) == lines
    ensures |r.ops| == |st.ops| + |lines|
    ensures r.pages <= st.pages + |lines|
    ensures lineHeight <= st.frame.UsableHeight() ==>
              forall i :: |st.ops| <= i < |r.ops| ==> r.ops[i].DrawText? && r.ops[i].y >= st.frame.marginBottom
    ensures |lines| > 0 ==> r.ops[|st.ops|].y == EnsureRoom(st, lineHeight).cursorY - lineHeight
    ensures r.pages == st.pages ==> r.cursorY == st.cursorY - Stacked(|lines|, lineHeight)
    decreases |lines|
  {
    if |lines| == 0 then st
    else
      var next := DrawLine(st, lines[0], font, color, align, lineHeight);
      var op := next.ops[|st.ops|];
      var r := DrawLines(next, lines[1..], font, color, align, lineHeight);
      DrawnStep(st.ops, op, r.ops);
      assert r.ops[|st.ops|] == op;
      ExtendsTransitive(st, next, r);
      r
  }

  lemma {:induction false} DrawnStep(before: seq<Op>, op: Op, after: seq<Op>)
    requires op.DrawText?
    requires |before| + 1 <= |after| && after[..|before| + 1] == before + [op]
    ensures Drawn(after[|before|..]) == [op.text] + Drawn(after[|before| + 1..])
  {
    var tail := after[|before|..];
    assert tail == [op] + after[|before| + 1..];
    assert tail[1..] == after[|before| + 1..];
  }

  /** drawTextBlock: the text is collapsed and, unless blank, wrapped to the width between the
      margins and drawn line by line in the style's font, size, colour and alignment. The lines
      drawn, joined with single spaces, are exactly the collapsed text. */
  function DrawTextBlock(st: RenderState, text: string, style: Style, measure: Measure): (r: RenderState)
    requires Valid(st)
    ensures Valid(r) && Extends(st, r)
    ensures Join(Drawn(r.ops[|st.ops|..]), " ") == Collapse(text)
    ensures Words(text) == [] ==> r == st
    ensures ResolvedLineHeight(style) <= st.frame.UsableHeight() ==>
              forall i :: |st.ops| <= i < |r.ops| ==> r.ops[i].DrawText? && r.ops[i].y >= st.frame.marginBottom
  {
    var cleaned := Collapse(text);
    CollapseEmpty(text);
    if |cleaned| == 0 then
      assert st.ops[|st.ops|..] == [];
      st
    else
      var font := Font(measure, style.fontWeight, style.fontSize);
      var lines := WrapText(cleaned, font, st.frame.MaxWidth());
      WordsOfCollapse(text);
      CollapseIsJoinedWords(text);
      DrawLines(st, lines, font, style.color, style.textAlign, ResolvedLineHeight(style))
  }

  /** Leading whitespace never reaches the page: the drawn lines are those of the text
      without it. */
  lemma {:induction false} DrawTextBlockSkipsPadding(st: RenderState, pad: string, text: string, style: Style, measure: Measure)
    requires Valid(st) && AllSpace(pad)
    ensures DrawTextBlock(st, pad + text, style, measure) == DrawTextBlock(st, text, style, measure)
  {
    WordsSkipPadding(pad, text);
    CollapseIsJoinedWords(pad + text);
    CollapseIsJoinedWords(text);
  }
}

=== FILE: numbers.dfy ===
/**
 * The number readers the native engine calls: JavaScript's `Number.parseFloat`
 * and `Number.parseInt(_, 10)`, both of which read the longest numeric PREFIX
 * after leading whitespace, and the decimal printing used to state round trips.
 * `None` stands for NaN. Lengths are exact reals: there is no rounding and no
 * overflow to Infinity.
 */
module Numbers {
  import opened Options
  import opened Text

  predicate IsDigit(c: char) {
    '0' <= c <= '9'
  }

  predicate AllDigits(s: string) {
    forall i :: 0 <= i < |s| ==> IsDigit(s[i])
  }

  predicate HasDigit(s: string) {
    exists i :: 0 <= i < |s| && IsDigit(s[i])
  }

  function DigitValue(c: char): nat
    requires IsDigit(c)
  {
    c as int - '0' as int
  }

  function DigitChar(d: nat): (c: char)
    requires d < 10
    ensures IsDigit(c) && DigitValue(c) == d
  {
    ('0' as int + d) as char
  }

  /** Length of the leading run of decimal digits. */
  function DigitRun(s: string): (n: nat)
    ensures n <= |s|
    ensures AllDigits(s[..n])
    ensures n == |s| || !IsDigit(s[n])
  {
    if |s| == 0 || !IsDigit(s[0]) then 0
    else
      var k := DigitRun(s[1..]);
      assert s[..k + 1] == [s[0]] + s[1..][..k];
      k + 1
  }

  /** The value of a run of decimal digits, most significant digit first. */
  function DigitsValue(s: string): nat
    requires AllDigits(s)
  {
    if |s| == 0 then 0 else 10 * DigitsValue(s[..|s| - 1]) + DigitValue(s[|s| - 1])
  }

  function Pow10(n: nat): (r: nat)
    ensures r >= 1
  {
    if n == 0 then 1 else 10 * Pow10(n - 1)
  }

  /** `x`, negated when `negative`. */
  function Signed(x: real, negative: bool): real {
    if negative then -x else x
  }

  /** `m` times ten to the power `e`, as an exact real. */
  function Scaled(m: real, e: int): real
    decreases if e >= 0 then e else -e
  {
    if e == 0 then m else if e > 0 then 10.0 * Scaled(m, e - 1) else Scaled(m, e + 1) / 10.0
  }

  lemma {:induction false} HasDigitOfSuffix(s: string, u: string)
    requires |u| <= |s| && u == s[|s| - |u|..]
    requires HasDigit(u)
    ensures HasDigit(s)
  {
    var i :| 0 <= i < |u| && IsDigit(u[i]);
    assert s[|s| - |u| + i] == u[i];
  }

  lemma {:induction false} HasDigitOfPrefix(s: string, p: string)
    requires |p| <= |s| && p == s[..|p|]
    requires HasDigit(p)
    ensures HasDigit(s)
  {
    var i :| 0 <= i < |p| && IsDigit(p[i]);
    assert s[i] == p[i];
  }

  /** Lower-casing neither adds nor removes digits. */
  lemma {:induction false} HasDigitOfLower(s: string)
    requires HasDigit(Lower(s))
    ensures HasDigit(s)
  {
    var i :| 0 <= i < |s| && IsDigit(Lower(s)[i]);
    assert IsDigit(s[i]);
  }

  /** A digit of the trimmed text is a digit of the text. */
  lemma {:induction false} HasDigitOfTrim(s: string)
    requires HasDigit(Trim(s))
    ensures HasDigit(s)
  {
    var t := TrimStart(s);
    HasDigitOfPrefix(t, Trim(s));
    HasDigitOfSuffix(s, t);
  }

  /** Drops one leading `+` or `-`. */
  function Unsigned(t: string): (u: string)
    ensures u == t || (|t| > 0 && u == t[1..])
    ensures |u| <= |t| && u == t[|t| - |u|..]
  {
    if |t| > 0 && (t[0] == '-' || t[0] == '+') then t[1..] else t
  }

  /** The exponent part `e[+|-]digits` at the start of `s`, or 0 when there is none
      (`1e` reads as 1, like `parseFloat`). */
  function ExponentPrefix(s: string): int {
    if |s| > 0 && (s[0] == 'e' || s[0] == 'E') then
      var v := Unsigned(s[1..]);
      var d := DigitRun(v);
      if d == 0 then 0
      else if |s| > 1 && s[1] == '-' then -(DigitsValue(v[..d]) as int)
      else DigitsValue(v[..d])
    else 0
  }

  /** The mantissa `digits [. digits]` at the start of a text: its digits with the `.` left
      out, how many of them follow the `.`, and the text after it. */
  datatype Mantissa = Mantissa(digits: string, fractionLength: nat, rest: string)

  function ReadMantissa(u: string): (m: Mantissa)
    ensures AllDigits(m.digits)
    ensures |m.digits| > 0 ==> HasDigit(u)
    decreases |u|
  {
    if |u| > 0 && IsDigit(u[0]) then
      var m := ReadMantissa(u[1..]);
      Mantissa([u[0]] + m.digits, m.fractionLength, m.rest)
    else if |u| > 0 && u[0] == '.' then
      var m := ReadFraction(u[1..]);
      if |m.digits| > 0 then HasDigitOfSuffix(u, u[1..]); m else m
    else Mantissa("", 0, u)
  }

  /** The digits after the `.` of a mantissa: all of them count as fraction digits. */
  function ReadFraction(u: string): (m: Mantissa)
    ensures AllDigits(m.digits) && m.fractionLength == |m.digits|
    ensures |m.digits| > 0 ==> HasDigit(u)
    decreases |u|
  {
    if |u| > 0 && IsDigit(u[0]) then
      var m := ReadFraction(u[1..]);
      Mantissa([u[0]] + m.digits, m.fractionLength + 1, m.rest)
    else Mantissa("", 0, u)
  }

  /** The number spelled by mantissa digits of which the last `fractionLength` follow the
      `.`, times ten to the exponent `e`, negated when `negative`. */
  function MantissaValue(digits: string, fractionLength: nat, e: int, negative: bool): real
    requires AllDigits(digits)
  {
    Scaled(Signed(DigitsValue(digits) as real, negative), e - fractionLength)
  }

  /** The unsigned decimal literal `digits [. digits] [e[+|-]digits]` at the start of `u`,
      which must hold at least one mantissa digit, negated when `negative` holds. Its
      magnitude is the integer spelled by the integer and fraction digits together, times
      ten to the exponent less the number of fraction digits. */
  function DecimalPrefix(u: string, negative: bool): (r: Option<real>)
    ensures r.Some? ==> HasDigit(u)
  {
    var m := ReadMantissa(u);
    if |m.digits| == 0 then None
    else
      Some(MantissaValue(m.digits, m.fractionLength, ExponentPrefix(m.rest), negative))
  }

  /** `Number.parseFloat`: skips leading whitespace and reads the longest prefix of the
      form `[+|-] digits [. digits] [e[+|-]digits]` that holds at least one mantissa digit.
      A text with no digit at all is NaN. */
  function ParseFloat(s: string): (r: Option<real>)
    ensures r.Some? ==> HasDigit(s)
  {
    var t := TrimStart(s);
    var u := Unsigned(t);
    var r := DecimalPrefix(u, |t| > 0 && t[0] == '-');
    if r.Some? then
      HasDigitOfSuffix(t, u);
      HasDigitOfSuffix(s, t);
      r
    else r
  }

  /** `Number.parseInt(s, 10)`: skips leading whitespace and reads `[+|-] digits`. */
  function ParseInt(s: string): (r: Option<int>)
    ensures r.Some? ==> HasDigit(s)
  {
    var t := TrimStart(s);
    var u := Unsigned(t);
    var k := DigitRun(u);
    if k == 0 then None
    else
      assert IsDigit(u[0]);
      HasDigitOfSuffix(t, u);
      HasDigitOfSuffix(s, t);
      var v := DigitsValue(u[..k]) as int;
      Some(if |t| > 0 && t[0] == '-' then -v else v)
  }

  /* ---------------------------------------------------------------- printing */

  /** The shortest decimal spelling of a natural number. */
  function NatStr(n: nat): (s: string)
    ensures 1 <= |s| && AllDigits(s)
    ensures n < 10 ==> |s| == 1
    ensures n < 100 ==> |s| <= 2
    ensures n < 1000 ==> |s| <= 3
    ensures n >= 10 ==> |s| >= 2
    ensures n >= 100 ==> |s| >= 3
    ensures n >= 1000 ==> |s| >= 4
  {
    if n < 10 then [DigitChar(n)] else NatStr(n / 10) + [DigitChar(n % 10)]
  }

  /** Reading a printed number gives the number back. */
  lemma {:induction false} DigitsValueOfNatStr(n: nat)
    ensures DigitsValue(NatStr(n)) == n
  {
    if n >= 10 {
      var s := NatStr(n);
      assert s[..|s| - 1] == NatStr(n / 10);
      DigitsValueOfNatStr(n / 10);
    }
  }

  lemma {:induction false} DigitRunOfDigits(d: string, rest: string)
    requires AllDigits(d)
    requires |rest| == 0 || !IsDigit(rest[0])
    ensures DigitRun(d + rest) == |d|
    ensures (d + rest)[..|d|] == d && (d + rest)[|d|..] == rest
    decreases |d|
  {
    if |d| > 0 {
      assert (d + rest)[1..] == d[1..] + rest;
      DigitRunOfDigits(d[1..], rest);
    }
  }

  /** A minus sign in front of a decimal literal negates its value. */
  lemma {:induction false} ParseFloatOfMinus(x: string, m: real)
    requires DecimalPrefix(x, true) == Some(m)
    ensures ParseFloat("-" + x) == Some(m)
  {
    var s := "-" + x;
    assert s[0] == '-';
    PrintableIsNotSpace('-');
    assert TrimStart(s) == s;
    assert s[1..] == x;
    assert Unsigned(s) == x;
  }

  /** `parseInt` reads a printed number back, whatever non-digit text follows it. */
  lemma {:induction false} ParseIntOfNatStr(n: nat, tail: string)
    requires |tail| == 0 || !IsDigit(tail[0])
    ensures ParseInt(NatStr(n) + tail) == Some(n)
  {
    var s := NatStr(n) + tail;
    assert IsDigit(s[0]);
    PrintableIsNotSpace(s[0]);
    assert TrimStart(s) == s;
    assert Unsigned(s) == s;
    DigitRunOfDigits(NatStr(n), tail);
    DigitsValueOfNatStr(n);
  }

  /** `parseInt` reads a sign in front of a printed number: `-` negates it, `+` keeps it. */
  lemma {:induction false} ParseIntOfSigned(sign: char, n: nat, tail: string)
    requires sign == '+' || sign == '-'
    requires |tail| == 0 || !IsDigit(tail[0])
    ensures ParseInt([sign] + NatStr(n) + tail) == Some(if sign == '-' then -(n as int) else n as int)
  {
    var s := [sign] + NatStr(n) + tail;
    PrintableIsNotSpace(sign);
    assert TrimStart(s) == s;
    assert s[1..] == NatStr(n) + tail;
    assert Unsigned(s) == NatStr(n) + tail;
    DigitRunOfDigits(NatStr(n), tail);
    DigitsValueOfNatStr(n);
  }

  /* ---------------------------------------------------------------- decimal literals */

  /** A number as written in a style value: an optional minus sign, the whole part in
      decimal, the digits after a `.` (none means no `.` is written), and a power of ten
      written after `e` (zero means no exponent is written). */
  datatype Literal = Literal(negative: bool, whole: nat, fraction: string, exponent: int)

  predicate ValidLiteral(l: Literal) {
    AllDigits(l.fraction)
  }

  function FractionText(fraction: string): string {
    if |fraction| == 0 then "" else "." + fraction
  }

  function ExponentText(e: int): string {
    if e == 0 then ""
    else if e < 0 then "e-" + NatStr(-e)
    else "e" + NatStr(e)
  }

  function LiteralText(l: Literal): string {
    (if l.negative then "-" else "") + UnsignedText(l)
  }

  /** The literal without its sign. */
  function UnsignedText(l: Literal): string {
    NatStr(l.whole) + FractionText(l.fraction) + ExponentText(l.exponent)
  }

  /** What the literal denotes: whole part plus fraction, signed, times ten to the exponent. */
  function LiteralValue(l: Literal): real
    requires ValidLiteral(l)
  {
    var m := l.whole as real + DigitsValue(l.fraction) as real / Pow10(|l.fraction|) as real;
    Scaled(Signed(m, l.negative), l.exponent)
  }

  /** Text that cannot continue a number: it does not start with a digit, `.` or an exponent. */
  predicate EndsNumber(tail: string) {
    |tail| == 0 || (!IsDigit(tail[0]) && tail[0] != '.' && tail[0] != 'e' && tail[0] != 'E')
  }

  /** Appending digits shifts the value of the earlier ones. */
  lemma {:induction false} DigitsValueAppend(a: string, b: string)
    requires AllDigits(a) && AllDigits(b)
    ensures AllDigits(a + b)
    ensures DigitsValue(a + b) == DigitsValue(a) * Pow10(|b|) + DigitsValue(b)
    decreases |b|
  {
    assert AllDigits(a + b);
    if |b| > 0 {
      var b' := b[..|b| - 1];
      var c := DigitValue(b[|b| - 1]);
      assert (a + b)[..|a + b| - 1] == a + b';
      assert (a + b)[|a + b| - 1] == b[|b| - 1];
      assert DigitsValue(a + b) == 10 * DigitsValue(a + b') + c;
      assert DigitsValue(b) == 10 * DigitsValue(b') + c;
      DigitsValueAppend(a, b');
      ShiftDigit(DigitsValue(a), DigitsValue(b'), Pow10(|b'|), c);
    } else {
      assert a + b == a;
    }
  }

  lemma {:induction false} ShiftDigit(x: nat, y: nat, p: nat, c: nat)
    ensures 10 * (x * p + y) + c == x * (10 * p) + (10 * y + c)
  {
  }

  lemma {:induction false} ScaledStep(x: real, k: int)
    ensures Scaled(x, k + 1) == 10.0 * Scaled(x, k)
  {
  }

  /** Scaling by ten to `a` and then to `b` is scaling by ten to `a + b`. */
  lemma {:induction false} ScaledAdd(x: real, a: int, b: int)
    ensures Scaled(x, a + b) == Scaled(Scaled(x, a), b)
    decreases if b >= 0 then b else -b
  {
    if b > 0 {
      ScaledStep(x, a + b - 1);
      ScaledAdd(x, a, b - 1);
      ScaledStep(Scaled(x, a), b - 1);
    } else if b < 0 {
      ScaledStep(x, a + b);
      ScaledAdd(x, a, b + 1);
      ScaledStep(Scaled(x, a), b);
    }
  }

  /** A negative power of ten divides. */
  lemma {:induction false} ScaledDown(x: real, k: nat)
    ensures Scaled(x, -(k as int)) == x / Pow10(k) as real
  {
    if k > 0 {
      ScaledDown(x, k - 1);
      var p := Pow10(k - 1) as real;
      assert Pow10(k) as real == 10.0 * p;
      assert Scaled(x, -(k as int)) == (x / p) / 10.0;
    }
  }

  lemma {:induction false} ShiftedMantissa(w: nat, d: nat, p: nat, negative: bool)
    requires p >= 1
    ensures Signed((w * p + d) as real, negative) / p as real == Signed(w as real + d as real / p as real, negative)
  {
    var n := w * p + d;
    assert n as real == w as real * p as real + d as real;
  }

  /** The mantissa of whole digits, an optional fraction and a text that does not go on
      with a digit or a `.`. */
  lemma {:induction false} MantissaOfParts(whole: string, fraction: string, rest: string)
    requires |whole| > 0 && AllDigits(whole) && AllDigits(fraction)
    requires |rest| == 0 || (!IsDigit(rest[0]) && rest[0] != '.')
    ensures ReadMantissa(whole + FractionText(fraction) + rest) == Mantissa(whole + fraction, |fraction|, rest)
  {
    if |fraction| == 0 {
      assert whole + FractionText(fraction) + rest == whole + rest;
      assert whole + fraction == whole;
      MantissaOfWhole(whole, rest);
    } else {
      assert whole + FractionText(fraction) + rest == whole + ("." + (fraction + rest));
      MantissaOfFraction(whole, fraction, rest);
    }
  }

  /** Leading whole digits are taken into the mantissa one by one. */
  lemma {:induction false} MantissaAfterDigits(whole: string, rest: string)
    requires AllDigits(whole)
    ensures var m := ReadMantissa(rest);
            ReadMantissa(whole + rest) == Mantissa(whole + m.digits, m.fractionLength, m.rest)
    decreases |whole|
  {
    if |whole| == 0 {
      assert whole + rest == rest;
      assert whole + ReadMantissa(rest).digits == ReadMantissa(rest).digits;
    } else {
      var u := whole + rest;
      assert u[0] == whole[0] && u[1..] == whole[1..] + rest;
      MantissaAfterDigits(whole[1..], rest);
      assert [whole[0]] + (whole[1..] + ReadMantissa(rest).digits) == whole + ReadMantissa(rest).digits;
    }
  }

  /** A run of fraction digits followed by a text that does not go on with a digit. */
  lemma {:induction false} FractionOfDigits(fraction: string, rest: string)
    requires AllDigits(fraction)
    requires |rest| == 0 || !IsDigit(rest[0])
    ensures ReadFraction(fraction + rest) == Mantissa(fraction, |fraction|, rest)
    decreases |fraction|
  {
    if |fraction| == 0 {
      assert fraction + rest == rest;
    } else {
      var u := fraction + rest;
      assert u[0] == fraction[0] && u[1..] == fraction[1..] + rest;
      FractionOfDigits(fraction[1..], rest);
      assert [fraction[0]] + fraction[1..] == fraction;
    }
  }

  lemma {:induction false} MantissaOfWhole(whole: string, rest: string)
    requires |whole| > 0 && AllDigits(whole)
    requires |rest| == 0 || (!IsDigit(rest[0]) && rest[0] != '.')
    ensures ReadMantissa(whole + rest) == Mantissa(whole, 0, rest)
  {
    MantissaAfterDigits(whole, rest);
    assert ReadMantissa(rest) == Mantissa("", 0, rest);
    assert whole + "" == whole;
  }

  lemma {:induction false} MantissaOfFraction(whole: string, fraction: string, rest: string)
    requires |whole| > 0 && AllDigits(whole) && |fraction| > 0 && AllDigits(fraction)
    requires |rest| == 0 || !IsDigit(rest[0])
    ensures ReadMantissa(whole + ("." + (fraction + rest))) == Mantissa(whole + fraction, |fraction|, rest)
  {
    var after := "." + (fraction + rest);
    MantissaAfterDigits(whole, after);
    assert after[0] == '.' && after[1..] == fraction + rest;
    FractionOfDigits(fraction, rest);
    assert ReadMantissa(after) == Mantissa(fraction, |fraction|, rest);
  }

  lemma {:induction false} ExponentPrefixOfText(e: int, tail: string)
    requires EndsNumber(tail)
    ensures ExponentPrefix(ExponentText(e) + tail) == e
  {
    if e == 0 {
      assert ExponentText(e) + tail == tail;
      ExponentPrefixOfNumberEnd(tail);
    } else if e < 0 {
      ExponentPrefixOfNegative(-e, tail);
    } else {
      ExponentPrefixOfPositive(e, tail);
    }
  }

  lemma {:induction false} ExponentPrefixOfNumberEnd(tail: string)
    requires EndsNumber(tail)
    ensures ExponentPrefix(tail) == 0
  {
  }

  lemma {:induction false} ExponentPrefixOfNegative(a: nat, tail: string)
    requires a > 0 && EndsNumber(tail)
    ensures ExponentPrefix(ExponentText(-(a as int)) + tail) == -(a as int)
  {
    DigitsValueOfNatStr(a);
    assert ExponentText(-(a as int)) + tail == "e" + ("-" + (NatStr(a) + tail));
    ExponentPrefixOfDigits("-", NatStr(a), tail);
  }

  lemma {:induction false} ExponentPrefixOfPositive(a: nat, tail: string)
    requires a > 0 && EndsNumber(tail)
    ensures ExponentPrefix(ExponentText(a) + tail) == a
  {
    DigitsValueOfNatStr(a);
    assert ExponentText(a) + tail == "e" + ("" + (NatStr(a) + tail));
    ExponentPrefixOfDigits("", NatStr(a), tail);
  }

  lemma {:induction false} ExponentPrefixOfDigits(sign: string, d: string, tail: string)
    requires sign == "" || sign == "-"
    requires |d| > 0 && AllDigits(d) && EndsNumber(tail)
    ensures var v := DigitsValue(d) as int;
            ExponentPrefix("e" + (sign + (d + tail))) == if sign == "-" then -v else v
  {
    var s := "e" + (sign + (d + tail));
    assert s[1..] == sign + (d + tail);
    assert Unsigned(s[1..]) == d + tail;
    DigitRunOfDigits(d, tail);
  }

  /** Scaling down by the fraction length and up by the exponent is scaling the quotient. */
  lemma {:induction false} ScaledShift(x: real, e: int, k: nat, y: real)
    requires x / Pow10(k) as real == y
    ensures Scaled(x, e - k) == Scaled(y, e)
  {
    ScaledAdd(x, -(k as int), e);
    assert -(k as int) + e == e - k;
    ScaledDown(x, k);
  }

  /** The integer spelled by the whole and fraction digits, scaled, is the literal's value. */
  lemma {:induction false} LiteralValueOfDigits(l: Literal)
    requires ValidLiteral(l)
    ensures AllDigits(NatStr(l.whole) + l.fraction)
    ensures MantissaValue(NatStr(l.whole) + l.fraction, |l.fraction|, l.exponent, l.negative) == LiteralValue(l)
  {
    var f := l.fraction;
    DigitsValueAppend(NatStr(l.whole), f);
    DigitsValueOfNatStr(l.whole);
    var p := Pow10(|f|);
    var n := DigitsValue(NatStr(l.whole) + f) as int;
    assert n == l.whole * p + DigitsValue(f);
    ShiftedMantissa(l.whole, DigitsValue(f), p, l.negative);
    var m := l.whole as real + DigitsValue(f) as real / p as real;
    ScaledShift(Signed(n as real, l.negative), l.exponent, |f|, Signed(m, l.negative));
  }

  /** The value read from the unsigned part of a literal. */
  lemma {:induction false} DecimalPrefixOfLiteral(l: Literal, tail: string)
    requires ValidLiteral(l) && EndsNumber(tail)
    ensures DecimalPrefix(UnsignedText(l) + tail, l.negative) == Some(LiteralValue(l))
  {
    DecimalPrefixOfDigits(l, tail);
    LiteralValueOfDigits(l);
  }

  /** The value read from the unsigned part of a literal, in terms of its digits. */
  lemma {:induction false} DecimalPrefixOfDigits(l: Literal, tail: string)
    requires ValidLiteral(l) && EndsNumber(tail)
    ensures AllDigits(NatStr(l.whole) + l.fraction)
    ensures DecimalPrefix(UnsignedText(l) + tail, l.negative)
         == Some(MantissaValue(NatStr(l.whole) + l.fraction, |l.fraction|, l.exponent, l.negative))
  {
    var w, f := NatStr(l.whole), l.fraction;
    var rest := ExponentText(l.exponent) + tail;
    assert UnsignedText(l) + tail == w + FractionText(f) + rest;
    ExponentPrefixOfText(l.exponent, tail);
    DecimalPrefixOfParts(w, f, rest, l.exponent, l.negative);
  }

  /** Whole digits, an optional fraction and a rest that cannot continue the mantissa. */
  lemma {:induction false} DecimalPrefixOfParts(whole: string, fraction: string, rest: string, e: int, negative: bool)
    requires |whole| > 0 && AllDigits(whole) && AllDigits(fraction)
    requires |rest| == 0 || (!IsDigit(rest[0]) && rest[0] != '.')
    requires ExponentPrefix(rest) == e
    ensures AllDigits(whole + fraction)
    ensures DecimalPrefix(whole + FractionText(fraction) + rest, negative)
         == Some(MantissaValue(whole + fraction, |fraction|, e, negative))
  {
    MantissaOfParts(whole, fraction, rest);
    DecimalPrefixOfMantissa(whole + FractionText(fraction) + rest, negative, whole + fraction, |fraction|, rest, e);
  }

  /** The value of a literal is fixed by its mantissa and its exponent. */
  lemma {:induction false} DecimalPrefixOfMantissa(u: string, negative: bool, digits: string, fractionLength: nat, rest: string, e: int)
    requires ReadMantissa(u) == Mantissa(digits, fractionLength, rest)
    requires |digits| > 0 && ExponentPrefix(rest) == e
    ensures AllDigits(digits)
    ensures DecimalPrefix(u, negative) == Some(MantissaValue(digits, fractionLength, e, negative))
  {
  }

  /** A decimal literal that starts with a digit is read from its first character. */
  lemma {:induction false} ParseFloatOfUnsigned(u: string, v: real)
    requires |u| > 0 && IsDigit(u[0]) && DecimalPrefix(u, false) == Some(v)
    ensures ParseFloat(u) == Some(v)
  {
    PrintableIsNotSpace(u[0]);
    assert TrimStart(u) == u;
    assert Unsigned(u) == u;
  }

  lemma {:induction false} UnsignedTextStartsWithDigit(l: Literal, tail: string)
    ensures var u := UnsignedText(l) + tail; |u| > 0 && IsDigit(u[0])
    ensures LiteralText(l) + tail == (if l.negative then "-" else "") + (UnsignedText(l) + tail)
  {
    assert (UnsignedText(l) + tail)[0] == NatStr(l.whole)[0];
  }

  /** Digits, `.`, `-` and `e` are printable and none is a capital. */
  predicate PlainChars(s: string) {
    forall i :: 0 <= i < |s| ==> '!' <= s[i] <= '~' && !IsUpper(s[i])
  }

  lemma {:induction false} PlainAppend(a: string, b: string)
    requires PlainChars(a) && PlainChars(b)
    ensures PlainChars(a + b)
  {
    forall i | 0 <= i < |a + b|
      ensures '!' <= (a + b)[i] <= '~' && !IsUpper((a + b)[i])
    {
      if i >= |a| {
        assert (a + b)[i] == b[i - |a|];
      }
    }
  }

  lemma {:induction false} PlainDigits(s: string)
    requires AllDigits(s)
    ensures PlainChars(s)
  {
  }

  /** A piece that is empty or ends with a digit. */
  predicate EndsWithDigit(s: string) {
    |s| == 0 || IsDigit(s[|s| - 1])
  }

  lemma {:induction false} FractionTextIsPlain(fraction: string)
    requires AllDigits(fraction)
    ensures PlainChars(FractionText(fraction)) && EndsWithDigit(FractionText(fraction))
  {
    if |fraction| > 0 {
      PlainDigits(fraction);
      PlainAppend(".", fraction);
      var t := FractionText(fraction);
      assert t[|t| - 1] == fraction[|fraction| - 1];
    }
  }

  lemma {:induction false} ExponentTextIsPlain(e: int)
    ensures PlainChars(ExponentText(e)) && EndsWithDigit(ExponentText(e))
  {
    if e != 0 {
      var d := NatStr(if e < 0 then -e else e);
      var p := if e < 0 then "e-" else "e";
      assert ExponentText(e) == p + d;
      PlainDigits(d);
      PlainAppend(p, d);
      assert (p + d)[|p + d| - 1] == d[|d| - 1];
    }
  }

  lemma {:induction false} PlainPieces(sign: string, w: string, f: string, e: string)
    requires PlainChars(sign) && PlainChars(w) && PlainChars(f) && PlainChars(e)
    requires |w| > 0 && IsDigit(w[|w| - 1]) && EndsWithDigit(f) && EndsWithDigit(e)
    ensures var t := sign + (w + f + e); |t| > 0 && PlainChars(t) && IsDigit(t[|t| - 1])
  {
    PlainAppend(w, f);
    PlainAppend(w + f, e);
    PlainAppend(sign, w + f + e);
    var t := sign + (w + f + e);
    if |e| > 0 {
      assert t[|t| - 1] == e[|e| - 1];
    } else if |f| > 0 {
      assert t[|t| - 1] == f[|f| - 1];
    } else {
      assert t[|t| - 1] == w[|w| - 1];
    }
  }

  /** A literal is printable, has no capital, and ends with a digit. */
  lemma {:induction false} LiteralTextIsPlain(l: Literal)
    requires ValidLiteral(l)
    ensures var t := LiteralText(l); |t| > 0 && PlainChars(t) && IsDigit(t[|t| - 1])
  {
    var w := NatStr(l.whole);
    PlainDigits(w);
    FractionTextIsPlain(l.fraction);
    ExponentTextIsPlain(l.exponent);
    var sign: string := if l.negative then "-" else "";
    PlainPieces(sign, w, FractionText(l.fraction), ExponentText(l.exponent));
  }

  /** `parseFloat` reads every literal back as its value, whatever non-numeric text follows. */
  lemma {:induction false} ParseFloatOfLiteral(l: Literal, tail: string)
    requires ValidLiteral(l) && EndsNumber(tail)
    ensures ParseFloat(LiteralText(l) + tail) == Some(LiteralValue(l))
  {
    var u := UnsignedText(l) + tail;
    DecimalPrefixOfLiteral(l, tail);
    UnsignedTextStartsWithDigit(l, tail);
    if l.negative {
      ParseFloatOfMinus(u, LiteralValue(l));
    } else {
      assert "" + u == u;
      ParseFloatOfUnsigned(u, LiteralValue(l));
    }
  }
}

=== FILE: options.dfy ===
/** The optional-value type used for the source's `null` and `undefined` results. */
module Options {

  /** `None` stands for a JavaScript `null`/`undefined`, `Some(v)` for a present value. */
  datatype Option<+T> = None | Some(value: T) {

    /** The `??` operator: the value if present, otherwise the fallback. */
    function OrElse(fallback: T): T {
      match this
      case Some(v) => v
      case None => fallback
    }
  }
}

=== FILE: pool.dfy ===
/**
 * The browser page pool of the Chromium engine and the engine dispatch
 * (packages/nexdf/src/pdf.ts). The module-level variables become one state
 * record and each operation an atomic transition on it. Pages are numbered in
 * the order the browser creates them; whether a page has been closed is
 * decided outside the pool and is a parameter.
 */
module Pool {
  import opened Options

  type PageId = nat

  /** A caller parked in the wait queue. */
  type Waiter = nat

  /** `sharedBrowserPromise` (present or not), `idlePages` (a stack), `allPages`, `waitQueue`
      (first in, first out), `sharedPoolSize`, and the number of the next page the browser
      will create. */
  datatype PoolState = PoolState(
    browser: bool,
    idle: seq<PageId>,
    all: set<PageId>,
    waitQueue: seq<Waiter>,
    capacity: int,
    nextPage: PageId)

  /** The state when the module is loaded: no browser, no pages, room for two. */
  const Start: PoolState := PoolState(false, [], {}, [], 2, 0)

  /** Every page is one the browser made, idle pages are pooled pages, no page is idle twice,
      and there is room for at least one page. */
  predicate Inv(s: PoolState) {
    && s.capacity >= 1
    && (forall p :: p in s.all ==> p < s.nextPage)
    && (forall i :: 0 <= i < |s.idle| ==> s.idle[i] in s.all)
    && (forall i, j :: 0 <= i < j < |s.idle| ==> s.idle[i] != s.idle[j])
  }

  lemma {:induction false} StartIsValid()
    ensures Inv(Start)
  {
  }

  /* ---------------------------------------------------------------- executable */

  const MacChrome: string := "/Applications/Google Chrome.app/Contents/MacOS/Google Chrome"

  /** DEFAULT_EXECUTABLE_PATHS: `PUPPETEER_EXECUTABLE_PATH` when set and not empty, then the
      four usual install locations. */
  function DefaultPaths(env: Option<string>): (r: seq<string>)
    ensures |r| >= 4 && forall i :: 0 <= i < |r| ==> |r[i]| > 0
  {
    var fixed := [MacChrome, "/usr/bin/google-chrome", "/usr/bin/chromium", "/snap/bin/chromium"];
    if env.Some? && |env.value| > 0 then [env.value] + fixed else fixed
  }

  /** getExecutablePath: the caller's path unless missing or empty, otherwise the first default.
      The defaults are never empty, so the "executable not found" error cannot be raised. */
  function ExecutablePath(input: Option<string>, env: Option<string>): (r: string)
    ensures |r| > 0
    ensures input.Some? && |input.value| > 0 ==> r == input.value
    ensures (input.None? || |input.value| == 0) && (env.None? || |env.value| == 0) ==> r == MacChrome
  {
    if input.Some? && |input.value| > 0 then input.value else DefaultPaths(env)[0]
  }

  /* ---------------------------------------------------------------- transitions */

  /** `Math.max(1, x)`. */
  function AtLeastOne(x: int): (r: int)
    ensures r >= 1 && r >= x && (x >= 1 ==> r == x)
  {
    if x > 1 then x else 1
  }

  /** prewarmPdfEngine: sets the capacity from `poolSize` (keeping the old one when absent, and
      never below 1), launches the browser if needed, and puts one fresh page in the pool only
      when the pool has no page at all. */
  function Prewarm(s: PoolState, poolSize: Option<int>): (r: PoolState)
    ensures r.capacity == AtLeastOne(poolSize.OrElse(s.capacity)) && r.browser
    ensures r.waitQueue == s.waitQueue
    ensures |s.idle| > 0 || |s.all| > 0 ==> r.idle == s.idle && r.all == s.all && r.nextPage == s.nextPage
    ensures |s.idle| == 0 && |s.all| == 0 ==> r.idle == [s.nextPage] && r.all == {s.nextPage}
    ensures Inv(s) ==> Inv(r)
  {
    var sized := s.(capacity := AtLeastOne(poolSize.OrElse(s.capacity)), browser := true);
    if |s.idle| > 0 || |s.all| > 0 then sized
    else sized.(idle := [s.nextPage], all := {s.nextPage}, nextPage := s.nextPage + 1)
  }

  /** What one pass of acquirePage's loop did. */
  datatype Acquired =
    | Reused(page: PageId)   // a live page popped from the idle stack
    | Created(page: PageId)  // a new page, the pool having room
    | Queued                 // the caller was parked at the tail of the wait queue

  /** One pass of acquirePage's loop: pop the most recently idled page and take it if it is
      still open; otherwise create a page if the pool is below capacity; otherwise wait. A
      closed page popped here is dropped from the idle stack but stays counted in `all`. */
  function AcquireStep(s: PoolState, closed: set<PageId>, me: Waiter): (r: (PoolState, Acquired))
    ensures var (t, got) := r;
            && t.browser == s.browser && t.capacity == s.capacity
            && (got.Reused? ==> |s.idle| > 0 && got.page == s.idle[|s.idle| - 1] && got.page !in closed
                                && t == s.(idle := s.idle[..|s.idle| - 1]))
            && (!got.Reused? ==> t.idle == if |s.idle| > 0 then s.idle[..|s.idle| - 1] else [])
            && (got.Created? ==> |s.all| < s.capacity && got.page == s.nextPage && t.nextPage == s.nextPage + 1
                                 && t.all == s.all + {got.page} && |t.all| <= t.capacity && t.waitQueue == s.waitQueue)
            && (got.Queued? ==> |s.all| >= s.capacity && t.all == s.all && t.waitQueue == s.waitQueue + [me])
            && (got.Reused? || got.Queued? ==> t.nextPage == s.nextPage)
    ensures Inv(s) ==> Inv(r.0)
    ensures Inv(s) && r.1.Created? ==> r.1.page !in s.all
    ensures Inv(s) && !r.1.Queued? ==> r.1.page in r.0.all && r.1.page !in r.0.idle
  {
    var popped := if |s.idle| > 0 then s.idle[..|s.idle| - 1] else [];
    var rest := s.(idle := popped);
    if |s.idle| > 0 && s.idle[|s.idle| - 1] !in closed then
      var page := s.idle[|s.idle| - 1];
      assert Inv(s) ==> page !in popped;
      (rest, Reused(page))
    else if |s.all| < s.capacity then
      var page := s.nextPage;
      assert Inv(s) ==> page !in s.all;
      (rest.(all := s.all + {page}, nextPage := page + 1), Created(page))
    else (rest.(waitQueue := s.waitQueue + [me]), Queued)
  }

  /** The head of the wait queue is woken and removed. */
  function Wake(q: seq<Waiter>): (r: (seq<Waiter>, Option<Waiter>))
    ensures |q| == 0 ==> r == (q, None)
    ensures |q| > 0 ==> r == (q[1..], Some(q[0]))
  {
    if |q| == 0 then (q, None) else (q[1..], Some(q[0]))
  }

  /** releasePage: a closed page leaves the pool, an open one goes back on top of the idle
      stack; either way the first waiter, if any, is woken. */
  function Release(s: PoolState, page: PageId, isClosed: bool): (r: (PoolState, Option<Waiter>))
    ensures var (t, woken) := r;
            && t.browser == s.browser && t.capacity == s.capacity && t.nextPage == s.nextPage
            && (isClosed ==> t.all == s.all - {page} && t.idle == s.idle)
            && (!isClosed ==> t.all == s.all && t.idle == s.idle + [page])
            && (|s.waitQueue| > 0 ==> woken == Some(s.waitQueue[0]) && t.waitQueue == s.waitQueue[1..])
            && (|s.waitQueue| == 0 ==> woken.None? && t.waitQueue == [])
    ensures Inv(s) && page in s.all && page !in s.idle ==> Inv(r.0)
  {
    var returned := if isClosed then s.(all := s.all - {page}) else s.(idle := s.idle + [page]);
    var (q, woken) := Wake(s.waitQueue);
    assert Inv(s) && page in s.all && page !in s.idle && isClosed ==> forall i :: 0 <= i < |s.idle| ==> s.idle[i] != page;
    (returned.(waitQueue := q), woken)
  }

  /** closeSharedBrowser: without a browser nothing happens; with one, the browser handle and
      all three collections are cleared. Parked callers are dropped without being woken. */
  function Close(s: PoolState): (r: PoolState)
    ensures !s.browser ==> r == s
    ensures s.browser ==> !r.browser && r.idle == [] && r.all == {} && r.waitQueue == []
    ensures r.capacity == s.capacity && r.nextPage == s.nextPage
    ensures Inv(s) ==> Inv(r)
  {
    if !s.browser then s else s.(browser := false, idle := [], all := {}, waitQueue := [])
  }

  /* ---------------------------------------------------------------- properties */

  /** The idle pages are a stack: the page released last is the one acquired next. */
  lemma {:induction false} LastReleasedFirstReused(s: PoolState, page: PageId, closed: set<PageId>, me: Waiter)
    requires page !in closed
    ensures var (t, _) := Release(s, page, false);
            AcquireStep(t, closed, me).1 == Reused(page)
  {
  }

  /** Releasing pages wakes the waiters in the order they queued. */
  function ReleaseAll(s: PoolState, pages: seq<PageId>): (r: (PoolState, seq<Waiter>))
    decreases |pages|
  {
    if |pages| == 0 then (s, [])
    else
      var (t, woken) := Release(s, pages[0], false);
      var (u, more) := ReleaseAll(t, pages[1..]);
      (u, (if woken.Some? then [woken.value] else []) + more)
  }

  lemma {:induction false} WaitersWokenInOrder(s: PoolState, pages: seq<PageId>)
    ensures var (t, woken) := ReleaseAll(s, pages);
            var n := if |pages| < |s.waitQueue| then |pages| else |s.waitQueue|;
            woken == s.waitQueue[..n] && t.waitQueue == s.waitQueue[n..]
    decreases |pages|
  {
    if |pages| > 0 {
      var (t, w) := Release(s, pages[0], false);
      WaitersWokenInOrder(t, pages[1..]);
      if |s.waitQueue| > 0 {
        var n := if |pages| < |s.waitQueue| then |pages| else |s.waitQueue|;
        assert s.waitQueue[..n] == [s.waitQueue[0]] + t.waitQueue[..n - 1];
        assert t.waitQueue[n - 1..] == s.waitQueue[n..];
      }
    }
  }

  /** A caller parked by acquirePage is woken only after everyone queued before it: as many
      releases as there were earlier waiters wake exactly those, and the next one wakes it. */
  lemma {:induction false} QueueIsFifo(s: PoolState, closed: set<PageId>, me: Waiter, pages: seq<PageId>)
    requires AcquireStep(s, closed, me).1.Queued?
    requires |pages| == |s.waitQueue| + 1
    ensures var (t, _) := AcquireStep(s, closed, me);
            ReleaseAll(t, pages).1 == s.waitQueue + [me]
  {
    var t := AcquireStep(s, closed, me).0;
    WaitersWokenInOrder(t, pages);
    assert t.waitQueue[..|pages|] == t.waitQueue;
  }

  /** One pass of acquirePage gives up on the idle stack after one closed page: with a full
      pool, a closed page on top of a live one makes the caller wait, and the closed page
      still takes a place in the pool. */
  lemma {:induction false} ClosedPageBlocksAcquire(live: PageId, dead: PageId, me: Waiter)
    requires live != dead
    ensures var s := PoolState(true, [live, dead], {live, dead}, [], 2, 1 + (if live < dead then dead else live));
            var (t, got) := AcquireStep(s, {dead}, me);
            && got == Queued
            && t.idle == [live] && dead in t.all && t.waitQueue == [me]
  {
    var s := PoolState(true, [live, dead], {live, dead}, [], 2, 1 + (if live < dead then dead else live));
    assert |s.all| == 2;
  }

  /** The closed pages on top of the idle stack, discarded from the stack and from the pool
      until a live page is on top or the stack is empty. */
  function DropClosed(s: PoolState, closed: set<PageId>): (t: PoolState)
    ensures t.browser == s.browser && t.capacity == s.capacity && t.nextPage == s.nextPage
    ensures t.waitQueue == s.waitQueue
    ensures |t.idle| <= |s.idle| && t.idle == s.idle[..|t.idle|]
    ensures |t.idle| == 0 || t.idle[|t.idle| - 1] !in closed
    ensures forall i :: |t.idle| <= i < |s.idle| ==> s.idle[i] in closed && s.idle[i] !in t.all
    ensures t.all <= s.all && forall p :: p in s.all && p !in t.all ==> p in closed
    ensures Inv(s) ==> Inv(t)
    decreases |s.idle|
  {
    if |s.idle| > 0 && s.idle[|s.idle| - 1] in closed then
      var popped := Discard(s);
      var t := DropClosed(popped, closed);
      assert s.idle[..|s.idle| - 1][..|t.idle|] == s.idle[..|t.idle|];
      t
    else s
  }

  /** The top idle page taken off the stack and out of the pool. */
  function Discard(s: PoolState): (t: PoolState)
    requires |s.idle| > 0
    ensures t == s.(idle := s.idle[..|s.idle| - 1], all := s.all - {s.idle[|s.idle| - 1]})
    ensures Inv(s) ==> Inv(t)
  {
    var page := s.idle[|s.idle| - 1];
    assert Inv(s) ==> forall i :: 0 <= i < |s.idle| - 1 ==> s.idle[i] != page;
    s.(idle := s.idle[..|s.idle| - 1], all := s.all - {page})
  }

  /** acquirePage as evidently intended: a closed idle page is discarded for good and the
      search goes on down the stack, so a caller waits only when no idle page is live and the
      pool is full of live pages. */
  function AcquireStepCorrected(s: PoolState, closed: set<PageId>, me: Waiter): (r: (PoolState, Acquired))
    ensures r.1.Reused? ==> r.1.page !in closed && r.1.page in s.idle
    ensures r.1.Queued? ==> (forall i :: 0 <= i < |s.idle| ==> s.idle[i] in closed) && |r.0.all| >= s.capacity
    ensures forall p :: p in s.all && p !in r.0.all ==> p in closed
    ensures Inv(s) ==> Inv(r.0)
  {
    var t := DropClosed(s, closed);
    var r := AcquireStep(t, closed, me);
    if r.1.Reused? then
      assert t.idle[|t.idle| - 1] == s.idle[|t.idle| - 1];
      r
    else r
  }

  /** The corrected step on the pool that blocks the as-written one: the closed page is
      discarded and the live page under it is handed out. */
  lemma {:induction false} CorrectedAcquireSkipsClosed(live: PageId, dead: PageId, me: Waiter)
    requires live != dead
    ensures var s := PoolState(true, [live, dead], {live, dead}, [], 2, 1 + (if live < dead then dead else live));
            var (t, got) := AcquireStepCorrected(s, {dead}, me);
            && got == Reused(live)
            && t.idle == [] && t.all == {live} && t.waitQueue == []
  {
    var s := PoolState(true, [live, dead], {live, dead}, [], 2, 1 + (if live < dead then dead else live));
    var once := s.(idle := [live], all := {live});
    assert s.idle[..1] == [live];
    assert DropClosed(once, {dead}) == once;
    assert DropClosed(s, {dead}) == once;
  }

  /** Closing the browser forgets the parked callers: none of them is ever woken by it. */
  lemma {:induction false} CloseStrandsWaiters(s: PoolState)
    requires s.browser && |s.waitQueue| > 0
    ensures Close(s).waitQueue == [] && Release(Close(s), 0, false).1 == None
  {
  }

  /* ---------------------------------------------------------------- generatePdfBuffer */

  datatype Engine = Chromium | Native

  /** The input of generatePdfBuffer; a missing engine means Chromium. */
  datatype PdfInput = PdfInput(html: string, engine: Option<Engine>, executablePath: Option<string>)

  /** How a call ended: the native renderer ran; Chromium printed or threw after getting a page
      (the page was released either way); or the caller is parked waiting for a page. */
  datatype PdfOutcome = NativePdf | ChromiumPdf(page: PageId) | CaptureFailed(page: PageId) | Waiting

  /** generatePdfBuffer up to the first wait: the native engine leaves the pool alone; Chromium
      resolves the executable, makes sure a browser runs, takes a page by the corrected
      acquire pass and, whether printing succeeds or fails, releases that page once in the
      `finally`. */
  function GeneratePdf(s: PoolState, input: PdfInput, env: Option<string>, closed: set<PageId>, closedAfter: bool, captureFails: bool, me: Waiter): (r: (PoolState, PdfOutcome))
    ensures input.engine == Some(Native) ==> r == (s, NativePdf)
    ensures input.engine != Some(Native) ==> r.0.browser
    ensures Inv(s) ==> Inv(r.0)
    ensures r.1.ChromiumPdf? || r.1.CaptureFailed? ==> r.0.all <= s.all + {r.1.page} && r.0.capacity == s.capacity
  {
    if input.engine == Some(Native) then (s, NativePdf)
    else
      var path := ExecutablePath(input.executablePath, env);
      var launched := s.(browser := true);
      var (held, got) := AcquireStepCorrected(launched, closed, me);
      if got.Queued? then (held, Waiting)
      else
        var (released, _) := Release(held, got.page, closedAfter);
        (released, if captureFails then CaptureFailed(got.page) else ChromiumPdf(got.page))
  }

  /** A failed capture leaves the pool exactly as a successful one does. */
  lemma {:induction false} FailureReleasesLikeSuccess(s: PoolState, input: PdfInput, env: Option<string>, closed: set<PageId>, closedAfter: bool, me: Waiter)
    ensures GeneratePdf(s, input, env, closed, closedAfter, true, me).0 == GeneratePdf(s, input, env, closed, closedAfter, false, me).0
  {
  }

  /** A Chromium call that reuses the top idle page and keeps it open puts it back where it was:
      the page is released exactly once. */
  lemma {:induction false} ReusedPageComesBack(s: PoolState, input: PdfInput, env: Option<string>, closed: set<PageId>, captureFails: bool, me: Waiter)
    requires input.engine != Some(Native)
    requires |s.idle| > 0 && s.idle[|s.idle| - 1] !in closed && |s.waitQueue| == 0
    ensures var (t, outcome) := GeneratePdf(s, input, env, closed, false, captureFails, me);
            t == s.(browser := true) && !outcome.Waiting?
  {
    var launched := s.(browser := true);
    var popped := s.idle[..|s.idle| - 1];
    assert popped + [s.idle[|s.idle| - 1]] == s.idle;
    assert DropClosed(launched, closed) == launched;
    assert AcquireStepCorrected(launched, closed, me) == (launched.(idle := popped), Reused(s.idle[|s.idle| - 1]));
  }

  /** A Chromium call that creates a page leaves it idle in the pool afterwards. */
  lemma {:induction false} CreatedPageJoinsPool(s: PoolState, input: PdfInput, env: Option<string>, captureFails: bool, me: Waiter)
    requires Inv(s) && input.engine != Some(Native)
    requires |s.idle| == 0 && |s.all| < s.capacity && |s.waitQueue| == 0
    ensures var (t, outcome) := GeneratePdf(s, input, env, {}, false, captureFails, me);
            t.all == s.all + {s.nextPage} && t.idle == [s.nextPage] && t.nextPage == s.nextPage + 1
  {
  }
}

=== FILE: render.dfy ===
/**
 * The tree walk of the native engine (renderNode and generateNativePdfBuffer in
 * packages/nexdf/src/native.ts) over the document as node-html-parser gives it.
 */
module Render {
  import opened Options
  import opened Text
  import opened Colors
  import opened Styles
  import opened Cascade
  import opened Layout

  /** A node of the parsed document: a text node with its raw text, or an element with its tag
      name as written, its `class` and `style` attributes (empty when absent) and its children.
      The parser drops comments, so there is no other kind of node. */
  datatype Node =
    | TextNode(rawText: string)
    | Element(tagName: string, classAttr: string, styleAttr: string, children: seq<Node>)

  function Size(node: Node): nat {
    match node
    case TextNode(_) => 1
    case Element(_, _, _, children) => 1 + SizeAll(children)
  }

  function SizeAll(nodes: seq<Node>): nat
    decreases nodes
  {
    if |nodes| == 0 then 0 else 1 + Size(nodes[0]) + SizeAll(nodes[1..])
  }

  /** `textContent` as the raw text of all the text nodes below, in document order. The
      parser's own `textContent` also decodes entities and reads `<br>` as a line break;
      neither is modelled. */
  function TextContent(node: Node): string
    decreases Size(node), 1
  {
    match node
    case TextNode(raw) => raw
    case Element(_, _, _, children) => TextContentAll(children)
  }

  function TextContentAll(nodes: seq<Node>): string
    decreases SizeAll(nodes), 0
  {
    if |nodes| == 0 then "" else TextContent(nodes[0]) + TextContentAll(nodes[1..])
  }

  /** Elements whose content is never drawn. */
  const SkippedTags: set<string> := {"style", "script", "head"}

  /** BLOCK_TAGS: elements with vertical margins around them. */
  const BlockTags: set<string> :=
    {"html", "body", "main", "section", "article", "header", "footer", "aside", "nav", "div", "p",
     "h1", "h2", "h3", "h4", "h5", "h6", "ul", "ol", "li"}

  /** The A4 page with 36pt margins all round. */
  const A4: Frame := Frame(595.28, 841.89, 36.0, 36.0, 36.0, 36.0)

  /** The bullet in front of a list item's text. */
  const Bullet: string := "\U{2022} "

  /** `" ".repeat(Math.max(0, (10 + depth * 8) / 4))`; `repeat` drops the fraction. */
  function ListIndent(depth: nat): (r: string)
    ensures |r| == 2 + 2 * depth && AllSpace(r)
  {
    var quarter := (10 + depth * 8) as real / 4.0;
    var count := if quarter > 0.0 then quarter.Floor else 0;
    assert quarter == (2 + 2 * depth) as real + 0.5;
    Spaces(count)
  }

  /** The text drawn for a list item: indent, bullet, then the item's text. */
  function ListItemText(depth: nat, content: string): string {
    ListIndent(depth) + Bullet + content
  }

  /** The `<hr>` rule: a 4pt gap, room for 8pt, a 0.8pt light grey line from margin to margin
      at the cursor, then an 8pt gap. */
  function HorizontalRule(st: RenderState): (r: RenderState)
    requires Valid(st)
    ensures Valid(r) && Extends(st, r)
    ensures |r.ops| == |st.ops| + 1
    ensures var line := r.ops[|st.ops|];
            && line.DrawLine?
            && line.x1 == st.frame.marginLeft && line.x2 == st.frame.pageWidth - st.frame.marginRight
            && line.thickness == 0.8 && line.grey == 0.82
            && (8.0 <= st.frame.UsableHeight() ==> line.y >= st.frame.marginBottom + 8.0)
    ensures r.pages <= st.pages + 3
  {
    var spaced := AddGap(st, 4.0);
    var roomy := EnsureRoom(spaced, 8.0);
    var line := DrawLine(roomy.pages - 1, roomy.frame.marginLeft, roomy.frame.pageWidth - roomy.frame.marginRight, roomy.cursorY, 0.8, 0.82);
    var drawn := roomy.(ops := roomy.ops + [line]);
    assert Valid(drawn);
    AddGap(drawn, 8.0)
  }

  /* ---------------------------------------------------------------- staying above the margin */

  /** Every operation from index `from` on sits at or above the bottom margin. */
  predicate AboveMargin(ops: seq<Op>, from: nat, bottom: real) {
    forall i :: from <= i < |ops| ==> ops[i].y >= bottom
  }

  /** Every line height the walk draws text with fits between the margins, as does the room a
      rule asks for; then, as ensureRoom promises for one line, nothing is drawn below the
      bottom margin. The condition follows the walk: a text node uses the inherited style. */
  predicate Fits(node: Node, inherited: Style, table: ClassMap, room: real)
    decreases Size(node), 3
  {
    match node
    case TextNode(_) => ResolvedLineHeight(inherited) <= room
    case Element(tagName, classAttr, styleAttr, _) =>
      var tag := Lower(tagName);
      tag in SkippedTags || StyledFits(node, tag, ElementStyle(tag, classAttr, styleAttr, table, inherited), table, room)
  }

  predicate StyledFits(node: Node, tag: string, style: Style, table: ClassMap, room: real)
    requires node.Element?
    decreases Size(node), 2
  {
    tag == "br" || (if tag == "hr" then 8.0 <= room else ContentFits(node, tag, style, table, room))
  }

  predicate ContentFits(node: Node, tag: string, style: Style, table: ClassMap, room: real)
    requires node.Element?
    decreases Size(node), 1
  {
    if tag == "li" || |node.children| == 0 then ResolvedLineHeight(style) <= room
    else FitsAll(node.children, style, table, room)
  }

  predicate FitsAll(nodes: seq<Node>, inherited: Style, table: ClassMap, room: real)
    decreases SizeAll(nodes), 4
  {
    |nodes| == 0 || (Fits(nodes[0], inherited, table, room) && FitsAll(nodes[1..], inherited, table, room))
  }

  lemma {:induction false} AboveMarginAppend(a: RenderState, b: RenderState, c: RenderState)
    requires Extends(a, b) && Extends(b, c)
    requires AboveMargin(b.ops, |a.ops|, a.frame.marginBottom) && AboveMargin(c.ops, |b.ops|, b.frame.marginBottom)
    ensures AboveMargin(c.ops, |a.ops|, a.frame.marginBottom)
  {
    forall i | |a.ops| <= i < |c.ops|
      ensures c.ops[i].y >= a.frame.marginBottom
    {
      if i < |b.ops| {
        assert c.ops[i] == c.ops[..|b.ops|][i];
      }
    }
  }

  /** renderNode: text nodes are drawn in the inherited style; elements are rendered in their
      own style. */
  function RenderNode(st: RenderState, node: Node, inherited: Style, table: ClassMap, depth: nat, measure: Measure): (r: RenderState)
    requires Valid(st)
    ensures Valid(r) && Extends(st, r)
    ensures Fits(node, inherited, table, st.frame.UsableHeight()) ==> AboveMargin(r.ops, |st.ops|, st.frame.marginBottom)
    decreases Size(node), 3
  {
    match node
    case TextNode(raw) => DrawTextBlock(st, raw, inherited, measure)
    case Element(_, _, _, _) => RenderElement(st, node, inherited, table, depth, measure)
  }

  /** An element: `style`, `script` and `head` (in any letter case) are skipped; any other
      element is rendered in the style the cascade gives it. */
  function RenderElement(st: RenderState, node: Node, inherited: Style, table: ClassMap, depth: nat, measure: Measure): (r: RenderState)
    requires Valid(st) && node.Element?
    ensures Valid(r) && Extends(st, r)
    ensures Fits(node, inherited, table, st.frame.UsableHeight()) ==> AboveMargin(r.ops, |st.ops|, st.frame.marginBottom)
    decreases Size(node), 2
  {
    var tag := Lower(node.tagName);
    if tag in SkippedTags then st
    else RenderStyled(st, node, tag, ElementStyle(tag, node.classAttr, node.styleAttr, table, inherited), table, depth, measure)
  }

  /** An element in its style: `br` is a blank line and `hr` a rule; block elements get their
      top and bottom margins around their content. */
  function RenderStyled(st: RenderState, node: Node, tag: string, style: Style, table: ClassMap, depth: nat, measure: Measure): (r: RenderState)
    requires Valid(st) && node.Element?
    ensures Valid(r) && Extends(st, r)
    ensures StyledFits(node, tag, style, table, st.frame.UsableHeight()) ==> AboveMargin(r.ops, |st.ops|, st.frame.marginBottom)
    decreases Size(node), 1
  {
    if tag == "br" then AddGap(st, ResolvedLineHeight(style))
    else if tag == "hr" then HorizontalRule(st)
    else
      var block := tag in BlockTags;
      var started := if block then AddGap(st, style.marginTop) else st;
      var filled := RenderContent(started, node, tag, style, table, depth, measure);
      ExtendsTransitive(st, started, filled);
      var closed := if block then AddGap(filled, style.marginBottom) else filled;
      ExtendsTransitive(st, filled, closed);
      closed
  }

  /** What is inside an element: a list item is drawn as one bulleted text; lists render their
      items one level deeper; other elements render their children, or their text when they
      have none. */
  function RenderContent(st: RenderState, node: Node, tag: string, style: Style, table: ClassMap, depth: nat, measure: Measure): (r: RenderState)
    requires Valid(st) && node.Element?
    ensures Valid(r) && Extends(st, r)
    ensures ContentFits(node, tag, style, table, st.frame.UsableHeight()) ==> AboveMargin(r.ops, |st.ops|, st.frame.marginBottom)
    decreases Size(node), 0
  {
    if tag == "li" then DrawTextBlock(st, ListItemText(depth, TextContent(node)), style, measure)
    else if tag == "ul" || tag == "ol" then RenderChildren(st, node.children, style, table, depth + 1, measure)
    else if |node.children| > 0 then RenderChildren(st, node.children, style, table, depth, measure)
    else DrawTextBlock(st, TextContent(node), style, measure)
  }

  /** The children rendered one after the other, in document order. */
  function RenderChildren(st: RenderState, nodes: seq<Node>, inherited: Style, table: ClassMap, depth: nat, measure: Measure): (r: RenderState)
    requires Valid(st)
    ensures Valid(r) && Extends(st, r)
    ensures FitsAll(nodes, inherited, table, st.frame.UsableHeight()) ==> AboveMargin(r.ops, |st.ops|, st.frame.marginBottom)
    decreases SizeAll(nodes), 4
  {
    if |nodes| == 0 then st
    else
      var first := RenderNode(st, nodes[0], inherited, table, depth, measure);
      var r := RenderChildren(first, nodes[1..], inherited, table, depth, measure);
      ExtendsTransitive(st, first, r);
      if FitsAll(nodes, inherited, table, st.frame.UsableHeight()) then
        AboveMarginAppend(st, first, r);
        r
      else r
  }

  /** Tags in BLOCK_TAGS are neither skipped nor `br` or `hr`. */
  lemma {:induction false} BlockTagIsOrdinary(tag: string)
    requires tag in BlockTags
    ensures tag !in SkippedTags && tag != "br" && tag != "hr"
  {
  }

  /** A childless element other than a list item has no content to draw. */
  lemma {:induction false} EmptyContentIsNothing(st: RenderState, node: Node, tag: string, style: Style, table: ClassMap, depth: nat, measure: Measure)
    requires Valid(st) && node.Element? && |node.children| == 0 && tag != "li"
    ensures RenderContent(st, node, tag, style, table, depth, measure) == st
  {
    assert TextContent(node) == "";
    assert Words("") == [];
  }

  /** An empty block element in a given style is its two margins and nothing else. */
  lemma {:induction false} EmptyStyledBlock(st: RenderState, node: Node, tag: string, style: Style, table: ClassMap, depth: nat, measure: Measure)
    requires Valid(st) && node.Element? && |node.children| == 0
    requires tag in BlockTags && tag != "li"
    requires st.cursorY - GapOf(style.marginTop) - GapOf(style.marginBottom) >= st.frame.marginBottom
    ensures var r := RenderStyled(st, node, tag, style, table, depth, measure);
            && r.ops == st.ops && r.pages == st.pages
            && r.cursorY == st.cursorY - GapOf(style.marginTop) - GapOf(style.marginBottom)
  {
    BlockTagIsOrdinary(tag);
    var started := AddGap(st, style.marginTop);
    assert started.pages == st.pages && started.cursorY == st.cursorY - GapOf(style.marginTop);
    EmptyContentIsNothing(started, node, tag, style, table, depth, measure);
    var closed := AddGap(started, style.marginBottom);
    assert closed.pages == started.pages;
  }

  /** An empty block element draws nothing; when the page has room for both margins it
      lowers the cursor by exactly its top and bottom margins. */
  lemma {:induction false} EmptyBlockIsItsMargins(st: RenderState, tagName: string, classAttr: string, styleAttr: string, inherited: Style, table: ClassMap, depth: nat, measure: Measure)
    requires Valid(st)
    requires Lower(tagName) in BlockTags && Lower(tagName) != "li"
    requires var style := ElementStyle(Lower(tagName), classAttr, styleAttr, table, inherited);
             st.cursorY - GapOf(style.marginTop) - GapOf(style.marginBottom) >= st.frame.marginBottom
    ensures var style := ElementStyle(Lower(tagName), classAttr, styleAttr, table, inherited);
            var r := RenderNode(st, Element(tagName, classAttr, styleAttr, []), inherited, table, depth, measure);
            && r.ops == st.ops && r.pages == st.pages
            && r.cursorY == st.cursorY - GapOf(style.marginTop) - GapOf(style.marginBottom)
  {
    var tag := Lower(tagName);
    var node := Element(tagName, classAttr, styleAttr, []);
    var style := ElementStyle(tag, classAttr, styleAttr, table, inherited);
    BlockTagIsOrdinary(tag);
    assert RenderNode(st, node, inherited, table, depth, measure) == RenderStyled(st, node, tag, style, table, depth, measure);
    EmptyStyledBlock(st, node, tag, style, table, depth, measure);
  }

  /** An element outside BLOCK_TAGS gets no margins: it is its content alone, and an empty one
      other than a list item draws nothing and leaves the cursor where it was. */
  lemma {:induction false} InlineElementHasNoMargins(st: RenderState, node: Node, inherited: Style, table: ClassMap, depth: nat, measure: Measure)
    requires Valid(st) && node.Element?
    requires var tag := Lower(node.tagName); tag !in BlockTags && tag !in SkippedTags && tag != "br" && tag != "hr"
    ensures var tag := Lower(node.tagName);
            RenderNode(st, node, inherited, table, depth, measure)
            == RenderContent(st, node, tag, ElementStyle(tag, node.classAttr, node.styleAttr, table, inherited), table, depth, measure)
    ensures Lower(node.tagName) != "li" && |node.children| == 0 ==> RenderNode(st, node, inherited, table, depth, measure) == st
  {
    var tag := Lower(node.tagName);
    var style := ElementStyle(tag, node.classAttr, node.styleAttr, table, inherited);
    assert RenderNode(st, node, inherited, table, depth, measure) == RenderStyled(st, node, tag, style, table, depth, measure);
    assert RenderStyled(st, node, tag, style, table, depth, measure) == RenderContent(st, node, tag, style, table, depth, measure);
    if tag != "li" && |node.children| == 0 {
      EmptyContentIsNothing(st, node, tag, style, table, depth, measure);
    }
  }

  /** Rendering a run of siblings is rendering its first part, then the rest from there. */
  lemma {:induction false} RenderChildrenAppend(st: RenderState, a: seq<Node>, b: seq<Node>, inherited: Style, table: ClassMap, depth: nat, measure: Measure)
    requires Valid(st)
    ensures RenderChildren(st, a + b, inherited, table, depth, measure)
            == RenderChildren(RenderChildren(st, a, inherited, table, depth, measure), b, inherited, table, depth, measure)
    decreases |a|
  {
    if |a| == 0 {
      assert a + b == b;
    } else {
      assert (a + b)[0] == a[0];
      assert (a + b)[1..] == a[1..] + b;
      var first := RenderNode(st, a[0], inherited, table, depth, measure);
      RenderChildrenAppend(first, a[1..], b, inherited, table, depth, measure);
    }
  }

  /** `style`, `script` and `head` elements, in any letter case, draw nothing and move nothing. */
  lemma {:induction false} SkippedElementsDrawNothing(st: RenderState, node: Node, inherited: Style, table: ClassMap, depth: nat, measure: Measure)
    requires Valid(st)
    requires node.Element? && Lower(node.tagName) in SkippedTags
    ensures RenderNode(st, node, inherited, table, depth, measure) == st
  {
  }

  /** A line break draws nothing: it only moves the cursor down by one line, resolved from its
      style by the same rule as lines of text. */
  lemma {:induction false} LineBreakDrawsNothing(st: RenderState, classAttr: string, styleAttr: string, children: seq<Node>, inherited: Style, table: ClassMap, depth: nat, measure: Measure)
    requires Valid(st)
    ensures var node := Element("br", classAttr, styleAttr, children);
            RenderNode(st, node, inherited, table, depth, measure)
            == AddGap(st, ResolvedLineHeight(ElementStyle("br", classAttr, styleAttr, table, inherited)))
    ensures RenderNode(st, Element("br", classAttr, styleAttr, children), inherited, table, depth, measure).ops == st.ops
  {
    var node := Element("br", classAttr, styleAttr, children);
    assert Lower("br") == "br";
    assert "br" !in SkippedTags;
    var style := ElementStyle("br", classAttr, styleAttr, table, inherited);
    assert RenderNode(st, node, inherited, table, depth, measure) == RenderStyled(st, node, "br", style, table, depth, measure);
    BreakStyledIsGap(st, node, style, table, depth, measure);
  }

  lemma {:induction false} BreakStyledIsGap(st: RenderState, node: Node, style: Style, table: ClassMap, depth: nat, measure: Measure)
    requires Valid(st) && node.Element?
    ensures RenderStyled(st, node, "br", style, table, depth, measure) == AddGap(st, ResolvedLineHeight(style))
  {
  }

  /** The indent computed for a list item never shows: whitespace is collapsed before drawing,
      so an item is drawn the same at every nesting depth, starting with its bullet. */
  lemma {:induction false} ListIndentVanishes(st: RenderState, depth: nat, content: string, style: Style, measure: Measure)
    requires Valid(st)
    ensures DrawTextBlock(st, ListItemText(depth, content), style, measure)
            == DrawTextBlock(st, Bullet + content, style, measure)
  {
    assert ListItemText(depth, content) == ListIndent(depth) + (Bullet + content);
    DrawTextBlockSkipsPadding(st, ListIndent(depth), Bullet + content, style, measure);
  }

  /* ---------------------------------------------------------------- the document */

  /** Whether some element of the forest is a `body`. */
  predicate HasBody(nodes: seq<Node>)
    decreases SizeAll(nodes)
  {
    if |nodes| == 0 then false
    else
      match nodes[0]
      case TextNode(_) => HasBody(nodes[1..])
      case Element(tagName, _, _, children) =>
        assert Size(nodes[0]) == 1 + SizeAll(children);
        Lower(tagName) == "body" || HasBody(children) || HasBody(nodes[1..])
  }

  /** `root.querySelector("body")`: the children of the first `body` element in document
      order, if there is one. */
  function FindBody(nodes: seq<Node>): (r: Option<seq<Node>>)
    ensures r.Some? <==> HasBody(nodes)
    decreases SizeAll(nodes)
  {
    if |nodes| == 0 then None
    else
      match nodes[0]
      case TextNode(_) => FindBody(nodes[1..])
      case Element(tagName, _, _, children) =>
        if Lower(tagName) == "body" then Some(children)
        else
          assert Size(nodes[0]) == 1 + SizeAll(children);
          var inside := FindBody(children);
          if inside.Some? then inside else FindBody(nodes[1..])
  }

  /** The state the render starts from: one A4 page, the cursor at its top margin, nothing drawn. */
  const Initial: RenderState := RenderState(A4, 1, 841.89 - 36.0, [])

  /** generateNativePdfBuffer: the children of `body`, or the whole document when there is no
      `body`, rendered in the default style with the class table of the document's style rules.
      The result always has at least one page, and everything drawn is on a page that exists. */
  function GenerateNative(document: seq<Node>, rules: seq<Rule>, measure: Measure): (r: RenderState)
    ensures Valid(r) && r.frame == A4 && r.pages >= 1
    ensures DocumentFits(document, rules) ==> AboveMargin(r.ops, 0, A4.marginBottom)
  {
    var start := FindBody(document).OrElse(document);
    RenderChildren(Initial, start, DefaultStyle, ClassStyles(rules), 0, measure)
  }

  /** Every line height in the rendered part of the document fits on an A4 page. */
  predicate DocumentFits(document: seq<Node>, rules: seq<Rule>) {
    FitsAll(FindBody(document).OrElse(document), DefaultStyle, ClassStyles(rules), A4.UsableHeight())
  }

  /** An empty document is one blank page. */
  lemma {:induction false} EmptyDocumentIsBlankPage(rules: seq<Rule>, measure: Measure)
    ensures GenerateNative([], rules, measure) == Initial
  {
  }

  /** With a body, what lies outside it is not drawn. */
  lemma {:induction false} OnlyBodyIsRendered(before: seq<Node>, children: seq<Node>, after: seq<Node>, rules: seq<Rule>, measure: Measure)
    requires !HasBody(before)
    ensures GenerateNative(before + [Element("body", "", "", children)] + after, rules, measure)
            == RenderChildren(Initial, children, DefaultStyle, ClassStyles(rules), 0, measure)
  {
    FindBodyAfter(before, Element("body", "", "", children), after);
    assert Lower("body") == "body";
  }

  /** The search skips a bodiless prefix. */
  lemma {:induction false} FindBodyAfter(before: seq<Node>, node: Node, after: seq<Node>)
    requires !HasBody(before)
    ensures FindBody(before + [node] + after) == FindBody([node] + after)
    decreases |before|
  {
    if |before| > 0 {
      var all := before + [node] + after;
      assert all[0] == before[0];
      assert all[1..] == before[1..] + [node] + after;
      if before[0].Element? {
        assert !HasBody(before[0].children);
        assert FindBody(before[0].children).None?;
      }
      FindBodyAfter(before[1..], node, after);
    } else {
      assert before + [node] + after == [node] + after;
    }
  }
}

=== FILE: style.dfy ===
/**
 * Render styles and the inline declaration parser of the native engine
 * (RenderStyle, toPoints and parseStyleDeclarations in
 * packages/nexdf/src/native.ts). A partial style is the source's
 * `Partial<RenderStyle>`: a property that is absent is `None`, and spreading
 * one partial style over another is Overlay.
 */
module Styles {
  import opened Options
  import opened Text
  import opened Numbers
  import opened Colors

  datatype Weight = Normal | Bold

  datatype Align = Left | Center | Right

  /** A fully resolved style; lengths are in PDF points. */
  datatype Style = Style(
    fontSize: real,
    fontWeight: Weight,
    color: Rgb,
    lineHeight: real,
    marginTop: real,
    marginBottom: real,
    textAlign: Align)

  /** A style in which every property may be absent. */
  datatype Partial = Partial(
    fontSize: Option<real>,
    fontWeight: Option<Weight>,
    color: Option<Rgb>,
    lineHeight: Option<real>,
    marginTop: Option<real>,
    marginBottom: Option<real>,
    textAlign: Option<Align>)

  /** The empty object `{}`. */
  const NoStyle: Partial := Partial(None, None, None, None, None, None, None)

  /** DEFAULT_STYLE: 11pt regular black text, a line-height factor of 1.4, no margins, left aligned. */
  const DefaultStyle: Style := Style(11.0, Normal, Rgb(0, 0, 0), 1.4, 0.0, 0.0, Left)

  /** The later value where it is present, the earlier one otherwise. */
  function Later<T>(a: Option<T>, b: Option<T>): Option<T> {
    if b.Some? then b else a
  }

  /** `{ ...a, ...b }` on partial styles. */
  function Overlay(a: Partial, b: Partial): Partial {
    Partial(
      Later(a.fontSize, b.fontSize),
      Later(a.fontWeight, b.fontWeight),
      Later(a.color, b.color),
      Later(a.lineHeight, b.lineHeight),
      Later(a.marginTop, b.marginTop),
      Later(a.marginBottom, b.marginBottom),
      Later(a.textAlign, b.textAlign))
  }

  /** `{ ...s, ...p }` for a full style `s`: the properties `p` sets replace those of `s`. */
  function Apply(s: Style, p: Partial): Style {
    Style(
      p.fontSize.OrElse(s.fontSize),
      p.fontWeight.OrElse(s.fontWeight),
      p.color.OrElse(s.color),
      p.lineHeight.OrElse(s.lineHeight),
      p.marginTop.OrElse(s.marginTop),
      p.marginBottom.OrElse(s.marginBottom),
      p.textAlign.OrElse(s.textAlign))
  }

  /** A full style seen as a partial one with every property present. */
  function Full(s: Style): Partial {
    Partial(Some(s.fontSize), Some(s.fontWeight), Some(s.color), Some(s.lineHeight),
            Some(s.marginTop), Some(s.marginBottom), Some(s.textAlign))
  }

  lemma {:induction false} OverlayIdentity(a: Partial)
    ensures Overlay(NoStyle, a) == a && Overlay(a, NoStyle) == a
  {
  }

  lemma {:induction false} OverlayAssociative(a: Partial, b: Partial, c: Partial)
    ensures Overlay(Overlay(a, b), c) == Overlay(a, Overlay(b, c))
  {
  }

  /** Spreading two partial styles one after the other is spreading their overlay. */
  lemma {:induction false} ApplyOverlay(s: Style, a: Partial, b: Partial)
    ensures Apply(Apply(s, a), b) == Apply(s, Overlay(a, b))
  {
  }

  /** A full style spread over anything replaces it entirely. */
  lemma {:induction false} ApplyFull(s: Style, t: Style)
    ensures Apply(s, Full(t)) == t
  {
  }

  /* ---------------------------------------------------------------- lengths */

  function HasSuffix(s: string, suffix: string): bool {
    |suffix| <= |s| && s[|s| - |suffix|..] == suffix
  }

  /** A digit of the trimmed, lower-cased text is a digit of the text. */
  lemma {:induction false} HasDigitOfNormalized(value: string, n: string)
    requires n == Lower(Trim(value))
    requires HasDigit(n)
    ensures HasDigit(value)
  {
    HasDigitOfLower(Trim(value));
    HasDigitOfTrim(value);
  }

  /** CSS pixels to points: 96 pixels to the inch against 72 points. */
  function PxToPt(px: real): real {
    px * 0.75
  }

  /** The number part of a length: the text before a `px` or `pt` unit, or all of it. */
  function NumberPart(n: string): (r: string)
    ensures |r| <= |n| && r == n[..|r|]
  {
    if HasSuffix(n, "px") || HasSuffix(n, "pt") then n[..|n| - 2] else n
  }

  /** The length reader on trimmed, lower-cased text: `Npx` is `N * 0.75` points, `Npt` and a
      bare number are `N` points, where `N` is read by `parseFloat`. */
  function NormalPoints(n: string): Option<real> {
    if |n| == 0 then None
    else
      var number := ParseFloat(NumberPart(n));
      if HasSuffix(n, "px") && number.Some? then Some(PxToPt(number.value)) else number
  }

  /** A length is only read from text that holds a digit. */
  lemma {:induction false} NormalPointsHasDigit(n: string)
    requires NormalPoints(n).Some?
    ensures HasDigit(n)
  {
    HasDigitOfPrefix(n, NumberPart(n));
  }

  /** toPoints: lengths in `px` are converted at 0.75 points per pixel, lengths in `pt` and bare
      numbers are points; the unit is recognised after trimming and lower-casing, and text
      with no digit has no length. */
  function ToPoints(value: string): (r: Option<real>)
    ensures r.Some? ==> HasDigit(value)
  {
    var n := Lower(Trim(value));
    var r := NormalPoints(n);
    if r.Some? then
      NormalPointsHasDigit(n);
      HasDigitOfNormalized(value, n);
      r
    else r
  }

  /** Normalising lower-cased text is normalising the text. */
  lemma {:induction false} NormalizeOfLower(s: string)
    ensures Lower(Trim(Lower(s))) == Lower(Trim(s))
  {
    TrimOfLower(s);
    LowerIdempotent(Trim(s));
  }

  /** toPoints does not see the case of its input. */
  lemma {:induction false} ToPointsIgnoresCase(s: string)
    ensures ToPoints(Lower(s)) == ToPoints(s)
  {
    NormalizeOfLower(s);
  }

  /** toPoints does not see whitespace around its input. */
  lemma {:induction false} ToPointsIgnoresPadding(p: string, s: string, e: string)
    requires AllSpace(p) && AllSpace(e)
    ensures ToPoints(p + s + e) == ToPoints(s)
  {
    TrimSkipsPadding(p, s, e);
  }

  /** Whitespace-only text has no length. */
  lemma {:induction false} ToPointsOfBlank(s: string)
    requires AllSpace(s)
    ensures ToPoints(s) == None
  {
    TrimSkipsPadding(s, "", "");
    assert s + "" + "" == s;
  }

  /** The units toPoints recognises, or none. */
  predicate IsUnit(unit: string) {
    unit == "" || unit == "px" || unit == "pt"
  }

  /** A literal followed by a unit is already trimmed and lower-case. */
  lemma {:induction false} LiteralWithUnitIsNormal(l: Literal, unit: string)
    requires ValidLiteral(l) && IsUnit(unit)
    ensures Lower(Trim(LiteralText(l) + unit)) == LiteralText(l) + unit
  {
    var n := LiteralText(l);
    var t := n + unit;
    LiteralTextIsPlain(l);
    assert PlainChars(unit);
    PlainAppend(n, unit);
    assert t[0] == n[0];
    TrimmedByEnds(t);
    assert NoUpper(t);
    LowerOfNoUpper(t);
  }

  /** The number part of a literal followed by a unit is the literal. */
  lemma {:induction false} NumberPartOfLiteral(l: Literal, unit: string)
    requires ValidLiteral(l) && IsUnit(unit)
    ensures NumberPart(LiteralText(l) + unit) == LiteralText(l)
    ensures HasSuffix(LiteralText(l) + unit, "px") <==> unit == "px"
  {
    var n := LiteralText(l);
    var t := n + unit;
    if unit == "" {
      LiteralTextIsPlain(l);
      assert t == n;
      assert !HasSuffix(t, "px") && !HasSuffix(t, "pt") by {
        if |t| >= 2 {
          assert t[|t| - 2..][1] == t[|t| - 1];
        }
      }
    } else {
      assert t[|t| - 2..] == unit;
      assert t[..|t| - 2] == n;
    }
  }

  lemma {:induction false} NormalPointsOfLiteral(l: Literal, unit: string)
    requires ValidLiteral(l) && IsUnit(unit)
    ensures unit == "px" ==> NormalPoints(LiteralText(l) + unit) == Some(PxToPt(LiteralValue(l)))
    ensures unit != "px" ==> NormalPoints(LiteralText(l) + unit) == Some(LiteralValue(l))
  {
    NumberPartOfLiteral(l, unit);
    ParseFloatOfLiteral(l, "");
    assert LiteralText(l) + "" == LiteralText(l);
    NormalPointsOfNumber(LiteralText(l), unit, LiteralValue(l));
  }

  /** A number followed by a unit is read as the number, converted when the unit is `px`. */
  lemma {:induction false} NormalPointsOfNumber(t: string, unit: string, v: real)
    requires NumberPart(t + unit) == t && (HasSuffix(t + unit, "px") <==> unit == "px")
    requires ParseFloat(t) == Some(v)
    ensures unit == "px" ==> NormalPoints(t + unit) == Some(PxToPt(v))
    ensures unit != "px" ==> NormalPoints(t + unit) == Some(v)
  {
  }

  lemma {:induction false} LiteralWithUnitIsRead(l: Literal, unit: string)
    requires ValidLiteral(l) && IsUnit(unit)
    ensures ToPoints(LiteralText(l) + unit) == NormalPoints(LiteralText(l) + unit)
  {
    LiteralWithUnitIsNormal(l, unit);
  }

  /** `Npx` is `N` pixels converted to points, for every decimal literal `N`. */
  lemma {:induction false} ToPointsOfPx(l: Literal)
    requires ValidLiteral(l)
    ensures ToPoints(LiteralText(l) + "px") == Some(PxToPt(LiteralValue(l)))
  {
    LiteralWithUnitIsRead(l, "px");
    NormalPointsOfLiteral(l, "px");
  }

  /** `Npt` is `N` points. */
  lemma {:induction false} ToPointsOfPt(l: Literal)
    requires ValidLiteral(l)
    ensures ToPoints(LiteralText(l) + "pt") == Some(LiteralValue(l))
  {
    LiteralWithUnitIsRead(l, "pt");
    NormalPointsOfLiteral(l, "pt");
  }

  /** A bare number is taken as points. */
  lemma {:induction false} ToPointsOfBare(l: Literal)
    requires ValidLiteral(l)
    ensures ToPoints(LiteralText(l)) == Some(LiteralValue(l))
  {
    LiteralWithUnitIsRead(l, "");
    NormalPointsOfLiteral(l, "");
    assert LiteralText(l) + "" == LiteralText(l);
  }

  /* ---------------------------------------------------------------- declarations */

  /** The line-height rule: a value whose leading number is positive is kept as it is (so
      `16px` means 16 and a unit is not converted); otherwise the value is read as a length. */
  function LineHeightValue(value: string): (r: Option<real>)
    ensures r.Some? ==> HasDigit(value)
  {
    var numeric := ParseFloat(value);
    if numeric.Some? && numeric.value > 0.0 then numeric else ToPoints(value)
  }

  /** The three keywords of `text-align`, matched exactly. */
  function AlignOf(value: string): (r: Option<Align>)
    ensures r.Some? <==> value in {"left", "center", "right"}
  {
    if value == "left" then Some(Left)
    else if value == "center" then Some(Center)
    else if value == "right" then Some(Right)
    else None
  }

  /** `bold`, or an integer prefix of at least 600, is bold; anything else is normal. */
  function WeightOf(value: string): Weight {
    var n := ParseInt(value);
    if value == "bold" || (n.Some? && n.value >= 600) then Bold else Normal
  }

  predicate IsKnownProperty(prop: string) {
    prop in {"font-size", "font-weight", "color", "line-height", "margin-top", "margin-bottom", "text-align"}
  }

  /** The partial style holds at most the property named `prop`. */
  predicate SetsAtMost(r: Partial, prop: string) {
    && (r.fontSize.Some? ==> prop == "font-size")
    && (r.fontWeight.Some? ==> prop == "font-weight")
    && (r.color.Some? ==> prop == "color")
    && (r.lineHeight.Some? ==> prop == "line-height")
    && (r.marginTop.Some? ==> prop == "margin-top")
    && (r.marginBottom.Some? ==> prop == "margin-bottom")
    && (r.textAlign.Some? ==> prop == "text-align")
  }

  /** The effect of one declaration whose property name is already trimmed and lower-cased
      and whose value is trimmed, as the properties it sets. */
  function Property(prop: string, value: string): (r: Partial)
    ensures SetsAtMost(r, prop)
    ensures !IsKnownProperty(prop) ==> r == NoStyle
    ensures r.fontWeight.Some? <==> prop == "font-weight"
    ensures r.textAlign.Some? <==> prop == "text-align" && value in {"left", "center", "right"}
    ensures r.fontSize.Some? || r.lineHeight.Some? || r.marginTop.Some? || r.marginBottom.Some? ==> HasDigit(value)
  {
    if prop == "font-size" then NoStyle.(fontSize := ToPoints(value))
    else if prop == "font-weight" then NoStyle.(fontWeight := Some(WeightOf(value)))
    else if prop == "color" then NoStyle.(color := ParseColor(value))
    else if prop == "line-height" then NoStyle.(lineHeight := LineHeightValue(value))
    else if prop == "margin-top" then NoStyle.(marginTop := ToPoints(value))
    else if prop == "margin-bottom" then NoStyle.(marginBottom := ToPoints(value))
    else if prop == "text-align" then NoStyle.(textAlign := AlignOf(value))
    else NoStyle
  }

  /** One `;`-separated piece of a declaration list: the name before the first `:` is trimmed
      and lower-cased, the value after it trimmed; a piece without `:`, or with an empty name or
      value, sets nothing. */
  function Declaration(part: string): (r: Partial)
    ensures ':' !in part ==> r == NoStyle
  {
    var i := IndexOf(part, ':');
    if i < 0 then NoStyle
    else
      var prop := Lower(Trim(part[..i]));
      var value := Trim(part[i + 1..]);
      if |prop| == 0 || |value| == 0 then NoStyle else Property(prop, value)
  }

  /** The declarations of `parts` applied in order on top of `acc`. */
  function FoldDeclarations(acc: Partial, parts: seq<string>): Partial
    decreases |parts|
  {
    if |parts| == 0 then acc else FoldDeclarations(Overlay(acc, Declaration(parts[0])), parts[1..])
  }

  /** parseStyleDeclarations: the pieces of `css` between semicolons, each applied in turn, so
      that a later declaration of a property replaces an earlier one. */
  function ParseDeclarations(css: string): Partial {
    FoldDeclarations(NoStyle, Split(css, ';'))
  }

  /** Folding from any start is overlaying the fold from the empty style. */
  lemma {:induction false} FoldDeclarationsFrom(acc: Partial, parts: seq<string>)
    ensures FoldDeclarations(acc, parts) == Overlay(acc, FoldDeclarations(NoStyle, parts))
    decreases |parts|
  {
    if |parts| > 0 {
      var d := Declaration(parts[0]);
      FoldDeclarationsFrom(Overlay(acc, d), parts[1..]);
      FoldDeclarationsFrom(Overlay(NoStyle, d), parts[1..]);
      OverlayIdentity(d);
      OverlayAssociative(acc, d, FoldDeclarations(NoStyle, parts[1..]));
    }
  }

  lemma {:induction false} FoldDeclarationsConcat(acc: Partial, a: seq<string>, b: seq<string>)
    ensures FoldDeclarations(acc, a + b) == FoldDeclarations(FoldDeclarations(acc, a), b)
    decreases |a|
  {
    if |a| > 0 {
      assert (a + b)[1..] == a[1..] + b;
      FoldDeclarationsConcat(Overlay(acc, Declaration(a[0])), a[1..], b);
    } else {
      assert a + b == b;
    }
  }

  /** Two declaration lists joined by `;` mean the second spread over the first: every
      property the second sets wins, the others keep the first list's value. */
  lemma {:induction false} ParseDeclarationsConcat(a: string, b: string)
    ensures ParseDeclarations(a + ";" + b) == Overlay(ParseDeclarations(a), ParseDeclarations(b))
  {
    SplitConcat(a, b, ';');
    FoldDeclarationsConcat(NoStyle, Split(a, ';'), Split(b, ';'));
    FoldDeclarationsFrom(ParseDeclarations(a), Split(b, ';'));
  }

  lemma {:induction false} FoldWithoutColon(acc: Partial, parts: seq<string>)
    requires forall i :: 0 <= i < |parts| ==> ':' !in parts[i]
    ensures FoldDeclarations(acc, parts) == acc
    decreases |parts|
  {
    if |parts| > 0 {
      OverlayIdentity(acc);
      FoldWithoutColon(acc, parts[1..]);
    }
  }

  /** A declaration list without any `:` sets nothing. */
  lemma {:induction false} ParseDeclarationsWithoutColon(css: string)
    requires ':' !in css
    ensures ParseDeclarations(css) == NoStyle
  {
    var parts := Split(css, ';');
    JoinSplit(css, ';');
    forall i | 0 <= i < |parts|
      ensures ':' !in parts[i]
    {
      var start := JoinAt(parts, [';'], i);
      forall k | 0 <= k < |parts[i]|
        ensures parts[i][k] != ':'
      {
        assert parts[i][k] == css[start + k];
      }
    }
    FoldWithoutColon(NoStyle, parts);
  }

  /** A single declaration whose name and value need no trimming. */
  lemma {:induction false} DeclarationOfPair(prop: string, value: string)
    requires ':' !in prop && |prop| > 0 && IsTrimmed(prop) && NoUpper(prop)
    requires |value| > 0 && IsTrimmed(value)
    ensures Declaration(prop + ":" + value) == Property(prop, value)
  {
    var part := prop + ":" + value;
    assert part[|prop|] == ':' && part[..|prop|] == prop;
    assert ':' !in part[..|prop|];
    assert IndexOf(part, ':') == |prop|;
    assert part[|prop| + 1..] == value;
    TrimOfTrimmed(prop);
    LowerOfNoUpper(prop);
    TrimOfTrimmed(value);
  }

  /** A declaration with a blank value sets nothing. */
  lemma {:induction false} DeclarationWithoutValue(prop: string, pad: string)
    requires ':' !in prop && AllSpace(pad)
    ensures Declaration(prop + ":" + pad) == NoStyle
  {
    var part := prop + ":" + pad;
    assert IndexOf(part, ':') == |prop| by {
      assert part[|prop|] == ':' && part[..|prop|] == prop;
    }
    assert Trim(part[|prop| + 1..]) == "" by {
      assert part[|prop| + 1..] == pad + "" + "";
      TrimSkipsPadding(pad, "", "");
    }
  }

  /** A declaration with a blank name sets nothing. */
  lemma {:induction false} DeclarationWithoutName(pad: string, value: string)
    requires AllSpace(pad)
    ensures Declaration(pad + ":" + value) == NoStyle
  {
    var part := pad + ":" + value;
    assert part[|pad|] == ':' && part[..|pad|] == pad;
    assert ':' !in pad by {
      PrintableIsNotSpace(':');
    }
    assert IndexOf(part, ':') == |pad|;
    TrimSkipsPadding(pad, "", "");
    assert pad + "" + "" == pad;
  }

  /** `font-weight` is bold for numbers from 600 up and normal for smaller ones, whatever
      non-digit text follows the number: `700px` and `650 !important` are bold. */
  lemma {:induction false} WeightOfNumber(n: nat, tail: string)
    requires |tail| == 0 || !IsDigit(tail[0])
    ensures WeightOf(NatStr(n) + tail) == if n >= 600 then Bold else Normal
  {
    ParseIntOfNatStr(n, tail);
    assert NatStr(n) + tail != "bold" by {
      assert IsDigit((NatStr(n) + tail)[0]);
    }
  }

  /** A signed weight: `+700` is bold like `700`, and a negative number is always normal. */
  lemma {:induction false} WeightOfSigned(sign: char, n: nat, tail: string)
    requires sign == '+' || sign == '-'
    requires |tail| == 0 || !IsDigit(tail[0])
    ensures WeightOf([sign] + NatStr(n) + tail) == if sign == '+' && n >= 600 then Bold else Normal
  {
    ParseIntOfSigned(sign, n, tail);
    assert [sign] + NatStr(n) + tail != "bold" by {
      assert ([sign] + NatStr(n) + tail)[0] == sign;
    }
  }

  /** Text without a digit is bold only when it is exactly `bold`: the comparison is
      case-sensitive and `bolder` is not `bold`. */
  lemma {:induction false} WeightOfWord(value: string)
    requires !HasDigit(value)
    ensures WeightOf(value) == (if value == "bold" then Bold else Normal)
  {
  }

  /** `Bold`, `BOLD` and `bolder` are all normal. */
  lemma {:induction false} WeightWordsAreExact()
    ensures WeightOf("bold") == Bold
    ensures WeightOf("Bold") == Normal && WeightOf("BOLD") == Normal && WeightOf("bolder") == Normal
  {
    assert !HasDigit("Bold") by { assert forall i :: 0 <= i < 4 ==> !IsDigit("Bold"[i]); }
    assert !HasDigit("BOLD") by { assert forall i :: 0 <= i < 4 ==> !IsDigit("BOLD"[i]); }
    assert !HasDigit("bolder") by { assert forall i :: 0 <= i < 6 ==> !IsDigit("bolder"[i]); }
    WeightOfWord("Bold");
    WeightOfWord("BOLD");
    WeightOfWord("bolder");
  }

  /** A line-height whose leading number is positive is stored as that number, whatever
      follows it: `1.5` is 1.5 and `16px` is 16. */
  lemma {:induction false} LineHeightOfPositive(l: Literal, tail: string)
    requires ValidLiteral(l) && EndsNumber(tail) && LiteralValue(l) > 0.0
    ensures LineHeightValue(LiteralText(l) + tail) == Some(LiteralValue(l))
  {
    ParseFloatOfLiteral(l, tail);
  }

  /** A line-height in pixels is stored as the bare number: it is not converted to points. */
  lemma {:induction false} LineHeightPxIsNotConverted(l: Literal)
    requires ValidLiteral(l) && LiteralValue(l) > 0.0
    ensures LineHeightValue(LiteralText(l) + "px") == Some(LiteralValue(l))
    ensures ToPoints(LiteralText(l) + "px") == Some(PxToPt(LiteralValue(l))) && PxToPt(LiteralValue(l)) < LiteralValue(l)
  {
    LineHeightOfPositive(l, "px");
    ToPointsOfPx(l);
    PxShrinks(LiteralValue(l));
  }

  lemma {:induction false} PxShrinks(x: real)
    requires x > 0.0
    ensures PxToPt(x) < x
  {
  }

  /** A line-height whose number is zero or negative falls back to toPoints, which converts a
      `px` length. */
  lemma {:induction false} LineHeightOfNonPositive(l: Literal, unit: string)
    requires ValidLiteral(l) && IsUnit(unit) && LiteralValue(l) <= 0.0
    ensures LineHeightValue(LiteralText(l) + unit) == ToPoints(LiteralText(l) + unit)
    ensures LineHeightValue(LiteralText(l) + unit) == Some(if unit == "px" then PxToPt(LiteralValue(l)) else LiteralValue(l))
  {
    ParseFloatOfLiteral(l, unit);
    LiteralWithUnitIsRead(l, unit);
    NormalPointsOfLiteral(l, unit);
  }

  /** A line-height of zero falls back to toPoints, which reads it as zero points. */
  lemma {:induction false} LineHeightZero()
    ensures LineHeightValue("0") == Some(0.0)
  {
    var zero := Literal(false, 0, "", 0);
    assert LiteralText(zero) + "" == "0";
    assert LiteralValue(zero) == 0.0;
    assert "" != "px";
    LineHeightOfNonPositive(zero, "");
  }

  /** The common unitless line-height: `1.5` is stored as 1.5, to be scaled by the font size. */
  lemma {:induction false} LineHeightOneAndAHalf()
    ensures LineHeightValue("1.5") == Some(1.5)
  {
    var l := Literal(false, 1, "5", 0);
    assert LiteralText(l) + "" == "1.5";
    assert LiteralValue(l) == 1.5;
    LineHeightOfPositive(l, "");
  }
}

=== FILE: text.dfy ===
/**
 * String primitives the native engine relies on: JavaScript's `trim`, ASCII
 * `toLowerCase`, `split` on one character, `split(/\s+/).filter(Boolean)`,
 * `join`, and `replace(/\s+/g, " ").trim()` (collapseWhitespace in
 * packages/nexdf/src/native.ts).
 */
module Text {

  /** The ECMAScript WhiteSpace and LineTerminator code points, which are exactly what
      `String.prototype.trim` removes and what the regular-expression class `\s` matches:
      tab to carriage return, the space, and eleven code points from U+00A0 upwards with the
      range U+2000 to U+200A. */
  predicate IsSpace(c: char) {
    if c <= ' ' then '\t' <= c <= '\r' || c == ' '
    else '\U{00A0}' <= c && IsWideSpace(c)
  }

  predicate IsWideSpace(c: char) {
    || c == '\U{00A0}' || c == '\U{1680}' || '\U{2000}' <= c <= '\U{200A}'
    || c == '\U{2028}' || c == '\U{2029}' || c == '\U{202F}' || c == '\U{205F}'
    || c == '\U{3000}' || c == '\U{FEFF}'
  }

  /** The space character is whitespace. */
  lemma SpaceIsSpace()
    ensures IsSpace(' ')
  {
  }

  /** No printable ASCII character other than the space is whitespace. */
  lemma PrintableIsNotSpace(c: char)
    requires '!' <= c <= '~'
    ensures !IsSpace(c)
  {
  }

  predicate AllSpace(s: string) {
    forall i :: 0 <= i < |s| ==> IsSpace(s[i])
  }

  /** A non-empty run of non-whitespace characters. */
  predicate IsWord(w: string) {
    |w| > 0 && forall i :: 0 <= i < |w| ==> !IsSpace(w[i])
  }

  /** Empty, or beginning and ending with a non-whitespace character. */
  predicate IsTrimmed(s: string) {
    |s| == 0 || (!IsSpace(s[0]) && !IsSpace(s[|s| - 1]))
  }

  /* ---------------------------------------------------------------- case */

  predicate IsUpper(c: char) {
    'A' <= c <= 'Z'
  }

  /** Text without ASCII capitals, which `toLowerCase` leaves unchanged. */
  predicate NoUpper(s: string) {
    forall i :: 0 <= i < |s| ==> !IsUpper(s[i])
  }

  function LowerChar(c: char): char {
    if IsUpper(c) then (c as int + 32) as char else c
  }

  /** `toLowerCase`, restricted to the ASCII letters. */
  function Lower(s: string): (r: string)
    ensures |r| == |s|
    ensures forall i :: 0 <= i < |s| ==> r[i] == LowerChar(s[i])
  {
    if |s| == 0 then "" else [LowerChar(s[0])] + Lower(s[1..])
  }

  /** Lower-casing changes nothing in a text without capitals. */
  lemma {:induction false} LowerOfNoUpper(s: string)
    requires NoUpper(s)
    ensures Lower(s) == s
    decreases |s|
  {
    if |s| > 0 {
      LowerOfNoUpper(s[1..]);
      assert s == [s[0]] + s[1..];
    }
  }

  lemma {:induction false} LowerCharKeepsSpace(c: char)
    ensures IsSpace(LowerChar(c)) <==> IsSpace(c)
  {
    if IsUpper(c) {
      PrintableIsNotSpace(c);
      PrintableIsNotSpace(LowerChar(c));
    }
  }

  /* ---------------------------------------------------------------- trim */

  /** The suffix of `s` left after dropping its maximal leading whitespace run. */
  function TrimStart(s: string): (r: string)
    ensures |r| <= |s| && r == s[|s| - |r|..]
    ensures |r| == 0 || !IsSpace(r[0])
    ensures forall i :: 0 <= i < |s| - |r| ==> IsSpace(s[i])
  {
    if |s| > 0 && IsSpace(s[0]) then TrimStart(s[1..]) else s
  }

  /** The prefix of `s` left after dropping its maximal trailing whitespace run. */
  function TrimEnd(s: string): (r: string)
    ensures |r| <= |s| && r == s[..|r|]
    ensures |r| == 0 || !IsSpace(r[|r| - 1])
    ensures forall i :: |r| <= i < |s| ==> IsSpace(s[i])
  {
    if |s| > 0 && IsSpace(s[|s| - 1]) then TrimEnd(s[..|s| - 1]) else s
  }

  /** `String.prototype.trim`. */
  function Trim(s: string): (r: string)
    ensures IsTrimmed(r)
    ensures |r| <= |s|
  {
    TrimEnd(TrimStart(s))
  }

  lemma {:induction false} TrimStartOfPadded(p: string, x: string)
    requires AllSpace(p)
    requires |x| == 0 || !IsSpace(x[0])
    ensures TrimStart(p + x) == x
  {
    if |p| > 0 {
      assert (p + x)[1..] == p[1..] + x;
      TrimStartOfPadded(p[1..], x);
    } else {
      assert p + x == x;
    }
  }

  lemma {:induction false} TrimEndOfPadded(x: string, e: string)
    requires AllSpace(e)
    requires |x| == 0 || !IsSpace(x[|x| - 1])
    ensures TrimEnd(x + e) == x
  {
    if |e| > 0 {
      assert (x + e)[..|x + e| - 1] == x + e[..|e| - 1];
      TrimEndOfPadded(x, e[..|e| - 1]);
    } else {
      assert x + e == x;
    }
  }

  /** Whitespace added around an already trimmed string is exactly what `trim` removes. */
  lemma {:induction false} TrimOfPadded(p: string, j: string, e: string)
    requires AllSpace(p) && AllSpace(e) && IsTrimmed(j)
    ensures Trim(p + j + e) == j
  {
    if |j| == 0 {
      assert p + j + e == p + e;
      TrimStartOfPadded(p + e, "");
      assert p + e + "" == p + e;
    } else {
      assert p + j + e == p + (j + e);
      TrimStartOfPadded(p, j + e);
      TrimEndOfPadded(j, e);
    }
  }

  /** Text that begins and ends with a printable non-blank ASCII character is trimmed. */
  lemma {:induction false} TrimmedByEnds(s: string)
    requires |s| > 0 && '!' <= s[0] <= '~' && '!' <= s[|s| - 1] <= '~'
    ensures IsTrimmed(s) && Trim(s) == s
  {
    PrintableIsNotSpace(s[0]);
    PrintableIsNotSpace(s[|s| - 1]);
    TrimOfTrimmed(s);
  }

  /** A trimmed string is its own trim. */
  lemma {:induction false} TrimOfTrimmed(s: string)
    requires IsTrimmed(s)
    ensures Trim(s) == s
  {
    TrimOfPadded("", s, "");
    assert "" + s + "" == s;
  }

  lemma {:induction false} LowerOfTrimmed(s: string)
    requires IsTrimmed(s)
    ensures IsTrimmed(Lower(s))
  {
    if |s| > 0 {
      LowerCharKeepsSpace(s[0]);
      LowerCharKeepsSpace(s[|s| - 1]);
    }
  }

  lemma {:induction false} LowerIdempotent(s: string)
    ensures Lower(Lower(s)) == Lower(s)
  {
  }

  lemma {:induction false} TrimStartOfLower(s: string)
    ensures TrimStart(Lower(s)) == Lower(TrimStart(s))
    decreases |s|
  {
    if |s| > 0 {
      LowerCharKeepsSpace(s[0]);
      assert Lower(s)[1..] == Lower(s[1..]);
      TrimStartOfLower(s[1..]);
    }
  }

  lemma {:induction false} TrimEndOfLower(s: string)
    ensures TrimEnd(Lower(s)) == Lower(TrimEnd(s))
    decreases |s|
  {
    if |s| > 0 {
      LowerCharKeepsSpace(s[|s| - 1]);
      assert Lower(s)[..|s| - 1] == Lower(s[..|s| - 1]);
      TrimEndOfLower(s[..|s| - 1]);
    }
  }

  /** Trimming and ASCII lower-casing commute. */
  lemma {:induction false} TrimOfLower(s: string)
    ensures Trim(Lower(s)) == Lower(Trim(s))
  {
    TrimStartOfLower(s);
    TrimEndOfLower(TrimStart(s));
  }

  lemma {:induction false} TrimStartSkipsPadding(p: string, x: string)
    requires AllSpace(p)
    ensures TrimStart(p + x) == TrimStart(x)
    decreases |p|
  {
    if |p| > 0 {
      assert (p + x)[1..] == p[1..] + x;
      TrimStartSkipsPadding(p[1..], x);
    } else {
      assert p + x == x;
    }
  }

  lemma {:induction false} TrimEndSkipsPadding(x: string, e: string)
    requires AllSpace(e)
    ensures TrimEnd(x + e) == TrimEnd(x)
    decreases |e|
  {
    if |e| > 0 {
      assert (x + e)[..|x + e| - 1] == x + e[..|e| - 1];
      TrimEndSkipsPadding(x, e[..|e| - 1]);
    } else {
      assert x + e == x;
    }
  }

  lemma {:induction false} TrimStartOfAppend(s: string, e: string)
    ensures TrimStart(s + e) == if AllSpace(s) then TrimStart(e) else TrimStart(s) + e
    decreases |s|
  {
    if |s| > 0 {
      assert (s + e)[1..] == s[1..] + e;
      TrimStartOfAppend(s[1..], e);
      if IsSpace(s[0]) {
        assert AllSpace(s) <==> AllSpace(s[1..]);
      } else {
        assert !AllSpace(s);
      }
    } else {
      assert s + e == e;
    }
  }

  /** `trim` ignores whitespace added at either end. */
  lemma {:induction false} TrimSkipsPadding(p: string, s: string, e: string)
    requires AllSpace(p) && AllSpace(e)
    ensures Trim(p + s + e) == Trim(s)
  {
    assert p + s + e == p + (s + e);
    TrimStartSkipsPadding(p, s + e);
    TrimStartOfAppend(s, e);
    if AllSpace(s) {
      assert TrimStart(e) == "";
      assert TrimStart(s) == "";
    } else {
      TrimEndSkipsPadding(TrimStart(s), e);
    }
  }

  /* ---------------------------------------------------------------- search */

  /** `indexOf`: the position of the first occurrence of `c`, or -1. */
  function IndexOf(s: string, c: char): (i: int)
    ensures -1 <= i < |s|
    ensures i == -1 <==> c !in s
    ensures i >= 0 ==> s[i] == c && c !in s[..i]
  {
    if |s| == 0 then -1
    else if s[0] == c then 0
    else
      var j := IndexOf(s[1..], c);
      assert s[1..][..if j < 0 then 0 else j] == s[1..if j < 0 then 1 else j + 1];
      if j < 0 then -1 else j + 1
  }

  /* ---------------------------------------------------------------- split and join */

  /** `split(sep)` on a one-character separator; the empty string gives `[""]`. */
  function Split(s: string, sep: char): (parts: seq<string>)
    ensures |parts| >= 1
  {
    if |s| == 0 then [""]
    else
      var rest := Split(s[1..], sep);
      if s[0] == sep then [""] + rest
      else [[s[0]] + rest[0]] + rest[1..]
  }

  /** `join(glue)`. */
  function Join(parts: seq<string>, glue: string): string {
    if |parts| == 0 then ""
    else if |parts| == 1 then parts[0]
    else parts[0] + glue + Join(parts[1..], glue)
  }

  /** Each part sits whole inside the joined text, at the returned offset. */
  lemma {:induction false} JoinAt(parts: seq<string>, glue: string, i: nat) returns (start: nat)
    requires i < |parts|
    ensures start + |parts[i]| <= |Join(parts, glue)|
    ensures Join(parts, glue)[start..start + |parts[i]|] == parts[i]
    decreases |parts|
  {
    var joined := Join(parts, glue);
    if |parts| == 1 {
      start := 0;
    } else if i == 0 {
      assert joined == parts[0] + (glue + Join(parts[1..], glue));
      start := 0;
    } else {
      var inner := JoinAt(parts[1..], glue, i - 1);
      var head := parts[0] + glue;
      assert joined == head + Join(parts[1..], glue);
      start := |head| + inner;
      assert joined[start..start + |parts[i]|] == Join(parts[1..], glue)[inner..inner + |parts[i]|];
    }
  }

  /** The trimmed text is a slice of the text, at the returned offset. */
  lemma {:induction false} TrimAt(s: string) returns (start: nat)
    ensures start + |Trim(s)| <= |s| && Trim(s) == s[start..start + |Trim(s)|]
  {
    var t := TrimStart(s);
    start := |s| - |t|;
    assert Trim(s) == t[..|Trim(s)|];
  }

  lemma {:induction false} JoinAppend(parts: seq<string>, last: string, glue: string)
    requires |parts| > 0
    ensures Join(parts + [last], glue) == Join(parts, glue) + glue + last
  {
    if |parts| == 1 {
      assert parts + [last] == [parts[0], last];
    } else {
      assert (parts + [last])[1..] == parts[1..] + [last];
      JoinAppend(parts[1..], last, glue);
    }
  }

  /** Joining the pieces of a split with the separator restores the string. */
  lemma {:induction false} JoinSplit(s: string, sep: char)
    ensures Join(Split(s, sep), [sep]) == s
    decreases |s|
  {
    if |s| > 0 {
      JoinSplit(s[1..], sep);
      var rest := Split(s[1..], sep);
      if s[0] == sep {
        assert Split(s, sep)[1..] == rest;
      } else {
        var parts := Split(s, sep);
        assert parts[1..] == rest[1..];
        if |rest| > 1 {
          assert Join(rest, [sep]) == rest[0] + [sep] + Join(rest[1..], [sep]);
        }
      }
    }
  }

  /** Splitting text joined with the separator gives back the pieces, when no piece holds the separator. */
  lemma {:induction false} SplitJoin(parts: seq<string>, sep: char)
    requires |parts| >= 1
    requires forall i :: 0 <= i < |parts| ==> sep !in parts[i]
    ensures Split(Join(parts, [sep]), sep) == parts
    decreases |parts|
  {
    if |parts| == 1 {
      SplitNoSeparator(parts[0], sep);
    } else {
      SplitJoin(parts[1..], sep);
      SplitConcat(parts[0], Join(parts[1..], [sep]), sep);
      SplitNoSeparator(parts[0], sep);
      assert parts == [parts[0]] + parts[1..];
    }
  }

  lemma {:induction false} SplitNoSeparator(s: string, sep: char)
    requires sep !in s
    ensures Split(s, sep) == [s]
    decreases |s|
  {
    if |s| > 0 {
      assert sep !in s[1..];
      SplitNoSeparator(s[1..], sep);
      assert [s[0]] + s[1..] == s;
    }
  }

  /** A separator between two texts separates their pieces. */
  lemma {:induction false} SplitConcat(a: string, b: string, sep: char)
    ensures Split(a + [sep] + b, sep) == Split(a, sep) + Split(b, sep)
    decreases |a|
  {
    if |a| == 0 {
      assert a + [sep] + b == [sep] + b;
      SplitCons(sep, b, sep);
    } else {
      SplitConcat(a[1..], b, sep);
      SplitConcatStep(a, b, sep);
    }
  }

  /** The induction step of SplitConcat: the first character of `a` is added in front. */
  lemma {:induction false} SplitConcatStep(a: string, b: string, sep: char)
    requires |a| > 0
    requires Split(a[1..] + [sep] + b, sep) == Split(a[1..], sep) + Split(b, sep)
    ensures Split(a + [sep] + b, sep) == Split(a, sep) + Split(b, sep)
  {
    var t := a[1..];
    var tail := [sep] + b;
    ConsAround(a, tail);
    assert a + [sep] + b == a + tail;
    assert t + [sep] + b == t + tail;
    SplitCons(a[0], t, sep);
    SplitCons(a[0], t + tail, sep);
    var ra, rb := Split(t, sep), Split(b, sep);
    if a[0] == sep {
      PrependPiece(ra, rb);
    } else {
      PrependToFirst([a[0]], ra, rb);
    }
  }

  lemma {:induction false} ConsAround(a: string, rest: string)
    requires |a| > 0
    ensures a == [a[0]] + a[1..] && a + rest == [a[0]] + (a[1..] + rest)
  {
  }

  lemma {:induction false} PrependPiece(ra: seq<string>, rb: seq<string>)
    ensures [""] + (ra + rb) == ([""] + ra) + rb
  {
  }

  /** Adding to the front of the first piece commutes with appending more pieces. */
  lemma {:induction false} PrependToFirst(x: string, ra: seq<string>, rb: seq<string>)
    requires |ra| > 0
    ensures [x + (ra + rb)[0]] + (ra + rb)[1..] == ([x + ra[0]] + ra[1..]) + rb
  {
    assert (ra + rb)[0] == ra[0];
    assert (ra + rb)[1..] == ra[1..] + rb;
  }

  /** Split of a text by its first character: a separator starts a new, empty piece; any
      other character joins the first piece of the rest. */
  lemma {:induction false} SplitCons(c: char, t: string, sep: char)
    ensures var rest := Split(t, sep);
            Split([c] + t, sep) == if c == sep then [""] + rest else [[c] + rest[0]] + rest[1..]
  {
    assert ([c] + t)[1..] == t;
  }

  /* ---------------------------------------------------------------- words */

  /** Length of the leading non-whitespace run. */
  function WordLen(s: string): (n: nat)
    ensures n <= |s|
    ensures forall i :: 0 <= i < n ==> !IsSpace(s[i])
    ensures n == |s| || IsSpace(s[n])
  {
    if |s| == 0 || IsSpace(s[0]) then 0 else 1 + WordLen(s[1..])
  }

  /** `split(/\s+/).filter(Boolean)`: the maximal non-whitespace runs of `s`, in order. */
  function Words(s: string): (ws: seq<string>)
    ensures forall i :: 0 <= i < |ws| ==> IsWord(ws[i])
    ensures |ws| <= |s|
    decreases |s|
  {
    if |s| == 0 then []
    else if IsSpace(s[0]) then Words(s[1..])
    else
      var n := WordLen(s);
      [s[..n]] + Words(s[n..])
  }

  lemma {:induction false} WordsOfBlank(s: string)
    requires AllSpace(s)
    ensures Words(s) == []
  {
    if |s| > 0 {
      WordsOfBlank(s[1..]);
    }
  }

  lemma {:induction false} WordsSkipPadding(p: string, s: string)
    requires AllSpace(p)
    ensures Words(p + s) == Words(s)
    decreases |p|
  {
    if |p| > 0 {
      assert (p + s)[1..] == p[1..] + s;
      WordsSkipPadding(p[1..], s);
    } else {
      assert p + s == s;
    }
  }

  lemma {:induction false} WordsOfTrimStart(s: string)
    ensures Words(TrimStart(s)) == Words(s)
    decreases |s|
  {
    if |s| > 0 && IsSpace(s[0]) {
      WordsOfTrimStart(s[1..]);
    }
  }

  lemma {:induction false} WordLenOfWord(w: string, x: string)
    requires IsWord(w)
    requires |x| == 0 || IsSpace(x[0])
    ensures WordLen(w + x) == |w|
    decreases |w|
  {
    if |w| > 1 {
      assert (w + x)[1..] == w[1..] + x;
      WordLenOfWord(w[1..], x);
    } else {
      assert (w + x)[1..] == x;
    }
  }

  /** Joining words with single spaces gives a trimmed, non-empty text when there is a word. */
  lemma {:induction false} JoinWordsTrimmed(ws: seq<string>)
    requires forall i :: 0 <= i < |ws| ==> IsWord(ws[i])
    ensures IsTrimmed(Join(ws, " "))
    ensures |ws| > 0 ==> IsWord(ws[0]) && |Join(ws, " ")| > 0 && Join(ws, " ")[0] == ws[0][0]
    decreases |ws|
  {
    if |ws| > 1 {
      JoinWordsTrimmed(ws[1..]);
    }
  }

  /** The words of a single-space join are the joined words. */
  lemma {:induction false} WordsOfJoin(ws: seq<string>)
    requires forall i :: 0 <= i < |ws| ==> IsWord(ws[i])
    ensures Words(Join(ws, " ")) == ws
    decreases |ws|
  {
    if |ws| == 1 {
      WordLenOfWord(ws[0], "");
      assert ws[0] + "" == ws[0];
    } else if |ws| > 1 {
      var rest := Join(ws[1..], " ");
      var s := ws[0] + " " + rest;
      assert s == ws[0] + (" " + rest);
      SpaceIsSpace();
      WordLenOfWord(ws[0], " " + rest);
      assert s[..|ws[0]|] == ws[0];
      assert s[|ws[0]|..] == " " + rest;
      assert (" " + rest)[1..] == rest;
      WordsOfJoin(ws[1..]);
    }
  }

  /* ---------------------------------------------------------------- collapse */

  /** `replace(/\s+/g, " ")`: every maximal whitespace run becomes one space. */
  function Squeeze(s: string): string
    decreases |s|
  {
    if |s| == 0 then ""
    else if IsSpace(s[0]) then " " + Squeeze(TrimStart(s))
    else [s[0]] + Squeeze(s[1..])
  }

  /** collapseWhitespace: squeeze whitespace runs, then trim. */
  function Collapse(s: string): string {
    Trim(Squeeze(s))
  }

  lemma {:induction false} SqueezeOfWord(w: string, t: string)
    requires forall i :: 0 <= i < |w| ==> !IsSpace(w[i])
    ensures Squeeze(w + t) == w + Squeeze(t)
    decreases |w|
  {
    if |w| > 0 {
      assert (w + t)[1..] == w[1..] + t;
      SqueezeOfWord(w[1..], t);
    } else {
      assert w + t == t;
    }
  }

  /** One space when the text ends in whitespace, otherwise nothing. */
  function TrailingPad(s: string): string {
    if |s| > 0 && IsSpace(s[|s| - 1]) then " " else ""
  }

  lemma {:induction false} Regroup(a: string, b: string, c: string, d: string)
    ensures a + (b + (c + d)) == (a + b + c) + d
  {
  }

  lemma {:induction false} SqueezeAfterWord(s: string, w: string, rest: string, t: string)
    requires s == w + rest && IsWord(w)
    requires |rest| > 0 && IsSpace(rest[0]) && t == TrimStart(rest)
    requires Squeeze(t) == Join(Words(t), " ") + TrailingPad(t)
    ensures w + Squeeze(rest) == Join([w] + Words(rest), " ") + TrailingPad(s)
  {
    assert Squeeze(rest) == " " + Squeeze(t);
    WordsOfTrimStart(rest);
    var ws := Words(t);
    var l := [w] + ws;
    if |t| == 0 {
      assert s[|s| - 1] == rest[|rest| - 1];
      assert TrailingPad(s) == " ";
      assert ws == [];
      assert l == [w];
      assert Join(l, " ") == w;
      assert w + Squeeze(rest) == w + " ";
    } else {
      assert s[|s| - 1] == t[|t| - 1];
      var pad := TrailingPad(t);
      assert TrailingPad(s) == pad;
      assert ws == [t[..WordLen(t)]] + Words(t[WordLen(t)..]);
      assert |l| > 1 && l[0] == w && l[1..] == ws;
      assert Join(l, " ") == w + " " + Join(ws, " ");
      calc {
        w + Squeeze(rest);
        w + (" " + (Join(ws, " ") + pad));
        { Regroup(w, " ", Join(ws, " "), pad); }
        Join(l, " ") + pad;
      }
    }
  }

  /** Without leading whitespace, squeezing gives the single-space join of the words,
      plus one space when the text ends in whitespace. */
  lemma {:induction false} SqueezeShape(s: string)
    requires |s| == 0 || !IsSpace(s[0])
    ensures Squeeze(s) == Join(Words(s), " ") + TrailingPad(s)
    decreases |s|
  {
    if |s| > 0 {
      var n := WordLen(s);
      var w, rest := s[..n], s[n..];
      assert s == w + rest;
      assert Words(s) == [w] + Words(rest);
      SqueezeOfWord(w, rest);
      if |rest| == 0 {
        assert TrailingPad(s) == "";
        assert Words(rest) == [];
      } else {
        var t := TrimStart(rest);
        SqueezeShape(t);
        SqueezeAfterWord(s, w, rest, t);
      }
    }
  }

  lemma {:induction false} TrailingPadBlank(s: string)
    ensures AllSpace(TrailingPad(s))
  {
    SpaceIsSpace();
  }

  lemma {:induction false} Regroup3(a: string, b: string, c: string)
    ensures a + (b + c) == a + b + c
  {
  }

  /** collapseWhitespace yields the words of its input joined by single spaces. */
  lemma {:induction false} CollapseIsJoinedWords(s: string)
    ensures Collapse(s) == Join(Words(s), " ")
  {
    var t := TrimStart(s);
    WordsOfTrimStart(s);
    SqueezeShape(t);
    JoinWordsTrimmed(Words(s));
    var j := Join(Words(s), " ");
    var e := TrailingPad(t);
    TrailingPadBlank(t);
    if |s| > 0 && IsSpace(s[0]) {
      assert Squeeze(s) == " " + Squeeze(t);
      SpaceIsSpace();
      Regroup3(" ", j, e);
      TrimOfPadded(" ", j, e);
    } else {
      assert t == s;
      Regroup3("", j, e);
      TrimOfPadded("", j, e);
    }
  }

  /** collapseWhitespace keeps the words and their order. */
  lemma {:induction false} WordsOfCollapse(s: string)
    ensures Words(Collapse(s)) == Words(s)
  {
    CollapseIsJoinedWords(s);
    WordsOfJoin(Words(s));
  }

  /** collapseWhitespace is empty exactly for whitespace-only text. */
  lemma {:induction false} CollapseEmpty(s: string)
    ensures Collapse(s) == "" <==> Words(s) == []
  {
    CollapseIsJoinedWords(s);
    JoinWordsTrimmed(Words(s));
  }

  /** `" ".repeat(n)`. */
  function Spaces(n: nat): (r: string)
    ensures |r| == n && AllSpace(r)
  {
    SpaceIsSpace();
    if n == 0 then "" else " " + Spaces(n - 1)
  }
}
